=== FILE: README.md ===
# UnrealImGui bridge: a Dafny model of its control logic

This project models the deterministic control logic of the UnrealImGui plugin. The plugin embeds the Dear ImGui
immediate-mode GUI library in Unreal Engine. Its core has seven parts:

- **Context proxy** (`ImGuiContextProxy`). Each ImGui context has a proxy that runs a frame state machine. The
  state is three flags and the last engine frame number: frame started, draw called, last frame. `Tick` advances
  at most once per engine frame. When a frame is open it draws, ends the frame, captures the active-item and
  cursor values, and begins the next frame. `Draw` broadcasts the proxy's own draw event and the event shared by
  all contexts, in an order that a console variable chooses.
- **Input state and interop** (`ImGuiInputState`, `ImGuiInterops`). The input state has a keys array and a mouse
  buttons array of fixed size. Each array has a dirty `[begin, end)` update range. There is also a wheel
  accumulator, a bounded character buffer and modifier flags. `CopyInput` moves the dirty parts into the
  library's IO structure. The interop module also holds the key and mouse lookup tables, the cursor mapping, and
  the colour, rectangle and texture-id conversions.
- **Draw data** (`ImGuiDrawData`). Commands are taken out of a captured draw list. Index sub-ranges and vertices
  are copied, and a transfer moves a library draw list into the bridge's own list.
- **Texture registry** (`TextureManager`). The registry is an append-only sequence of uniquely named textures. Each
  entry holds a brush that draws its texture; the resource handle an entry declares is never assigned, so the
  handle lookup always gives the invalid default. The registry also builds the pixel buffer of a plain one-colour
  texture.
- **Widget** (`ImGuiWidget`). The Slate widget runs an input-mode machine: None, MousePointerOnly or
  MouseAndKeyboard, chosen from keyboard focus and mouse hover. It also has keyboard and pointer handlers, input
  enabling, and the paint loop that walks the commands of every draw list.
- **Module manager** (`ImGuiModuleManager`, `ImGuiContextManager`). This part covers:
  - starting and stopping, with tick registration;
  - the manager tick;
  - reuse of widget slots;
  - the walk over the viewport list, which stops at the end of the list or on returning to the main viewport;
  - destruction.
- **Module and delegates** (`ImGuiModule`, `ImGuiDelegates`). Draw listeners are routed to a context's own event or
  to the shared event by handle category and context index. The module also has startup and shutdown and the
  input-mode and show-demo settings. The bridge's delegate handle has value semantics.

The model is a set of immutable datatypes with pure transition functions. The ImGui library is a record of
uninterpreted functions (`ImGuiLibrary.Library`). The draw listeners are a function from event and context to
context. Engine and host queries are parameters: focus, hover, foreground window, console state, thread identity,
console variables and the engine frame number. The host's delegate-handle generator and the widget factory are
parameters too. The host's multicast delegates are sequences of handles.

Integer widths are modelled explicitly where they matter. Texture indices and context indices are `int32`. Key
and mouse indices are `uint32`, with `(uint32)-1` as "no index". Texture ids are 64-bit. Colours are `bv32`.
Mouse positions and wheel deltas are `real`.

`ImGuiInputState.cpp`, `ImGuiDrawData.cpp`, the context manager and the world-context index helpers are not
modelled from their implementations. Their behaviour here is fixed from the headers' declarations and doc
comments, with these choices:

- `SetKeyDown` and `SetMouseDown` ignore indices outside their arrays.
- An empty update range is placed so that widening it by index `i` gives exactly `[i, i+1)`.
- A keyboard reset clears keys and characters. A mouse reset clears buttons, position and wheel. Both mark their
  array dirty in full. Modifiers are cleared only by the full reset. The pointer flag is never reset.
- The context manager is a map from context index to proxy. A world's proxy is created on first reference, by a
  factory passed as a parameter.
- The editor and standalone-game context indices are configuration values (`ImGuiModule.ContextIndices`).

Where the code and its documentation differ, the model follows the code:

- `ImGuiContextProxy.EndFrame` does not force a draw. The header says a draw is forced before the frame ends if
  nobody asked for one; that happens in `Tick`, which calls `Draw` and then `EndFrame`.
- `SImGuiWidget::OnKeyDown` returns early for an ignored key event, and `IgnoreKeyEvent` ignores the tilde key
  always. So the later tilde check in `OnKeyDown` (line 166) can never fire. `ImGuiWidget.OnKeyDown` keeps the
  branch, and `ImGuiWidget.IgnoredKeysNeverRecorded` shows that a tilde never reaches the state.

## Model

| member | source | states |
|---|---|---|
| Integers.WrapUInt32 | Source/ImGui/Private/TextureManager.cpp:44-45 | the implicit conversion to a 32-bit unsigned value keeps the integer modulo 2^32 |
| Integers.WrapInt32 | Source/ImGui/Private/ImGuiInteroperability.cpp:60 | the implicit conversion of a `uint32` key index into the library's `int` key map keeps it modulo 2^32, in the signed range |
| Integers.WrapKeepsFittingValues | Source/ImGui/Private/ImGuiInteroperability.h:92-101 | both conversions leave any value that already fits in the target width unchanged |
| ImGuiLibrary.KeySlot | Source/ImGui/Private/ImGuiInteroperability.cpp:58-88 | every semantic key the bridge maps has its own slot inside the key map |
| ImGuiLibrary.KeySlotBijective | Source/ImGui/Private/ImGuiInteroperability.cpp:58-88 | the slots of the mapped keys are pairwise distinct and cover the key map exactly |
| ImGuiInputState.EmptyRange | Source/ImGui/Private/ImGuiInputState.h:46-47 | an empty update range lies inside its array, and widening it by any index `i` gives exactly `[i, i+1)` |
| ImGuiInputState.FullRange | Source/ImGui/Private/ImGuiInputState.h:29-30 | the whole-array range contains exactly the indices of the array |
| ImGuiInputState.NewInputState | Source/ImGui/Private/ImGuiInputState.h:29-30 | a new state holds no key, button, character or modifier, has no pointer, and marks the whole of both arrays dirty |
| ImGuiInputState.AddCharacter | Source/ImGui/Private/ImGuiInputState.h:38-41 | below the 16-character capacity the character is stored in the next slot and the count goes up by one; at capacity it is discarded; no other field changes |
| ImGuiInputState.AddCharactersKeepsFirst | Source/ImGui/Private/ImGuiInputState.h:38-41 | however many characters arrive, the buffer holds the first ones in arrival order up to the capacity, and the count never exceeds 16 |
| ImGuiInputState.SetKeyDown | Source/ImGui/Private/ImGuiInputState.h:49-52 | the key's entry becomes the given state, the keys update range widens to contain it without losing indices, and the mouse part and modifiers are untouched |
| ImGuiInputState.SingleKeyChangeAfterClear | Source/ImGui/Private/ImGuiInputState.h:49-52 | after the per-frame clear, one key change leaves exactly that key's index dirty |
| ImGuiInputState.SetMouseDown | Source/ImGui/Private/ImGuiInputState.h:60-63 | the button's entry becomes the given state, the buttons update range widens to contain it, and the keyboard part is untouched |
| ImGuiInputState.AddMouseWheelDelta | Source/ImGui/Private/ImGuiInputState.h:70 | the wheel accumulator grows by exactly the delta and nothing else changes |
| ImGuiInputState.SetMousePosition | Source/ImGui/Private/ImGuiInputState.h:77 | only the mouse position changes, to the given one |
| ImGuiInputState.SetMousePointer | Source/ImGui/Private/ImGuiInputState.h:84 | only the pointer flag changes, to the given one |
| ImGuiInputState.SetControlDown | Source/ImGui/Private/ImGuiInputState.h:91 | only the Control flag changes, to the given one |
| ImGuiInputState.SetShiftDown | Source/ImGui/Private/ImGuiInputState.h:98 | only the Shift flag changes, to the given one |
| ImGuiInputState.SetAltDown | Source/ImGui/Private/ImGuiInputState.h:105 | only the Alt flag changes, to the given one |
| ImGuiInputState.Reset | Source/ImGui/Private/ImGuiInputState.h:107-122 | each chosen part is cleared with its whole array marked dirty; a part not chosen stays as it was; modifiers are cleared only when both parts are; the pointer flag is kept |
| ImGuiInputState.ResetState | Source/ImGui/Private/ImGuiInputState.h:108 | keyboard, mouse and modifiers are all cleared and marked dirty; the pointer flag is kept |
| ImGuiInputState.ResetKeyboardState | Source/ImGui/Private/ImGuiInputState.h:111 | the keyboard part is cleared and dirty; the mouse part and modifiers are kept |
| ImGuiInputState.ResetMouseState | Source/ImGui/Private/ImGuiInputState.h:114 | the mouse part is cleared and dirty; the keyboard part and modifiers are kept |
| ImGuiInputState.ClearUpdateState | Source/ImGui/Private/ImGuiInputState.h:116-118 | both update ranges become empty, the wheel accumulator and character buffer are cleared, and key, button, position, pointer and modifier states are kept |
| ImGuiInterops.CopyAll | Source/ImGui/Private/ImGuiInteroperability.cpp:17-25 | the destination becomes an element-for-element copy of the equally sized source |
| ImGuiInterops.CopyRange | Source/ImGui/Private/ImGuiInteroperability.cpp:27-34 | entries inside the range come from the source, all others keep the destination's values |
| ImGuiInterops.CopyCount | Source/ImGui/Private/ImGuiInteroperability.cpp:36-45 | the first `count` entries come from the source, the rest stay; `count` must be smaller than the array size |
| ImGuiInterops.CopyExtremes | Source/ImGui/Private/ImGuiInteroperability.cpp:17-45 | a full-range copy is a full copy, and an empty range or zero count changes nothing |
| ImGuiInterops.GetKeyIndex | Source/ImGui/Private/ImGuiInteroperability.cpp:91-111 | the key code is preferred, the char code is the fallback, and a key with neither gets `(uint32)-1` |
| ImGuiInterops.KeyIndexFollowsCodes | Source/ImGui/Private/ImGuiInteroperability.cpp:91-111 | keys with distinct key codes get distinct indices, keys with the same codes get the same index, and the index is `(uint32)-1` exactly when the chosen code is missing or is itself `(uint32)-1` |
| ImGuiInterops.GetKeyFromIndex | Source/ImGui/Private/ImGuiInteroperability.cpp:113-116 | the key of an index is the key manager's key for that index used as both key code and character code |
| ImGuiInterops.KeyIndexRoundTrip | Source/ImGui/Private/ImGuiInteroperability.cpp:91-116 | for a key manager assumed to find a key back from the code `GetKeyIndex` picks, `GetKeyFromIndex` of a key's index designates that key; the key manager's inverse is an assumption, not a property of the bridge |
| ImGuiInterops.GetKeyEventIndex | Source/ImGui/Private/ImGuiInteroperability.h:46-49 | a key event's index is its character when non-zero, its key code otherwise |
| ImGuiInterops.HostKeyOfInjective | Source/ImGui/Private/ImGuiInteroperability.cpp:58-88 | the key-map table maps distinct semantic keys to distinct host keys |
| ImGuiInterops.UnrealKeyMap | Source/ImGui/Private/ImGuiInteroperability.cpp:54-89 | each semantic key's slot holds the index of its host key, in the library's `int` width |
| ImGuiInterops.SetUnrealKeyMap | Source/ImGui/Private/ImGuiInteroperability.cpp:54-89 | the IO key map becomes the static table and no other IO field changes |
| ImGuiInterops.SetUnrealKeyMapIdempotent | Source/ImGui/Private/ImGuiInteroperability.cpp:58-88 | setting the key map again writes the same table, and a key's slot holds its key code when it has one |
| ImGuiInterops.GetMouseIndex | Source/ImGui/Private/ImGuiInteroperability.cpp:118-142 | the result is a valid button index or `(uint32)-1` |
| ImGuiInterops.MouseIndexBijective | Source/ImGui/Private/ImGuiInteroperability.cpp:118-142 | Left, Right, Middle, Thumb and Thumb2 map to 0..4 and back, and every other key gives `(uint32)-1` |
| ImGuiInterops.GetPointerEventMouseIndex | Source/ImGui/Private/ImGuiInteroperability.h:55-58 | a pointer event's index is that of its effecting button |
| ImGuiInterops.ToSlateMouseCursor | Source/ImGui/Private/ImGuiInteroperability.cpp:144-172 | the mapping is total, and exactly the None and unknown kinds map to no cursor |
| ImGuiInterops.ToSlateMouseCursorInjective | Source/ImGui/Private/ImGuiInteroperability.cpp:144-172 | the named kinds map to pairwise distinct Slate cursors |
| ImGuiInterops.UnpackImU32Color | Source/ImGui/Private/ImGuiInteroperability.h:77-83 | each channel is the byte `(color >> shift) & 0xFF` of its own shift |
| ImGuiInterops.ColorRoundTrip | Source/ImGui/Private/ImGuiInteroperability.h:77-83 | unpacking and repacking with the same shifts are mutually inverse |
| ImGuiInterops.ToSlateRect | Source/ImGui/Private/ImGuiInteroperability.h:85-89 | x, y, z and w become left, top, right and bottom |
| ImGuiInterops.ToImTextureID | Source/ImGui/Private/ImGuiInteroperability.h:97-101 | a texture index becomes the 64-bit pointer value of its sign extension |
| ImGuiInterops.ToTextureIndex | Source/ImGui/Private/ImGuiInteroperability.h:91-95 | a texture id becomes its low 32 bits read as a signed index |
| ImGuiInterops.TextureIdRoundTrip | Source/ImGui/Private/ImGuiInteroperability.h:91-101 | `ToTextureIndex(ToImTextureID(i)) == i` for every index, and an id survives the reverse trip exactly when it is a sign-extended 32-bit value |
| ImGuiInterops.CopyInput | Source/ImGui/Private/ImGuiInteroperability.cpp:178-218 | the draw-cursor flag, position and modifiers are overwritten, Super is forced off, the wheel delta is added, dirty key and button ranges are copied, and characters are copied only when some are held |
| ImGuiInterops.CopyInputOfSyncedState | Source/ImGui/Private/ImGuiInteroperability.cpp:204-212 | when every entry outside the dirty ranges already agrees, copying makes the IO arrays equal the state's arrays |
| ImGuiInterops.ClearAfterCopyKeepsSynced | Source/ImGui/Private/ImGuiInteroperability.cpp:204-212 | copying and then clearing the update state leaves IO and state in agreement for the next frame |
| ImGuiInterops.MutationsKeepSynced | Source/ImGui/Private/ImGuiInputState.h:49-63 | key and button changes and resets keep IO and state in agreement, because they mark what they change dirty |
| ImGuiInterops.CopyInputAccumulatesWheel | Source/ImGui/Private/ImGuiInteroperability.cpp:195 | two copies add both wheel deltas to the IO wheel value |
| ImGuiDrawData.WithObsoleteClippingApi | Source/ImGui/Private/ImGuiDrawData.h:13-15 | the per-vertex clipping interface is selected for engine versions before 4.17 |
| ImGuiDrawData.ObsoleteClippingApiBefore417 | Source/ImGui/Private/ImGuiDrawData.h:13-15 | the set of versions with the obsolete clipping API is closed downward: every version older than one that uses it uses it too |
| ImGuiDrawData.NumCommands | Source/ImGui/Private/ImGuiDrawData.h:31 | the number of commands is the command buffer's length |
| ImGuiDrawData.GetCommand | Source/ImGui/Private/ImGuiDrawData.h:36-40 | a command takes its element count unchanged, its clip rectangle through `ToSlateRect` and its texture through `ToTextureIndex` |
| ImGuiDrawData.GetCommandKeepsTextureIndex | Source/ImGui/Private/ImGuiDrawData.h:36-40 | a command whose texture id was made from an index gives that index back |
| ImGuiDrawData.CommandIndicesInBuffer | Source/ImGui/Private/ImGuiDrawData.h:55-56 | when the index buffer covers the sum of all element counts, each command's run of indices lies inside it |
| ImGuiDrawData.ElementsBeforeMonotonic | Source/ImGui/Private/ImGuiDrawData.h:56 | the running index offset never decreases along the command list |
| ImGuiDrawData.CopyIndexData | Source/ImGui/Private/ImGuiDrawData.h:55-60 | the output is exactly the source indices `[startIndex, startIndex + numElements)` |
| ImGuiDrawData.CopyVertexData | Source/ImGui/Private/ImGuiDrawData.h:42-53 | the output has one host vertex per library vertex, in order, each the library vertex moved by the offset with its texture coordinate, its unpacked colour and the optional clip rectangle |
| ImGuiDrawData.ScreenVertexKeepsVertex | Source/ImGui/Private/ImGuiDrawData.h:42-53 | the vertex conversion loses nothing: moving the position back and packing the colour again gives the library vertex, so distinct vertices stay distinct |
| ImGuiDrawData.TransferDrawData | Source/ImGui/Private/ImGuiDrawData.h:62-63 | all three buffers move into the list, and the source is left empty |
| ImGuiDrawData.TransferDrawDataMovesEverything | Source/ImGui/Private/ImGuiDrawData.h:62-63 | the result does not depend on the list's previous contents, and the moved-out source stays empty if moved again |
| TextureManager.IndexOfName | Source/ImGui/Private/TextureManager.h:33-36 | the result is the first entry with the name, or -1 when no entry has it |
| TextureManager.FindTextureIndex | Source/ImGui/Private/TextureManager.h:30-36 | `INDEX_NONE` exactly when no entry has the name; otherwise an in-range index of an entry with that name |
| TextureManager.GetTextureName | Source/ImGui/Private/TextureManager.h:38-44 | the name of entry `index`; in a registry with unique names, looking that name up finds `index` again |
| TextureManager.NewTextureEntry | Source/ImGui/Private/TextureManager.cpp:53-62 | a new entry has the given name and texture and a brush whose resource object is the texture; its resource handle is left at the invalid default |
| TextureManager.GetTextureHandle | Source/ImGui/Private/TextureManager.h:46-52 | the handle stored in entry `index`; since the entry constructor never assigns it, in a registry of constructed entries it is the default, invalid handle |
| TextureManager.CreateTextureThenLookups | Source/ImGui/Private/TextureManager.h:38-62 | after a successful creation the new index gives the new name and the unset default handle, the new entry's brush draws the new texture, and every earlier index gives the name and handle it gave before |
| TextureManager.NameAndIndexCorrespond | Source/ImGui/Private/TextureManager.h:33-44 | with unique names, finding an entry's name gives its index back, and a found name is the name at that index |
| TextureManager.CreateTexture | Source/ImGui/Private/TextureManager.cpp:10-37 | creation fails exactly when the name is registered; otherwise it appends one entry, returns the previous count, and keeps existing entries |
| TextureManager.CreateTextureKeepsRegistryValid | Source/ImGui/Private/TextureManager.cpp:12-36 | names stay pairwise distinct, and the new name is found at the returned index |
| TextureManager.Move | Source/ImGui/Private/TextureManager.h:26-28 | moving transfers every entry in order and leaves the source empty |
| TextureManager.MovePreservesLookups | Source/ImGui/Private/TextureManager.h:26-36 | lookups in the moved-to registry equal the original's, and the moved-from registry finds nothing |
| TextureManager.PixelBytes | Source/ImGui/Private/TextureManager.cpp:42-47 | a packed colour stored in memory is blue, green, red, alpha |
| TextureManager.PlainTextureSizesAsWritten | Source/ImGui/Private/TextureManager.cpp:43-45 | the pixel and byte counts are the 32-bit wrapped products, as the code computes them |
| TextureManager.PlainTextureBufferOverflows | Source/ImGui/Private/TextureManager.cpp:44-47 | at 32768 by 32768 the wrapped byte count is 0 while 2^30 pixels are filled |
| TextureManager.PlainTextureData | Source/ImGui/Private/TextureManager.cpp:41-47 | the buffer has exactly `width * height * 4` bytes, repeating the pixel's memory image |
| TextureManager.PlainTexturePixelsHoldColor | Source/ImGui/Private/TextureManager.cpp:47 | every pixel of the buffer holds the packed colour |
| TextureManager.CreatePlainTexture | Source/ImGui/Private/TextureManager.cpp:39-51 | it fails exactly when the name is registered; otherwise it registers a texture of the given size whose `width * height * 4` bytes all hold the colour at 4 bytes per pixel |
| ImGuiContextProxy.CombinePaths | Source/ImGui/Private/ImGuiContextProxy.cpp:32 | path parts are joined with one `/`, and with none when the left part is empty or ends in a separator or the right part starts with `/`; appending nothing adds a trailing `/` |
| ImGuiContextProxy.SaveDirectory | Source/ImGui/Private/ImGuiContextProxy.cpp:22-36 | the save directory is the saved directory followed by `ImGui`, with at most one separator added |
| ImGuiContextProxy.GetIniFile | Source/ImGui/Private/ImGuiContextProxy.cpp:24-44 | the session path is `<saved dir>/ImGui/<name>.ini`, a leading `/` of the name standing for the separator |
| ImGuiContextProxy.IniFilesDistinct | Source/ImGui/Private/ImGuiContextProxy.cpp:40-50 | 7-bit names without a leading `/` under a 7-bit saved directory get distinct stored file names |
| ImGuiContextProxy.IniFileInSaveDirectory | Source/ImGui/Private/ImGuiContextProxy.cpp:40-44 | every session file is an `.ini` file directly inside the `ImGui` directory |
| ImGuiContextProxy.SamePathSameName | Source/ImGui/Private/ImGuiContextProxy.cpp:40-44 | two names share a session path only when they are equal or one is the other with a leading `/`, which the path append absorbs |
| ImGuiContextProxy.ToAnsi | Source/ImGui/Private/ImGuiContextProxy.cpp:50 | the 8-bit conversion keeps the length and every 7-bit character and turns every other character into `?` |
| ImGuiContextProxy.IniFilename | Source/ImGui/Private/ImGuiContextProxy.cpp:50 | the stored file name is the 8-bit form of the session path: as long as the path, and 7-bit only |
| ImGuiContextProxy.ToAnsiKeepsAscii | Source/ImGui/Private/ImGuiContextProxy.cpp:50 | a 7-bit string is stored unchanged |
| ImGuiContextProxy.AsciiIniFile | Source/ImGui/Private/ImGuiContextProxy.cpp:40-50 | a 7-bit saved directory and name give a 7-bit session path |
| ImGuiContextProxy.LeadingSeparatorNamesShareFile | Source/ImGui/Private/ImGuiContextProxy.cpp:40-44 | the names `x` and `/x` share a session file |
| ImGuiContextProxy.WideNamesShareStoredFile | Source/ImGui/Private/ImGuiContextProxy.cpp:50 | the names `é` and `è` share a stored file name |
| ImGuiContextProxy.SetInputState | Source/ImGui/Private/ImGuiContextProxy.h:38-41 | after binding a state, reading the binding gives it back, and nothing else changes |
| ImGuiContextProxy.GetInputState | Source/ImGui/Private/ImGuiContextProxy.h:38 | the input state the proxy is bound to, if any |
| ImGuiContextProxy.RemoveInputState | Source/ImGui/Private/ImGuiContextProxy.h:43-44 | the binding is cleared only when it is the given state; otherwise the proxy is unchanged |
| ImGuiContextProxy.SetThenRemoveInputState | Source/ImGui/Private/ImGuiContextProxy.h:38-44 | removing the bound state unbinds it, and removing another state keeps the binding |
| ImGuiContextProxy.Draw | Source/ImGui/Private/ImGuiContextProxy.cpp:105-129 | it acts only on a started, undrawn frame and marks it drawn; the shared event fires exactly when it is present and bound, the own event exactly when bound, each at most once, shared first exactly when the variable is positive |
| ImGuiContextProxy.DrawOncePerFrame | Source/ImGui/Private/ImGuiContextProxy.cpp:107-109 | a second draw in the same frame broadcasts nothing and changes nothing |
| ImGuiContextProxy.FrameInput | Source/ImGui/Private/ImGuiContextProxy.cpp:164-170 | the frame's delta time is set, and input is copied only when a state is bound |
| ImGuiContextProxy.BeginFrame | Source/ImGui/Private/ImGuiContextProxy.cpp:160-177 | it does nothing on a started frame; otherwise it feeds the input, starts the library frame, and leaves the frame started and undrawn |
| ImGuiContextProxy.SetNum | Source/ImGui/Private/ImGuiContextProxy.cpp:200 | the list array gets the requested size, keeping leading entries and filling with empty lists |
| ImGuiContextProxy.UpdateDrawData | Source/ImGui/Private/ImGuiContextProxy.cpp:194-210 | with draw data of positive count there are exactly that many lists, each holding its source list's buffers; otherwise the array is empty |
| ImGuiContextProxy.UpdateDrawDataReplacesLists | Source/ImGui/Private/ImGuiContextProxy.cpp:196-209 | the captured lists do not depend on the previous frame's lists |
| ImGuiContextProxy.EndFrame | Source/ImGui/Private/ImGuiContextProxy.cpp:179-192 | it does nothing without a started frame; otherwise it renders, captures the draw data and clears the started flag, without drawing |
| ImGuiContextProxy.Tick | Source/ImGui/Private/ImGuiContextProxy.cpp:131-158 | a tick in an already seen frame is a no-op; otherwise it records the frame, draws and ends an open frame, captures active item, cursor and draw lists from the ended frame, begins the next frame from the ended frame's context with the tick's time step, and keeps the name, session file, draw event and input-state binding |
| ImGuiContextProxy.TickDrawsBeforeEnding | Source/ImGui/Private/ImGuiContextProxy.cpp:140-156 | an effective tick on an open frame broadcasts the draw events, captures the draw lists of the context rendered after drawing, and begins the new frame from that rendered context |
| ImGuiContextProxy.TickOncePerFrame | Source/ImGui/Private/ImGuiContextProxy.cpp:133-136 | a second tick in the same engine frame changes nothing and broadcasts nothing |
| ImGuiContextProxy.FrameStaysStarted | Source/ImGui/Private/ImGuiContextProxy.cpp:131-177 | once started, a proxy stays in the started state across draws and ticks |
| ImGuiContextProxy.NewContextProxy | Source/ImGui/Private/ImGuiContextProxy.cpp:47-87 | a new proxy stores the 8-bit form of its session path and has it, display size and key map set, no input binding, lists or own listeners, and is already in a started, undrawn frame with last frame 0 |
| ImGuiContextProxy.NewProxyIgnoresFrameZero | Source/ImGui/Private/ImGuiContextProxy.h:75-81 | a tick of a new proxy at engine frame 0 is a no-op |
| ImGuiContextManager.GetContextProxy | Source/ImGui/Private/ImGuiModule.cpp:87 | a context's proxy is found exactly when the context exists |
| ImGuiContextManager.GetWorldContextProxy | Source/ImGui/Private/ImGuiModule.cpp:61-66 | a world's proxy exists afterwards; an existing one is returned untouched, a missing one is created, and no other proxy changes |
| ImGuiContextManager.GetWorldContextProxyCreatesOnce | Source/ImGui/Private/ImGuiModule.cpp:61-66 | referring to a world twice creates its context once |
| ImGuiContextManager.SetContextProxy | Source/ImGui/Private/ImGuiModule.cpp:87-90 | replacing one context's proxy keeps the set of contexts and every other proxy |
| ImGuiContextManager.ProxyEnv | Source/ImGui/Private/ImGuiContextProxy.cpp:47-49 | every proxy sees the manager's shared draw event and an otherwise unchanged environment |
| ImGuiContextManager.Tick | Source/ImGui/Private/ImGuiModuleManager.cpp:127-129 | every context is ticked with the shared event; the set of contexts and the shared event stay |
| ImGuiContextManager.TickOncePerFrame | Source/ImGui/Private/ImGuiModuleManager.cpp:127-129 | a second manager tick in the same engine frame changes nothing |
| ImGuiContextManager.SharedListenersDrawEveryContext | Source/ImGui/Private/ImGuiContextProxy.cpp:113-127 | a bound shared listener is broadcast in every context whose open frame a tick ends |
| ImGuiWidget.NewWidget | Source/ImGui/Private/SImGuiWidget.h:123-130 | a new widget has mode None, input disabled, no pending mouse notification and a cleared input state |
| ImGuiWidget.SupportsKeyboardFocus | Source/ImGui/Private/SImGuiWidget.h:48 | the widget accepts keyboard focus exactly while input is enabled |
| ImGuiWidget.HasMouseEventNotification | Source/ImGui/Private/SImGuiWidget.h:105 | a mouse event has been noted since the note was last cleared |
| ImGuiWidget.NotifyMouseEvent | Source/ImGui/Private/SImGuiWidget.h:106 | afterwards a mouse event is reported as received, and nothing else changes |
| ImGuiWidget.ClearMouseEventNotification | Source/ImGui/Private/SImGuiWidget.h:107 | afterwards no mouse event is reported, and nothing else changes |
| ImGuiWidget.UpdateInputMode | Source/ImGui/Private/SImGuiWidget.cpp:395-424 | the mode is MouseAndKeyboard exactly with focus, MousePointerOnly exactly with pointer and no focus, None otherwise; a change into None resets all, MouseAndKeyboard to MousePointerOnly resets only the keyboard, and any other change resets nothing; a change clears the notification, no change keeps state and notification; the pointer flag is `pointer && DrawMouseCursor > 0`, so it is set only with an input mode |
| ImGuiWidget.UpdateInputModeIdempotent | Source/ImGui/Private/SImGuiWidget.cpp:395-424 | re-evaluating the mode with the same hints changes nothing |
| ImGuiWidget.UpdateMouseStatus | Source/ImGui/Private/SImGuiWidget.cpp:426-440 | outside MousePointerOnly nothing happens; in it the notification is cleared, and without a mouse event since the last check the mode is re-evaluated from hover alone |
| ImGuiWidget.OnPostImGuiUpdate | Source/ImGui/Private/SImGuiWidget.cpp:442-448 | with an active mode the input update state is cleared after the library update; in mode None nothing changes |
| ImGuiWidget.PostUpdateClearsOnlyWithInput | Source/ImGui/Private/SImGuiWidget.cpp:444-447 | the post-update step changes the widget only with an active mode and a dirty state, and is idempotent |
| ImGuiWidget.CopyModifierKeys | Source/ImGui/Private/SImGuiWidget.cpp:295-300 | Control, Shift and Alt follow the event and everything else is kept |
| ImGuiWidget.OnKeyChar | Source/ImGui/Private/SImGuiWidget.cpp:143-153 | with the console open the event is unhandled and nothing changes; otherwise the character is added to the input state, nothing else changes, and the event is handled |
| ImGuiWidget.IgnoreKeyEvent | Source/ImGui/Private/SImGuiWidget.cpp:315-334 | the console key is always left to the host, and Escape unless the widget's context has an active item |
| ImGuiWidget.OnKeyDown | Source/ImGui/Private/SImGuiWidget.cpp:155-172 | handled exactly when the console is closed and the key is not ignored; an unhandled event changes nothing; a handled one records the key down and copies modifiers |
| ImGuiWidget.IgnoredKeysNeverRecorded | Source/ImGui/Private/SImGuiWidget.cpp:315-334 | a tilde, or an escape while the proxy has no active item, is unhandled and leaves the widget unchanged |
| ImGuiWidget.OnKeyUp | Source/ImGui/Private/SImGuiWidget.cpp:174-183 | the release and modifiers are always recorded, and the event is unhandled exactly when the console is open |
| ImGuiWidget.KeyUpReleasesKeyDown | Source/ImGui/Private/SImGuiWidget.cpp:155-183 | a key pressed and released again is recorded as up |
| ImGuiWidget.CopyPointerModifierKeys | Source/ImGui/Private/SImGuiWidget.cpp:302-308 | pointer events copy modifiers only in MousePointerOnly mode |
| ImGuiWidget.OnMouseButtonDown | Source/ImGui/Private/SImGuiWidget.cpp:185-191 | the effecting button is recorded down, modifiers copied per mode, and the event handled |
| ImGuiWidget.OnMouseButtonDoubleClick | Source/ImGui/Private/SImGuiWidget.cpp:193-199 | a double click acts exactly like a button press |
| ImGuiWidget.OnMouseButtonUp | Source/ImGui/Private/SImGuiWidget.cpp:201-207 | the effecting button is recorded up, modifiers copied per mode, and the event handled |
| ImGuiWidget.ButtonUpReleasesButtonDown | Source/ImGui/Private/SImGuiWidget.cpp:185-207 | a button pressed and released again is recorded as up |
| ImGuiWidget.OnMouseWheel | Source/ImGui/Private/SImGuiWidget.cpp:209-215 | the wheel delta is accumulated, modifiers copied per mode, and the event handled |
| ImGuiWidget.OnMouseMove | Source/ImGui/Private/SImGuiWidget.cpp:231-240 | the position becomes the event's position relative to the widget, a mouse event is noted, and the mode is kept |
| ImGuiWidget.OnCursorQuery | Source/ImGui/Private/SImGuiWidget.cpp:217-229 | no cursor when the library draws its own or there is no proxy; otherwise the proxy's captured cursor |
| ImGuiWidget.OnFocusReceived | Source/ImGui/Private/SImGuiWidget.cpp:242-254 | receiving focus puts the widget in MouseAndKeyboard mode |
| ImGuiWidget.OnFocusLost | Source/ImGui/Private/SImGuiWidget.cpp:256-263 | losing focus leaves MousePointerOnly when hovered, None otherwise |
| ImGuiWidget.RefreshButtonsFollowsEvent | Source/ImGui/Private/SImGuiWidget.cpp:271-278 | after refreshing a list of buttons, each listed button's state is whether the event reports it pressed, and unlisted buttons keep theirs |
| ImGuiWidget.RefreshSetsAllButtons | Source/ImGui/Private/SImGuiWidget.cpp:271-278 | on entering, every one of the five buttons takes its pressed state from the event |
| ImGuiWidget.OnMouseEnter | Source/ImGui/Private/SImGuiWidget.cpp:265-282 | entering always leaves an active mode: with input already taken the buttons are first refreshed from the event, then the mode is derived with the pointer present |
| ImGuiWidget.OnMouseLeave | Source/ImGui/Private/SImGuiWidget.cpp:284-293 | leaving keeps MouseAndKeyboard only with focus in the foreground window, and drops the pointer |
| ImGuiWidget.UpdateInputEnabled | Source/ImGui/Private/SImGuiWidget.cpp:345-393 | input is enabled exactly when the variable is positive; disabling drops to mode None; focus is requested exactly when enabled, unfocused, the console is closed and the viewport holds focus; a granted request enters MouseAndKeyboard at once, and only then does the foreground check leave MouseAndKeyboard outside the foreground window |
| ImGuiWidget.Tick | Source/ImGui/Private/SImGuiWidget.cpp:131-141 | enablement follows the variable and focus is requested as in `UpdateInputEnabled`; in pointer-only mode the note is cleared, a lost hover drops to None without a pointer, and a kept hover with input enabled keeps the mode, unless a focus request is granted; a granted request gives MouseAndKeyboard in the foreground window and the hover's mode outside it; disabling drops to None; outside the foreground window MouseAndKeyboard is left; any other widget is unchanged |
| ImGuiWidget.UpdateInputEnabledIdempotent | Source/ImGui/Private/SImGuiWidget.cpp:345-393 | a second input-enabled update with the same host state changes nothing and requests focus alike |
| ImGuiWidget.ModeChangesEstablishPointerImpliesInput | Source/ImGui/Private/SImGuiWidget.cpp:265-293 | a new widget and every mode derivation, mouse enter and mouse leave included, show the pointer to the library only with an input mode |
| ImGuiWidget.TickKeepsPointerImpliesInput | Source/ImGui/Private/SImGuiWidget.cpp:131-141 | the mouse status check, the input-enabled update and the whole tick keep the pointer shown only with an input mode |
| ImGuiWidget.HandlersKeepPointerImpliesInput | Source/ImGui/Private/SImGuiWidget.cpp:143-240 | the key, character, button, wheel and move handlers and the post-update clear keep the pointer shown only with an input mode |
| ImGuiWidget.CommandIndices | Source/ImGui/Private/SImGuiWidget.cpp:477-485 | command `k` draws the indices that start at the sum of the earlier element counts, and they lie inside the buffer |
| ImGuiWidget.PaintCommands | Source/ImGui/Private/SImGuiWidget.cpp:477-485 | the index offset starts at 0 and advances by each command's element count, so command `k` gets its own run of indices |
| ImGuiWidget.PaintDrawLists | Source/ImGui/Private/SImGuiWidget.cpp:463-487 | one output per draw list, in order, holding every vertex converted to screen space with the widget's offset and, per command, the converted command and its run of indices |
| ImGuiWidget.OnPaint | Source/ImGui/Private/SImGuiWidget.cpp:450-487 | with a proxy, the context is ticked first and every list captured by that tick is painted, vertex by vertex and command by command; without one nothing is painted |
| ImGuiModuleManager.LoadTextures | Source/ImGui/Private/ImGuiModuleManager.cpp:73-92 | the null texture and then the font atlas are appended after the existing entries, and the font texture id records the atlas index; loading fails exactly when either name is already registered |
| ImGuiModuleManager.RegisterTick | Source/ImGui/Private/ImGuiModuleManager.cpp:94-104 | the tick is registered at most once: with a valid handle nothing changes, otherwise the new handle is bound and kept |
| ImGuiModuleManager.UnregisterTick | Source/ImGui/Private/ImGuiModuleManager.cpp:106-116 | the handle is always left invalid, and the binding is removed when it was valid and Slate is up |
| ImGuiModuleManager.TickRegistrationRoundTrip | Source/ImGui/Private/ImGuiModuleManager.cpp:94-116 | registering twice equals registering once, and register then unregister gives back the host's tick delegate |
| ImGuiModuleManager.Initialize | Source/ImGui/Private/ImGuiModuleManager.cpp:53-62 | only when not yet started and Slate is up: textures are loaded, the tick registered and the manager started; otherwise nothing changes |
| ImGuiModuleManager.Uninitialize | Source/ImGui/Private/ImGuiModuleManager.cpp:64-71 | only when started: the manager is stopped and the tick unregistered |
| ImGuiModuleManager.StartStopKeepTickTied | Source/ImGui/Private/ImGuiModuleManager.cpp:53-71 | starting and stopping keep the tick registered only while started, and stopping leaves it unregistered |
| ImGuiModuleManager.InitializeIdempotent | Source/ImGui/Private/ImGuiModuleManager.cpp:56-61 | a second start changes nothing |
| ImGuiModuleManager.FirstInitializeLoadsTextures | Source/ImGui/Private/ImGuiModuleManager.cpp:15-29 | the first start of a new manager with Slate up cannot fail, finds the plain texture at index 0 and the font atlas at index 1, and the font texture id designates index 1 |
| ImGuiModuleManager.Tick | Source/ImGui/Private/ImGuiModuleManager.cpp:118-135 | only in the game thread outside the Slate thread: the contexts are ticked and then the post-update event is broadcast; otherwise nothing happens |
| ImGuiModuleManager.IsInUpdateThread | Source/ImGui/Private/ImGuiModuleManager.cpp:118-123 | the update thread is the game thread except when it is the framework's loading thread |
| ImGuiModuleManager.ManagerTickOncePerFrame | Source/ImGui/Private/ImGuiModuleManager.cpp:125-135 | a second manager tick in the same frame leaves the contexts as the first left them |
| ImGuiModuleManager.FirstExpiredSlot | Source/ImGui/Private/ImGuiModuleManager.cpp:160-161 | the first expired widget slot, or none exactly when every slot is alive |
| ImGuiModuleManager.AddWidgetToViewport | Source/ImGui/Private/ImGuiModuleManager.cpp:148-168 | the widget binds its context's input state and takes the first expired slot, else is appended; the list grows by one exactly when no slot had expired |
| ImGuiModuleManager.AddWidgetKeepsLiveWidgets | Source/ImGui/Private/ImGuiModuleManager.cpp:160-167 | adding a widget never replaces a live one |
| ImGuiModuleManager.ViewportWalk | Source/ImGui/Private/ImGuiModuleManager.cpp:177-187 | the walk starts at the current viewport, follows the next links, never revisits the first one, and stops at a missing link or back at the first |
| ImGuiModuleManager.WalkStopsOnCycle | Source/ImGui/Private/ImGuiModuleManager.cpp:177-187 | on a ring of `n` viewports the walk visits exactly `n` of them |
| ImGuiModuleManager.AddWidgetsToViewports | Source/ImGui/Private/ImGuiModuleManager.cpp:177-187 | each walked viewport gets its own live widget, and live widgets already present stay |
| ImGuiModuleManager.AddWidgetToAllViewports | Source/ImGui/Private/ImGuiModuleManager.cpp:170-189 | without a main viewport nothing changes; otherwise every viewport of the walk gets a widget |
| ImGuiModuleManager.OnViewportCreated | Source/ImGui/Private/ImGuiModuleManager.cpp:137-146 | a created viewport starts the manager if needed and then gets a widget; it fails exactly when starting fails |
| ImGuiModuleManager.ViewportCreatedStartsAndAttaches | Source/ImGui/Private/ImGuiModuleManager.cpp:137-146 | on a host with Slate up, a started manager cannot fail and leaves the host alone; a stopped one that loads its textures is started and registers its tick; either way the new viewport's context is bound to a live widget and live widgets keep their slots |
| ImGuiModuleManager.NewModuleManager | Source/ImGui/Private/ImGuiModuleManager.cpp:15-29 | a new manager subscribes to viewport creation, is started and ticking exactly when Slate is up, and then has a widget for an existing main viewport |
| ImGuiModuleManager.LiveWidgets | Source/ImGui/Private/ImGuiModuleManager.cpp:41-48 | the widgets still alive, none missing and none extra |
| ImGuiModuleManager.Destroy | Source/ImGui/Private/ImGuiModuleManager.cpp:31-51 | the manager unsubscribes from viewport creation, hands back every live widget for detaching, and ends stopped; a tick registered only while started is unregistered |
| ImGuiDelegates.Add | Source/ImGui/Private/ImGuiModule.cpp:42 | a new binding is appended under the fresh handle, which is returned |
| ImGuiDelegates.Remove | Source/ImGui/Private/ImGuiModule.cpp:85 | the handle is no longer bound and every other binding stays; an unbound handle changes nothing |
| ImGuiDelegates.AddThenRemove | Source/ImGui/Private/ImGuiModule.cpp:42-91 | removing a binding right after adding it gives back the delegate as it was |
| ImGuiDelegates.Reset | Source/ImGui/Public/ImGuiDelegates.h:25-29 | a reset handle is invalid with index 0 and keeps its category |
| ImGuiDelegates.IsValid | Source/ImGui/Public/ImGuiDelegates.h:20-23 | a handle is valid exactly when its host handle is |
| ImGuiDelegates.Equal | Source/ImGui/Public/ImGuiDelegates.h:40-43 | handles are equal when host handle, category and index all are |
| ImGuiDelegates.NotEqual | Source/ImGui/Public/ImGuiDelegates.h:45-48 | inequality is the negation of equality |
| ImGuiDelegates.HandleValueSemantics | Source/ImGui/Public/ImGuiDelegates.h:18-52 | equality is component-wise value equality, inequality its negation, and a default handle is invalid with category and index 0 |
| ImGuiModule.WorldDelegateIndex | Source/ImGui/Private/ImGuiModule.cpp:61-66 | world listeners go to the world's own context in editor builds and to the standalone game context otherwise |
| ImGuiModule.AddContextDelegate | Source/ImGui/Private/ImGuiModule.cpp:38-70 | the listener is bound to that context's own event, creating the context if needed, and the handle has the default category and the context index |
| ImGuiModule.AddEditorImGuiDelegate | Source/ImGui/Private/ImGuiModule.cpp:38-44 | the listener goes to the editor context, with a default-category handle holding the editor index |
| ImGuiModule.AddWorldImGuiDelegate | Source/ImGui/Private/ImGuiModule.cpp:47-70 | the listener goes to the current world's context, with a default-category handle holding that index |
| ImGuiModule.AddMultiContextImGuiDelegate | Source/ImGui/Private/ImGuiModule.cpp:72-77 | the listener goes to the shared event, with a multi-context handle of index 0 |
| ImGuiModule.RemoveImGuiDelegate | Source/ImGui/Private/ImGuiModule.cpp:79-92 | a multi-context handle is removed from the shared event only; another handle from its context's own event if that context exists; without a manager or context nothing changes |
| ImGuiModule.AddThenRemoveContextDelegate | Source/ImGui/Private/ImGuiModule.cpp:38-92 | removing a context listener right after adding it leaves every event as it was |
| ImGuiModule.AddThenRemoveMultiContextDelegate | Source/ImGui/Private/ImGuiModule.cpp:72-92 | removing a shared listener right after adding it gives back the module |
| ImGuiModule.RemoveRespectsCategory | Source/ImGui/Private/ImGuiModule.cpp:81-91 | a handle of one category never touches the other category's events |
| ImGuiModule.StartupModule | Source/ImGui/Private/ImGuiModule.cpp:94-100 | startup needs no manager and creates one, subscribed to viewport creation and ticking only when started |
| ImGuiModule.ShutdownModule | Source/ImGui/Private/ImGuiModule.cpp:102-109 | shutdown needs a manager, destroys it and leaves none, with its subscriptions removed |
| ImGuiModule.StartupThenShutdown | Source/ImGui/Private/ImGuiModule.cpp:94-109 | startup then shutdown gives back the module, removes the viewport subscription from the host, and removes the tick registration when Slate was up |
| ImGuiModule.SetInputMode | Source/ImGui/Private/ImGuiModule.cpp:111-120 | afterwards input mode is on exactly when requested, and the variable is 0 or 1 |
| ImGuiModule.ToggleInputMode | Source/ImGui/Private/ImGuiModule.cpp:122-125 | toggling negates input mode |
| ImGuiModule.IsInputMode | Source/ImGui/Private/ImGuiModule.cpp:111-114 | input mode is on exactly while the input-enabled variable is positive |
| ImGuiModule.SetShowDemo | Source/ImGui/Private/ImGuiModule.cpp:127-136 | afterwards the demo is shown exactly when requested, and the variable is 0 or 1 |
| ImGuiModule.ToggleShowDemo | Source/ImGui/Private/ImGuiModule.cpp:138-141 | toggling negates showing the demo |
| ImGuiModule.IsShowingDemo | Source/ImGui/Private/ImGuiModule.cpp:127-130 | the demo is shown exactly while the show-demo variable is positive |
| ImGuiModule.ToggleTwiceKeepsModes | Source/ImGui/Private/ImGuiModule.cpp:111-141 | two toggles keep a mode, a toggle after a set is the opposite set, and the two settings are independent |

## Left out

- The ImGui library's behaviour. Creating contexts, `NewFrame`, `Render`, `GetDrawData`, `IsAnyItemActive`,
  `GetMouseCursor` and building the font atlas are uninterpreted functions or parameters.
- The Slate batching in `SImGuiWidget::OnPaint`: element batcher, shader resources, the per-command clip
  rectangle (offset by the widget's clip origin and intersected with it, line 491), clip push and pop, and
  `GSlateScissorRect`. The model stops at the vertices, commands and index runs handed to it.
- The debug window drawn by the widget. It is library widget calls only.
- The widget's debug listener on its context's own draw event (`SImGuiWidget.cpp` line 98, removed again at line
  115). Attaching a widget does not bind the proxy's own draw event in the model, so `ImGuiContextProxy.Draw`
  fires the own event only for listeners added through the module. The source also fires it for every proxy that
  has a widget.
- Widget visibility, `SetUserFocus` and viewport focus. These are host side effects. `SetKeyboardFocus` is a
  request that `UpdateInputEnabled` returns; the host's answer is the `focusGranted` parameter, and a granted
  request is applied as `OnFocusReceived` before the foreground check, as Slate delivers it synchronously.
- ImGuiWidget.Tick: the pointer-only clauses (a lost hover drops to None, a kept hover keeps MousePointerOnly) are
  not promised on a tick whose focus request is granted. That tick enters MouseAndKeyboard through
  `OnFocusReceived` (`SImGuiWidget.cpp` lines 382 and 389-392), and its own clauses give the resulting mode.
- Engine and host queries: focus, hover, foreground window, console state, thread identity, the frame number and
  console variables. They are parameters.
- Texture resource lifetime: transient textures, region updates and root-set handling. Entries keep the name,
  size, pixel data, the brush's resource object and the handle only.
- File-system effects: creating the save directory and saving or loading ini files. Only the path is modelled.
- ImGuiContextProxy.CombinePaths: the engine's path append behind `FPaths::Combine` is not modelled from its
  implementation. The model adds a `/` unless the left part is empty or ends in `/` or `\`, or the right part starts
  with `/`. For an empty right part it adds a trailing `/`. It does no other normalisation.
- ImGuiContextProxy.ToAnsi: the engine's wide-to-8-bit conversion behind `TCHAR_TO_ANSI` is not modelled from
  its implementation. The model turns every character outside 7-bit ASCII into `?`. A code page that keeps more
  characters merges fewer names.
- ImGuiContextProxy.IniFilesDistinct: distinct stored file names are promised only for 7-bit names without a
  leading `/` under a 7-bit saved directory. `ImGuiContextProxy.LeadingSeparatorNamesShareFile` and
  `ImGuiContextProxy.WideNamesShareStoredFile` show that other names can share a file. The names the context
  manager gives its contexts are not modelled.
- ImGuiInterops.KeyIndexRoundTrip: the host key manager's inverse is assumed, not proved. Its requires says that
  `GetKeyFromCodes` finds a key back from the code `GetKeyIndex` picks. `FInputKeyManager` is not modelled.
- Input-state resets: `ImGuiInputState.cpp` is not modelled; the header says only that each reset clears its
  part and marks it dirty. Which fields each reset clears is a modelling decision:
  - `ImGuiInputState.ResetKeyboardState` clears keys and characters.
  - `ImGuiInputState.ResetMouseState` clears buttons, position and wheel.
  - Only `ImGuiInputState.ResetState` clears the modifiers.
  - No reset clears the pointer flag.
- The widget's subscription to the manager's post-update event (`SImGuiWidget.cpp` lines 93 and 120). Widgets
  are ids in the manager, so `ImGuiModuleManager.Tick` reports `PostImGuiUpdateBroadcast` as an event. It does
  not call `ImGuiWidget.OnPostImGuiUpdate`. A host that drives the model applies that function to every live
  widget.
- Float arithmetic: `RoundToFloat`, canvas sizes and delta times. Positions and deltas are exact `real`s.
- Case-insensitive `FName` comparison. Texture names compare as exact strings.
- `ImGuiContextProxy.HasActiveItem`, `GetMouseCursor` and `GetDrawData`: these reads are the fields of the proxy
  record, and `ImGuiContextProxy.Tick` states what it captures into them.
- `FImGuiModule::GetInputState` and `GetModuleManager`. These are unchecked accessors; widgets are only ids here.
- ImGuiInterops.GetKeyIndex: the `checkf` for a key with neither code is modelled as the `(uint32)-1` result of
  line 110, not as a failure.
- ImGuiModuleManager.ViewportWalk: the walk has a fuel bound. The source's loop stops only at a missing next
  viewport or on returning to the main viewport, despite its comment about detecting a cycle. Next-viewport links
  that form a cycle bypassing the main viewport make the source loop forever. The model cuts such a walk off when
  the fuel runs out. `ImGuiModuleManager.WalkStopsOnCycle` shows that enough fuel
  reaches the cycle.
- ImGuiModuleManager.LoadTextures: it requires room for two more entries in the 32-bit index range. After the
  first start, a second load can only follow `Uninitialize`, which only the destructor calls. Its failure is
  modelled as a `Failure` result.
- TextureManager.GetTextureName: it requires an index that designates an entry. The source documents an
  out-of-range index as throwing; the model does not represent that failure.
- TextureManager.GetTextureHandle: it requires an index that designates an entry, for the same reason as
  `GetTextureName`.
- TextureManager.GetTextureHandle: the widget draws through the entry's brush (`GetBrush`, `SImGuiWidget.cpp`
  line 488), which the registry header does not declare; the model keeps the brush in the entry but has no
  lookup for it.
- TextureManager.FindTextureIndex: it requires the registry to have fewer entries than the `int32` range, the
  width of the source's index type.
- TextureManager.CreatePlainTexture: it requires non-negative sizes, because the source does not define a
  negative-size buffer. Sizes are unbounded in the corrected version, see Findings.
- ImGuiWidget.PaintCommands: it requires index buffers shorter than 2^31, so the `int32` index offset of the
  source cannot overflow.
- ImGuiWidget.OnPaint: it requires the ticked proxy's draw lists to cover their commands with indices. The
  library promises this, but an uninterpreted function does not.
- ImGuiModule.AddEditorImGuiDelegate and AddWorldImGuiDelegate: finding the current world and its context index
  is an engine lookup. The world's index and the editor and game indices are parameters.
- Handle generation: the host's fresh delegate handles are parameters, required to be valid and unused.

## Findings

| source | as written | input that shows it | evidently intended | confidence | as-written member | corrected member |
|---|---|---|---|---|---|---|
| Source/ImGui/Private/TextureManager.cpp:44-47 | the pixel and byte counts are `uint32` products, so `SizeInBytes = Width * Height * 4` wraps modulo 2^32 | `Width = Height = 32768`: 2^30 pixels, `SizeInBytes` = 0, and `std::fill` writes 2^32 bytes into an empty buffer | a buffer of exactly `Width * Height * 4` bytes, all holding the colour | not executed; medium, since font atlases are far smaller | TextureManager.PlainTextureBufferOverflows | TextureManager.CreatePlainTexture |

=== FILE: ContextManager.dfy ===
/**
 * The set of context proxies, one per context index, and the draw event shared by all of them. Proxies are
 * created on first reference to their world; the factory that builds a proxy for an index is a parameter.
 */
module ImGuiContextManager {
  import opened Wrappers
  import opened Integers
  import opened ImGuiDelegates
  import opened ImGuiContextProxy

  datatype ContextManager = ContextManager(proxies: map<int32, ContextProxy>, drawMultiContext: MulticastDelegate)

  /** A manager with no context and nothing bound to the shared event. */
  const EMPTY_MANAGER: ContextManager := ContextManager(map[], UNBOUND)

  /** The proxy of the context with the given index, if that context exists. */
  function GetContextProxy(cm: ContextManager, index: int32): (r: Option<ContextProxy>)
    ensures r.Some? <==> index in cm.proxies
    ensures r.Some? ==> r.value == cm.proxies[index]
  {
    if index in cm.proxies then Some(cm.proxies[index]) else None
  }

  /** The proxy of a world's context, created with `create` when the world has none yet. An existing proxy is
      given back untouched, and no other proxy is affected in either case. */
  function GetWorldContextProxy(cm: ContextManager, index: int32, create: int32 -> ContextProxy)
    : (r: (ContextManager, ContextProxy))
    ensures index in r.0.proxies && r.1 == r.0.proxies[index]
    ensures index in cm.proxies ==> r.0 == cm
    ensures index !in cm.proxies ==> r.0.proxies == cm.proxies[index := create(index)]
    ensures r.0.drawMultiContext == cm.drawMultiContext
  {
    if index in cm.proxies then (cm, cm.proxies[index])
    else
      var p := create(index);
      (cm.(proxies := cm.proxies[index := p]), p)
  }

  /** Referring to a world twice creates its context once. */
  lemma GetWorldContextProxyCreatesOnce(cm: ContextManager, index: int32, create: int32 -> ContextProxy)
    ensures var (once, p) := GetWorldContextProxy(cm, index, create);
            GetWorldContextProxy(once, index, create) == (once, p)
    ensures GetContextProxy(GetWorldContextProxy(cm, index, create).0, index).Some?
  {
  }

  /** The manager with the proxy of an existing context replaced. */
  function SetContextProxy(cm: ContextManager, index: int32, p: ContextProxy): (r: ContextManager)
    requires index in cm.proxies
    ensures r.proxies.Keys == cm.proxies.Keys && r.proxies[index] == p
    ensures forall i :: i in cm.proxies && i != index ==> r.proxies[i] == cm.proxies[i]
    ensures r.drawMultiContext == cm.drawMultiContext
  {
    cm.(proxies := cm.proxies[index := p])
  }

  /** The frame environment of every proxy: the common one, with the manager's shared draw event. */
  function ProxyEnv(cm: ContextManager, env: FrameEnv): (r: FrameEnv)
    ensures r.sharedDrawEvent == Some(cm.drawMultiContext)
    ensures r.(sharedDrawEvent := env.sharedDrawEvent) == env
  {
    env.(sharedDrawEvent := Some(cm.drawMultiContext))
  }

  /** Ticks every context, each given the shared draw event. The set of contexts and the shared event stay. */
  function Tick(cm: ContextManager, env: FrameEnv, deltaTime: real): (r: ContextManager)
    ensures r.proxies.Keys == cm.proxies.Keys && r.drawMultiContext == cm.drawMultiContext
    ensures forall i :: i in r.proxies ==>
              r.proxies[i] == ImGuiContextProxy.Tick(cm.proxies[i], ProxyEnv(cm, env), deltaTime).proxy
  {
    cm.(proxies := map i | i in cm.proxies :: ImGuiContextProxy.Tick(cm.proxies[i], ProxyEnv(cm, env), deltaTime).proxy)
  }

  /** Every context advances at most once per engine frame, so a second manager tick in the same frame changes
      nothing. */
  lemma TickOncePerFrame(cm: ContextManager, env: FrameEnv, deltaTime: real, laterDeltaTime: real)
    ensures Tick(Tick(cm, env, deltaTime), env, laterDeltaTime) == Tick(cm, env, deltaTime)
  {
  }

  /** A listener bound to the shared event draws into every context whose frame a tick ends. */
  lemma SharedListenersDrawEveryContext(cm: ContextManager, env: FrameEnv, deltaTime: real, index: int32)
    requires cm.drawMultiContext.IsBound() && index in cm.proxies
    requires cm.proxies[index].isFrameStarted && !cm.proxies[index].isDrawCalled
    requires cm.proxies[index].lastFrameNumber < env.frameNumber
    ensures SharedDraw in ImGuiContextProxy.Tick(cm.proxies[index], ProxyEnv(cm, env), deltaTime).broadcasts
  {
  }
}

=== FILE: ContextProxy.dfy ===
/**
 * One library context and its frame cycle. A proxy starts a library frame, lets draw listeners add their controls,
 * ends the frame and keeps the frame's draw lists for the host renderer, at most once per engine frame. The library
 * calls are the uninterpreted functions of `Library`; the listeners' effect on the context is a parameter too.
 */
module ImGuiContextProxy {
  import opened Wrappers
  import opened Integers
  import opened ImGuiLibrary
  import opened SlateTypes
  import opened ImGuiInputState
  import opened ImGuiInterops
  import opened ImGuiDrawData
  import opened ImGuiDelegates

  /** The canvas size every context is given. */
  const DEFAULT_CANVAS_WIDTH: real := 3840.0
  const DEFAULT_CANVAS_HEIGHT: real := 2160.0

  /** The time step of the frame a new proxy starts with. */
  const FIRST_FRAME_DELTA_TIME: real := 1.0 / 60.0

  /** Identity of an input state that a proxy reads without owning it (the widget that owns the state). */
  type InputStateRef = nat

  /** The two events a proxy broadcasts while drawing: the one shared by all contexts and its own. */
  datatype DrawEvent = SharedDraw | OwnDraw

  /** What a proxy's frame cycle depends on outside the proxy: the library, the effect of the draw listeners on a
      context, the shared draw event (absent when the proxy was given none), the value of the console variable
      that puts the shared event first, the current content of every input state, and the engine frame number. */
  datatype FrameEnv = FrameEnv(
    lib: Library,
    listeners: (DrawEvent, Context) -> Context,
    sharedDrawEvent: Option<MulticastDelegate>,
    debugDrawOnWorldTick: int,
    inputStates: InputStateRef -> InputState,
    frameNumber: uint32)
  {
    predicate SharedEventBound() {
      sharedDrawEvent.Some? && sharedDrawEvent.value.IsBound()
    }
  }

  datatype ContextProxy = ContextProxy(
    name: string,
    iniFilename: string,
    context: Context,
    mouseCursor: SlateCursor,
    hasActiveItem: bool,
    isFrameStarted: bool,
    isDrawCalled: bool,
    lastFrameNumber: uint32,
    drawEvent: MulticastDelegate,
    inputState: Option<InputStateRef>,
    drawLists: seq<ImGuiDrawList>)

  /** The result of a step of the frame cycle: the new proxy and the draw events broadcast, in order. */
  datatype Step = Step(proxy: ContextProxy, broadcasts: seq<DrawEvent>)

  //--------------------------------------------------------------------------------------------------------------
  // Ini file
  //--------------------------------------------------------------------------------------------------------------

  /** A path separator of either kind the engine accepts. */
  predicate IsSeparator(c: char) {
    c == '/' || c == '\\'
  }

  /** Appends path part `b` to `a` as the engine's path append does: a `/` goes between them unless `a` is empty,
      already ends with a separator, or `b` starts with `/`. Appending nothing gives a path without a trailing
      separator one. */
  function CombinePaths(a: string, b: string): (r: string)
    ensures |b| > 0 && (|a| == 0 || IsSeparator(a[|a| - 1]) || b[0] == '/') ==> r == a + b
    ensures |b| > 0 && |a| > 0 && !IsSeparator(a[|a| - 1]) && b[0] != '/' ==> r == a + "/" + b
    ensures |b| == 0 ==> r == if |a| > 0 && !IsSeparator(a[|a| - 1]) then a + "/" else a
  {
    if |b| == 0 then
      if |a| > 0 && !IsSeparator(a[|a| - 1]) then a + "/" else a
    else if |a| == 0 || IsSeparator(a[|a| - 1]) || b[0] == '/' then a + b
    else a + "/" + b
  }

  /** The directory holding the contexts' session files: `ImGui` under the project's saved directory. */
  function SaveDirectory(savedDir: string): (r: string)
    ensures |r| >= 5 && r[|r| - 5..] == "ImGui"
    ensures |r| == |savedDir| + 5 || |r| == |savedDir| + 6
  {
    CombinePaths(savedDir, "ImGui")
  }

  /** A context name without the leading `/` that the path append absorbs. */
  function NameAfterSeparator(name: string): string {
    if |name| > 0 && name[0] == '/' then name[1..] else name
  }

  /** The session file of the context called `name`: `<saved dir>/ImGui/<name>.ini`, where a name that starts
      with `/` supplies the separator itself. */
  function GetIniFile(savedDir: string, name: string): (r: string)
    ensures r == SaveDirectory(savedDir) + "/" + NameAfterSeparator(name) + ".ini"
  {
    IniFileShape(savedDir, name);
    CombinePaths(SaveDirectory(savedDir), name + ".ini")
  }

  lemma IniFileShape(savedDir: string, name: string)
    ensures CombinePaths(SaveDirectory(savedDir), name + ".ini")
            == SaveDirectory(savedDir) + "/" + NameAfterSeparator(name) + ".ini"
  {
    SaveDirectoryEndsInLetter(savedDir);
    AppendUnderDirectory(SaveDirectory(savedDir), name);
  }

  /** Under a directory without a trailing separator, a name's file goes after one `/`. */
  lemma AppendUnderDirectory(dir: string, name: string)
    requires |dir| > 0 && !IsSeparator(dir[|dir| - 1])
    ensures CombinePaths(dir, name + ".ini") == dir + "/" + NameAfterSeparator(name) + ".ini"
  {
    var tail := NameAfterSeparator(name);
    var file := name + ".ini";
    assert |file| > 0 && file[0] == if |name| > 0 then name[0] else '.';
    if |name| > 0 && name[0] == '/' {
      LeadingSeparator(name);
      AppendAssoc("/", tail, ".ini");
      assert file == "/" + (tail + ".ini");
      assert CombinePaths(dir, file) == dir + ("/" + (tail + ".ini"));
      AppendAssoc(dir, "/", tail + ".ini");
    } else {
      assert tail == name;
      assert CombinePaths(dir, file) == dir + "/" + (tail + ".ini");
    }
    AppendAssoc(dir + "/", tail, ".ini");
  }

  lemma SaveDirectoryEndsInLetter(savedDir: string)
    ensures var dir := SaveDirectory(savedDir); |dir| > 0 && !IsSeparator(dir[|dir| - 1])
  {
    var dir := SaveDirectory(savedDir);
    var last := dir[|dir| - 5..];
    assert last == "ImGui";
    assert dir[|dir| - 1] == last[4];
  }

  lemma LeadingSeparator(name: string)
    requires |name| > 0 && name[0] == '/'
    ensures name == "/" + NameAfterSeparator(name)
  {
    assert NameAfterSeparator(name) == name[1..];
  }

  lemma AppendAssoc(a: string, b: string, c: string)
    ensures (a + b) + c == a + (b + c)
  {
  }

  /** The string has only 7-bit characters. */
  predicate IsAscii(s: string) {
    forall i :: 0 <= i < |s| ==> s[i] as int < 128
  }

  /** The engine's conversion of a wide string to an 8-bit one: characters outside 7-bit ASCII become `?`. */
  function ToAnsi(s: string): (r: string)
    ensures |r| == |s|
    ensures forall i :: 0 <= i < |s| ==> r[i] == if s[i] as int < 128 then s[i] else '?'
  {
    seq(|s|, i requires 0 <= i < |s| => if s[i] as int < 128 then s[i] else '?')
  }

  /** The session file name a proxy stores for its context: the 8-bit form of the path. */
  function IniFilename(savedDir: string, name: string): (r: string)
    ensures |r| == |GetIniFile(savedDir, name)|
    ensures IsAscii(r)
  {
    ToAnsi(GetIniFile(savedDir, name))
  }

  /** The conversion keeps 7-bit strings as they are. */
  lemma ToAnsiKeepsAscii(s: string)
    requires IsAscii(s)
    ensures ToAnsi(s) == s
  {
  }

  /** Names without a leading `/` written in 7-bit characters, under a 7-bit saved directory, get distinct stored
      file names. Which names can share a session path at all is `SamePathSameName`. */
  lemma IniFilesDistinct(savedDir: string, name1: string, name2: string)
    ensures && IsAscii(savedDir) && IsAscii(name1) && IsAscii(name2)
            && (|name1| == 0 || name1[0] != '/') && (|name2| == 0 || name2[0] != '/')
            && IniFilename(savedDir, name1) == IniFilename(savedDir, name2)
            ==> name1 == name2
  {
    if IsAscii(savedDir) && IsAscii(name1) && IsAscii(name2) {
      var f1 := GetIniFile(savedDir, name1);
      var f2 := GetIniFile(savedDir, name2);
      AsciiIniFile(savedDir, name1);
      AsciiIniFile(savedDir, name2);
      ToAnsiKeepsAscii(f1);
      ToAnsiKeepsAscii(f2);
      if f1 == f2 {
        SamePathSameName(savedDir, name1, name2);
      }
    }
  }

  /** Every session file is an `.ini` file directly inside the `ImGui` directory. */
  lemma IniFileInSaveDirectory(savedDir: string, name: string)
    ensures var f := GetIniFile(savedDir, name);
            |f| >= 4 && f[|f| - 4..] == ".ini" && f[..|SaveDirectory(savedDir)| + 1] == SaveDirectory(savedDir) + "/"
  {
    var dir := SaveDirectory(savedDir) + "/";
    AppendAssoc(dir, NameAfterSeparator(name), ".ini");
  }

  /** Two context names share a session path only when they are equal or one is the other with a leading `/`:
      equal paths come from the same name after the separator. */
  lemma SamePathSameName(savedDir: string, name1: string, name2: string)
    requires GetIniFile(savedDir, name1) == GetIniFile(savedDir, name2)
    ensures NameAfterSeparator(name1) == NameAfterSeparator(name2)
    ensures name1 == name2 || name1 == "/" + name2 || name2 == "/" + name1
  {
    var dir := SaveDirectory(savedDir) + "/";
    var t1 := NameAfterSeparator(name1);
    var t2 := NameAfterSeparator(name2);
    var f := GetIniFile(savedDir, name1);
    assert f == dir + (t1 + ".ini") == dir + (t2 + ".ini");
    assert f[|dir|..] == t1 + ".ini" == t2 + ".ini";
    assert t1 == (t1 + ".ini")[..|t1|];
    assert t2 == (t2 + ".ini")[..|t2|];
    if |name1| > 0 && name1[0] == '/' {
      assert name1 == "/" + t1;
    }
    if |name2| > 0 && name2[0] == '/' {
      assert name2 == "/" + t2;
    }
  }

  /** A 7-bit saved directory and name give a 7-bit session path. */
  lemma AsciiIniFile(savedDir: string, name: string)
    requires IsAscii(savedDir) && IsAscii(name)
    ensures IsAscii(GetIniFile(savedDir, name))
  {
    var tail := NameAfterSeparator(name);
    AsciiSuffix(name, |name| - |tail|);
    AsciiSaveDirectory(savedDir);
    AsciiIniPath(SaveDirectory(savedDir), tail);
  }

  lemma AsciiSaveDirectory(savedDir: string)
    requires IsAscii(savedDir)
    ensures IsAscii(SaveDirectory(savedDir))
  {
    PathPartsAscii();
    if |savedDir| == 0 || IsSeparator(savedDir[|savedDir| - 1]) {
      AsciiConcat(savedDir, "ImGui");
    } else {
      AsciiConcat(savedDir, "/");
      AsciiConcat(savedDir + "/", "ImGui");
    }
  }

  lemma AsciiIniPath(dir: string, tail: string)
    requires IsAscii(dir) && IsAscii(tail)
    ensures IsAscii(dir + "/" + tail + ".ini")
  {
    PathPartsAscii();
    AsciiConcat(dir, "/");
    AsciiConcat(dir + "/", tail);
    AsciiConcat(dir + "/" + tail, ".ini");
  }

  /** The fixed parts of a session path are 7-bit. */
  lemma PathPartsAscii()
    ensures IsAscii("ImGui") && IsAscii("/") && IsAscii(".ini")
  {
    var imgui: string := "ImGui";
    var ini: string := ".ini";
    forall i | 0 <= i < |imgui| ensures imgui[i] as int < 128 {
      assert i == 0 || i == 1 || i == 2 || i == 3 || i == 4;
    }
    forall i | 0 <= i < |ini| ensures ini[i] as int < 128 {
      assert i == 0 || i == 1 || i == 2 || i == 3;
    }
  }

  lemma AsciiSuffix(s: string, k: nat)
    requires IsAscii(s) && k <= |s|
    ensures IsAscii(s[k..])
  {
    assert forall i :: 0 <= i < |s| - k ==> s[k..][i] == s[k + i];
  }

  lemma AsciiConcat(a: string, b: string)
    requires IsAscii(a) && IsAscii(b)
    ensures IsAscii(a + b)
  {
    assert forall i :: |a| <= i < |a + b| ==> (a + b)[i] == b[i - |a|];
  }

  /** The path append lets a leading `/` stand for the separator, so the names `x` and `/x` share a file. */
  lemma LeadingSeparatorNamesShareFile(savedDir: string)
    ensures GetIniFile(savedDir, "x") == GetIniFile(savedDir, "/x")
  {
    assert NameAfterSeparator("/x") == "x";
  }

  /** The 8-bit conversion merges names that differ only outside 7-bit ASCII. */
  lemma WideNamesShareStoredFile(savedDir: string)
    ensures IniFilename(savedDir, "é") == IniFilename(savedDir, "è")
  {
    var f1 := GetIniFile(savedDir, "é");
    var f2 := GetIniFile(savedDir, "è");
    var dir := SaveDirectory(savedDir) + "/";
    assert NameAfterSeparator("é") == "é" && NameAfterSeparator("è") == "è";
    AppendAssoc(dir, "é", ".ini");
    AppendAssoc(dir, "è", ".ini");
    var e1: string := "é.ini";
    var e2: string := "è.ini";
    assert f1 == dir + e1 && f2 == dir + e2;
    assert |e1| == |e2| == 5;
    forall i | 0 <= i < |f1|
      ensures ToAnsi(f1)[i] == ToAnsi(f2)[i]
    {
      if i < |dir| {
        assert f1[i] == dir[i] == f2[i];
      } else if i > |dir| {
        assert f1[i] == e1[i - |dir|] == e2[i - |dir|] == f2[i];
      }
    }
  }

  //--------------------------------------------------------------------------------------------------------------
  // Input state binding
  //--------------------------------------------------------------------------------------------------------------

  function GetInputState(p: ContextProxy): Option<InputStateRef> {
    p.inputState
  }

  /** Binds the proxy to an input state, replacing any previous binding. */
  function SetInputState(p: ContextProxy, source: InputStateRef): (r: ContextProxy)
    ensures GetInputState(r) == Some(source)
    ensures r.(inputState := p.inputState) == p
  {
    p.(inputState := Some(source))
  }

  /** Removes the binding to `toRemove` when the proxy is bound to exactly that state; otherwise nothing changes. */
  function RemoveInputState(p: ContextProxy, toRemove: InputStateRef): (r: ContextProxy)
    ensures p.inputState == Some(toRemove) ==> GetInputState(r) == None
    ensures p.inputState != Some(toRemove) ==> r == p
    ensures r.(inputState := p.inputState) == p
  {
    if p.inputState == Some(toRemove) then p.(inputState := None) else p
  }

  /** Removing a binding just set leaves the proxy unbound; removing another state's binding keeps it. */
  lemma SetThenRemoveInputState(p: ContextProxy, a: InputStateRef, b: InputStateRef)
    ensures GetInputState(RemoveInputState(SetInputState(p, a), a)) == None
    ensures a != b ==> GetInputState(RemoveInputState(SetInputState(p, a), b)) == Some(a)
  {
  }

  //--------------------------------------------------------------------------------------------------------------
  // Frame cycle
  //--------------------------------------------------------------------------------------------------------------

  /** The context after the listeners of the given events have drawn to it, in order. */
  function RunListeners(listeners: (DrawEvent, Context) -> Context, c: Context, events: seq<DrawEvent>): Context
    decreases |events|
  {
    if |events| == 0 then c else RunListeners(listeners, listeners(events[0], c), events[1..])
  }

  /** Lets the listeners draw, once per frame and only inside a started frame. The own event is broadcast when it is
      bound, the shared event when there is one and it is bound; the shared one comes first exactly when the console
      variable is positive. */
  function Draw(p: ContextProxy, env: FrameEnv): (r: Step)
    ensures !(p.isFrameStarted && !p.isDrawCalled) ==> r == Step(p, [])
    ensures p.isFrameStarted && !p.isDrawCalled ==>
              && r.proxy.isDrawCalled
              && r.proxy.(context := p.context, isDrawCalled := p.isDrawCalled) == p
              && (SharedDraw in r.broadcasts <==> env.SharedEventBound())
              && (OwnDraw in r.broadcasts <==> p.drawEvent.IsBound())
              && r.proxy.context == RunListeners(env.listeners, p.context, r.broadcasts)
    ensures |r.broadcasts| <= 2
    ensures |r.broadcasts| == 2 ==>
              r.broadcasts[0] != r.broadcasts[1] && (r.broadcasts[0] == SharedDraw <==> env.debugDrawOnWorldTick > 0)
  {
    if p.isFrameStarted && !p.isDrawCalled then
      var sharedFirst := env.debugDrawOnWorldTick > 0;
      var events := (if sharedFirst && env.SharedEventBound() then [SharedDraw] else [])
                    + (if p.drawEvent.IsBound() then [OwnDraw] else [])
                    + (if !sharedFirst && env.SharedEventBound() then [SharedDraw] else []);
      Step(p.(isDrawCalled := true, context := RunListeners(env.listeners, p.context, events)), events)
    else
      Step(p, [])
  }

  /** Within one frame only the first call to `Draw` has an effect. */
  lemma DrawOncePerFrame(p: ContextProxy, env: FrameEnv)
    ensures Draw(Draw(p, env).proxy, env) == Step(Draw(p, env).proxy, [])
  {
  }

  /** The IO structure at the start of a frame: the time step set, and the bound input state copied in. */
  function FrameInput(p: ContextProxy, env: FrameEnv, deltaTime: real): (r: IO)
    ensures r.deltaTime == deltaTime
    ensures p.inputState.None? ==> r == p.context.io.(deltaTime := deltaTime)
    ensures p.inputState.Some? ==> r == CopyInput(p.context.io.(deltaTime := deltaTime), env.inputStates(p.inputState.value))
  {
    var io := p.context.io.(deltaTime := deltaTime);
    if p.inputState.Some? then CopyInput(io, env.inputStates(p.inputState.value)) else io
  }

  /** Starts a library frame unless one is started: sets the time step, copies the bound input state, if any, and
      calls the library's NewFrame. Afterwards a frame is started and draw has not been called in it. */
  function BeginFrame(p: ContextProxy, env: FrameEnv, deltaTime: real): (r: ContextProxy)
    ensures p.isFrameStarted ==> r == p
    ensures r.isFrameStarted
    ensures !p.isFrameStarted ==>
              && !r.isDrawCalled
              && r.context == env.lib.newFrame(p.context.(io := FrameInput(p, env, deltaTime)))
              && r.(context := p.context, isFrameStarted := false, isDrawCalled := p.isDrawCalled) == p
  {
    if !p.isFrameStarted then
      p.(context := env.lib.newFrame(p.context.(io := FrameInput(p, env, deltaTime))),
         isFrameStarted := true, isDrawCalled := false)
    else
      p
  }

  /** A list array resized to `n` entries: existing entries kept, new ones empty. */
  function SetNum(lists: seq<ImGuiDrawList>, n: nat): (r: seq<ImGuiDrawList>)
    ensures |r| == n
    ensures forall i :: 0 <= i < n ==> r[i] == if i < |lists| then lists[i] else EMPTY_LIST
  {
    seq(n, i requires 0 <= i < n => if i < |lists| then lists[i] else EMPTY_LIST)
  }

  /** The captured lists after a frame: one per library list, each holding that list's buffers, when there is draw
      data with at least one list; no list otherwise. */
  function UpdateDrawData(lists: seq<ImGuiDrawList>, data: Option<DrawData>): (r: seq<ImGuiDrawList>)
    ensures data.Some? && data.value.CmdListsCount() > 0 ==>
              && |r| == data.value.CmdListsCount()
              && forall i :: 0 <= i < |r| ==>
                   var src := data.value.cmdLists[i];
                   r[i] == ImGuiDrawList(src.cmdBuffer, src.idxBuffer, src.vtxBuffer)
    ensures !(data.Some? && data.value.CmdListsCount() > 0) ==> r == []
  {
    if data.Some? && data.value.CmdListsCount() > 0 then
      var n := data.value.CmdListsCount();
      var resized := SetNum(lists, n);
      seq(n, i requires 0 <= i < n => TransferDrawData(resized[i], data.value.cmdLists[i]).0)
    else
      []
  }

  /** The captured lists are replaced wholesale: what was captured before has no influence on the result. */
  lemma UpdateDrawDataReplacesLists(old1: seq<ImGuiDrawList>, old2: seq<ImGuiDrawList>, data: Option<DrawData>)
    ensures UpdateDrawData(old1, data) == UpdateDrawData(old2, data)
  {
  }

  /** Ends a started frame: calls the library's Render, captures its draw data and clears the started flag. */
  function EndFrame(p: ContextProxy, env: FrameEnv): (r: ContextProxy)
    ensures !p.isFrameStarted ==> r == p
    ensures p.isFrameStarted ==>
              && !r.isFrameStarted
              && r.context == env.lib.render(p.context)
              && r.drawLists == UpdateDrawData(p.drawLists, env.lib.getDrawData(r.context))
              && r.(context := p.context, drawLists := p.drawLists, isFrameStarted := true) == p
  {
    if p.isFrameStarted then
      var rendered := env.lib.render(p.context);
      p.(context := rendered, drawLists := UpdateDrawData(p.drawLists, env.lib.getDrawData(rendered)),
         isFrameStarted := false)
    else
      p
  }

  /** The proxy just before the library state is captured in a tick: a started frame is drawn and ended. */
  function FinishFrame(p: ContextProxy, env: FrameEnv): Step {
    if p.isFrameStarted then
      var drawn := Draw(p, env);
      Step(EndFrame(drawn.proxy, env), drawn.broadcasts)
    else
      Step(p, [])
  }

  /** Advances the context to the next frame, at most once per engine frame: draws and ends a started frame,
      captures whether an item is active and the mouse cursor, and begins the next frame. */
  function Tick(p: ContextProxy, env: FrameEnv, deltaTime: real): (r: Step)
    ensures p.lastFrameNumber >= env.frameNumber ==> r == Step(p, [])
    ensures p.lastFrameNumber < env.frameNumber ==>
              var finished := FinishFrame(p, env).proxy;
              && r.proxy.lastFrameNumber == env.frameNumber
              && r.proxy.isFrameStarted && !r.proxy.isDrawCalled
              && r.proxy.hasActiveItem == env.lib.isAnyItemActive(finished.context)
              && r.proxy.mouseCursor == ToSlateMouseCursor(env.lib.getMouseCursor(finished.context))
              && r.broadcasts == (if p.isFrameStarted then Draw(p, env).broadcasts else [])
              && r.proxy.drawLists == finished.drawLists
              && r.proxy.context == env.lib.newFrame(finished.context.(io := FrameInput(finished, env, deltaTime)))
              && r.proxy.name == p.name && r.proxy.iniFilename == p.iniFilename
              && r.proxy.drawEvent == p.drawEvent && r.proxy.inputState == p.inputState
  {
    if p.lastFrameNumber < env.frameNumber then
      var finished := FinishFrame(p, env);
      var captured := finished.proxy.(
        lastFrameNumber := env.frameNumber,
        hasActiveItem := env.lib.isAnyItemActive(finished.proxy.context),
        mouseCursor := ToSlateMouseCursor(env.lib.getMouseCursor(finished.proxy.context)));
      Step(BeginFrame(captured, env, deltaTime), finished.broadcasts)
    else
      Step(p, [])
  }

  /** A tick on a started frame draws, then ends the frame, then begins the next one: the listeners get their
      chance before the frame is rendered, the captured draw lists are those of the rendered context, and the new
      frame starts from the rendered context with the tick's time step and the bound input state. */
  lemma TickDrawsBeforeEnding(p: ContextProxy, env: FrameEnv, deltaTime: real)
    requires p.lastFrameNumber < env.frameNumber && p.isFrameStarted
    ensures var drawn := Draw(p, env);
            var rendered := env.lib.render(drawn.proxy.context);
            var r := Tick(p, env, deltaTime);
            && r.broadcasts == drawn.broadcasts
            && r.proxy.drawLists == UpdateDrawData(p.drawLists, env.lib.getDrawData(rendered))
            && r.proxy.context == env.lib.newFrame(rendered.(io := FrameInput(p.(context := rendered), env, deltaTime)))
  {
  }

  /** A second tick in the same engine frame changes nothing. */
  lemma TickOncePerFrame(p: ContextProxy, env: FrameEnv, deltaTime: real, laterDeltaTime: real)
    ensures var once := Tick(p, env, deltaTime).proxy;
            Tick(once, env, laterDeltaTime) == Step(once, [])
  {
  }

  /** Outside the steps of a tick a proxy always has a frame started: drawing and ticking keep it so. */
  lemma FrameStaysStarted(p: ContextProxy, env: FrameEnv, deltaTime: real)
    requires p.isFrameStarted
    ensures Draw(p, env).proxy.isFrameStarted
    ensures Tick(p, env, deltaTime).proxy.isFrameStarted
  {
  }

  //--------------------------------------------------------------------------------------------------------------
  // Construction
  //--------------------------------------------------------------------------------------------------------------

  /** A proxy for a newly created library context: its fields at their initial values, the session file, canvas
      size and key map set in the context's IO, and a first frame begun with a 1/60 s time step. */
  function NewContextProxy(name: string, savedDir: string, created: Context, keys: KeyManager, env: FrameEnv)
    : (r: ContextProxy)
    ensures r.name == name && r.iniFilename == IniFilename(savedDir, name)
    ensures r.isFrameStarted && !r.isDrawCalled && r.lastFrameNumber == 0
    ensures r.mouseCursor == SlateNone && !r.hasActiveItem
    ensures r.inputState.None? && r.drawLists == [] && !r.drawEvent.IsBound()
    ensures var io := created.io.(iniFilename := IniFilename(savedDir, name),
                                  displaySize := Vec2(DEFAULT_CANVAS_WIDTH, DEFAULT_CANVAS_HEIGHT));
            r.context == env.lib.newFrame(created.(io := SetUnrealKeyMap(io, keys).(deltaTime := FIRST_FRAME_DELTA_TIME)))
  {
    var iniFilename := IniFilename(savedDir, name);
    var io := created.io.(iniFilename := iniFilename, displaySize := Vec2(DEFAULT_CANVAS_WIDTH, DEFAULT_CANVAS_HEIGHT));
    var initial := ContextProxy(name, iniFilename, created.(io := SetUnrealKeyMap(io, keys)), SlateNone, false,
                                false, false, 0, UNBOUND, None, []);
    BeginFrame(initial, env, FIRST_FRAME_DELTA_TIME)
  }

  /** A new proxy ignores a tick in engine frame 0: its recorded frame number is already 0. */
  lemma NewProxyIgnoresFrameZero(name: string, savedDir: string, created: Context, keys: KeyManager, env: FrameEnv,
                                 deltaTime: real)
    requires env.frameNumber == 0
    ensures var p := NewContextProxy(name, savedDir, created, keys, env);
            Tick(p, env, deltaTime) == Step(p, [])
  {
  }
}

=== FILE: Delegates.dfy ===
/**
 * Event delegates: the host's delegate handles and multicast delegates, reduced to the set of bound handles, and
 * the bridge's own delegate handle, which also records in which category and context a listener was added.
 */
module ImGuiDelegates {
  import opened Integers

  /** A handle to one binding of a multicast delegate; the id 0 designates no binding. */
  datatype DelegateHandle = DelegateHandle(id: nat) {
    predicate IsValid() {
      id != 0
    }
  }

  const INVALID_HANDLE: DelegateHandle := DelegateHandle(0)

  /** A multicast delegate: the handles of its bindings, in the order they were added. */
  datatype MulticastDelegate = MulticastDelegate(bindings: seq<DelegateHandle>) {
    predicate IsBound() {
      |bindings| > 0
    }

    /** Every binding has a valid handle of its own. */
    ghost predicate Valid() {
      && (forall i :: 0 <= i < |bindings| ==> bindings[i].IsValid())
      && (forall i, j :: 0 <= i < j < |bindings| ==> bindings[i] != bindings[j])
    }
  }

  const UNBOUND: MulticastDelegate := MulticastDelegate([])

  /** Binds a listener under a new handle, which the host's handle generator provides, and gives that handle. */
  function Add(d: MulticastDelegate, newHandle: DelegateHandle): (r: (MulticastDelegate, DelegateHandle))
    requires newHandle.IsValid() && newHandle !in d.bindings
    ensures r.1 == newHandle && r.0.IsBound()
    ensures r.0.bindings == d.bindings + [newHandle]
    ensures d.Valid() ==> r.0.Valid()
  {
    (MulticastDelegate(d.bindings + [newHandle]), newHandle)
  }

  /** Removes the binding with the given handle; a handle that is not bound changes nothing. */
  function Remove(d: MulticastDelegate, h: DelegateHandle): (r: MulticastDelegate)
    ensures h !in r.bindings
    ensures forall g :: g in r.bindings <==> g in d.bindings && g != h
    ensures h !in d.bindings ==> r == d
    ensures d.Valid() ==> r.Valid()
    decreases |d.bindings|
  {
    if |d.bindings| == 0 then d
    else
      var tail := MulticastDelegate(d.bindings[1..]);
      assert d.Valid() ==> tail.Valid() && d.bindings[0] !in tail.bindings by {
        if d.Valid() {
          forall i, j | 0 <= i < j < |tail.bindings| ensures tail.bindings[i] != tail.bindings[j] {
            assert tail.bindings[i] == d.bindings[i + 1] && tail.bindings[j] == d.bindings[j + 1];
          }
        }
      }
      var rest := Remove(tail, h);
      if d.bindings[0] == h then rest
      else MulticastDelegate([d.bindings[0]] + rest.bindings)
  }

  /** Removing a binding right after adding it gives back the delegate as it was. */
  lemma {:induction false} AddThenRemove(d: MulticastDelegate, newHandle: DelegateHandle)
    requires newHandle.IsValid() && newHandle !in d.bindings
    ensures Remove(Add(d, newHandle).0, newHandle) == d
    decreases |d.bindings|
  {
    var added := Add(d, newHandle).0;
    if |d.bindings| == 0 {
      assert added.bindings == [newHandle];
      assert Remove(MulticastDelegate(added.bindings[1..]), newHandle) == MulticastDelegate([]);
    } else {
      var tail := MulticastDelegate(d.bindings[1..]);
      assert newHandle !in tail.bindings;
      var addedTail := Add(tail, newHandle).0;
      AddThenRemove(tail, newHandle);
      assert MulticastDelegate(added.bindings[1..]) == addedTail;
      assert added.bindings[0] == d.bindings[0] != newHandle;
      assert Remove(added, newHandle) == MulticastDelegate([d.bindings[0]] + Remove(addedTail, newHandle).bindings);
      assert [d.bindings[0]] + tail.bindings == d.bindings;
    }
  }

  //--------------------------------------------------------------------------------------------------------------
  // The bridge's delegate handle
  //--------------------------------------------------------------------------------------------------------------

  /** A handle returned to listeners: the host handle, the category of event it was added to, and the index of the
      context for per-context events. */
  datatype ImGuiDelegateHandle = ImGuiDelegateHandle(handle: DelegateHandle, category: int32, index: int32)

  /** A default-constructed handle: no binding, category 0, index 0. */
  const DEFAULT_IMGUI_HANDLE: ImGuiDelegateHandle := ImGuiDelegateHandle(INVALID_HANDLE, 0, 0)

  predicate IsValid(h: ImGuiDelegateHandle) {
    h.handle.IsValid()
  }

  /** Invalidates the handle and zeroes its index; the category is kept. */
  function Reset(h: ImGuiDelegateHandle): (r: ImGuiDelegateHandle)
    ensures !IsValid(r) && r.index == 0 && r.category == h.category
  {
    ImGuiDelegateHandle(INVALID_HANDLE, h.category, 0)
  }

  /** Handles compare equal when their host handles, categories and indices are all equal. */
  predicate Equal(a: ImGuiDelegateHandle, b: ImGuiDelegateHandle) {
    a.handle == b.handle && a.category == b.category && a.index == b.index
  }

  predicate NotEqual(a: ImGuiDelegateHandle, b: ImGuiDelegateHandle) {
    !Equal(a, b)
  }

  /** The comparison is value equality of handles, and inequality is its negation; a reset handle equals the
      default one exactly when its category is 0. */
  lemma HandleValueSemantics(a: ImGuiDelegateHandle, b: ImGuiDelegateHandle)
    ensures Equal(a, b) <==> a == b
    ensures NotEqual(a, b) <==> a != b
    ensures !IsValid(DEFAULT_IMGUI_HANDLE)
    ensures Equal(Reset(a), DEFAULT_IMGUI_HANDLE) <==> a.category == 0
    ensures Reset(Reset(a)) == Reset(a)
  {
  }
}

=== FILE: DrawData.dfy ===
/**
 * Draw lists captured from the library at the end of a frame and transcoded for the host renderer: draw commands
 * with host clip rectangles and texture indices, vertices moved into screen space, and index runs copied per
 * command.
 */
module ImGuiDrawData {
  import opened Wrappers
  import opened Integers
  import opened ImGuiLibrary
  import opened SlateTypes
  import opened TextureManager
  import opened ImGuiInterops

  /** Host versions before 4.17 attach a clipping rectangle to every vertex instead of pushing clip zones. */
  predicate WithObsoleteClippingApi(engineMajor: nat, engineMinor: nat) {
    engineMajor < 4 || (engineMajor == 4 && engineMinor < 17)
  }

  /** Version `(major1, minor1)` comes before version `(major2, minor2)`. */
  predicate VersionBefore(major1: nat, minor1: nat, major2: nat, minor2: nat) {
    major1 < major2 || (major1 == major2 && minor1 < minor2)
  }

  /** The per-vertex clipping interface is used exactly by the versions before 4.17, so every version older than
      one that uses it uses it too. */
  lemma ObsoleteClippingApiBefore417(major: nat, minor: nat, olderMajor: nat, olderMinor: nat)
    ensures WithObsoleteClippingApi(major, minor) <==> VersionBefore(major, minor, 4, 17)
    ensures WithObsoleteClippingApi(major, minor) && VersionBefore(olderMajor, olderMinor, major, minor) ==>
              WithObsoleteClippingApi(olderMajor, olderMinor)
  {
  }

  /** A draw command in the host's terms. */
  datatype DrawCommand = DrawCommand(numElements: uint32, clippingRect: SlateRect, textureId: TextureIndex)

  /** A captured draw list: the library's command, index and vertex buffers. */
  datatype ImGuiDrawList = ImGuiDrawList(commandBuffer: seq<DrawCmd>, indexBuffer: seq<DrawIdx>,
                                         vertexBuffer: seq<DrawVert>)

  /** A draw list holding nothing. */
  const EMPTY_LIST: ImGuiDrawList := ImGuiDrawList([], [], [])

  function NumCommands(list: ImGuiDrawList): (r: nat)
    ensures r == |list.commandBuffer|
  {
    |list.commandBuffer|
  }

  /** Command `n` converted: its element count unchanged, its clip rectangle as a host rectangle and its texture
      id as a texture index. */
  function GetCommand(list: ImGuiDrawList, n: nat): (r: DrawCommand)
    requires n < NumCommands(list)
    ensures r.numElements == list.commandBuffer[n].elemCount
    ensures r.clippingRect == ToSlateRect(list.commandBuffer[n].clipRect)
    ensures r.textureId == ToTextureIndex(list.commandBuffer[n].textureId)
  {
    var cmd := list.commandBuffer[n];
    DrawCommand(cmd.elemCount, ToSlateRect(cmd.clipRect), ToTextureIndex(cmd.textureId))
  }

  /** A texture index handed to the library and back in a command designates the same texture. */
  lemma GetCommandKeepsTextureIndex(list: ImGuiDrawList, n: nat, index: TextureIndex)
    requires n < NumCommands(list) && list.commandBuffer[n].textureId == ToImTextureID(index)
    ensures GetCommand(list, n).textureId == index
  {
  }

  /** The sum of the element counts of the first `n` commands: where command `n`'s indices start. */
  function ElementsBefore(commands: seq<DrawCmd>, n: nat): nat
    requires n <= |commands|
  {
    if n == 0 then 0 else ElementsBefore(commands, n - 1) + commands[n - 1].elemCount
  }

  /** The library's promise about a draw list: its index buffer has enough entries for all commands together. */
  predicate IndicesCoverCommands(list: ImGuiDrawList) {
    ElementsBefore(list.commandBuffer, |list.commandBuffer|) <= |list.indexBuffer|
  }

  /** The indices of command `n` lie inside an index buffer that covers all commands. */
  lemma {:induction false} CommandIndicesInBuffer(list: ImGuiDrawList, n: nat)
    requires IndicesCoverCommands(list) && n < NumCommands(list)
    ensures ElementsBefore(list.commandBuffer, n) + list.commandBuffer[n].elemCount <= |list.indexBuffer|
  {
    ElementsBeforeMonotonic(list.commandBuffer, n + 1, |list.commandBuffer|);
  }

  lemma {:induction false} ElementsBeforeMonotonic(commands: seq<DrawCmd>, m: nat, n: nat)
    requires m <= n <= |commands|
    ensures ElementsBefore(commands, m) <= ElementsBefore(commands, n)
    decreases n - m
  {
    if m < n {
      ElementsBeforeMonotonic(commands, m, n - 1);
    }
  }

  /** Copies `numElements` indices starting at `startIndex` into a new buffer (the old content of the target is
      replaced). */
  method CopyIndexData(list: ImGuiDrawList, startIndex: int32, numElements: int32) returns (out: seq<nat>)
    requires 0 <= startIndex && 0 <= numElements && startIndex + numElements <= |list.indexBuffer|
    ensures |out| == numElements
    ensures forall i :: 0 <= i < numElements ==> out[i] == list.indexBuffer[startIndex + i]
  {
    out := [];
    var i := 0;
    while i < numElements
      invariant 0 <= i <= numElements
      invariant |out| == i
      invariant forall j :: 0 <= j < i ==> out[j] == list.indexBuffer[startIndex + j]
    {
      out := out + [list.indexBuffer[startIndex + i]];
      i := i + 1;
    }
  }

  /** One library vertex in host format: its position moved by `offset`, its texture coordinate kept, its colour
      unpacked, and with the per-vertex clipping interface the given clip rectangle attached. */
  function ScreenVertex(v: DrawVert, offset: Vec2, clip: Option<RotatedRect>): SlateVertex {
    SlateVertex(Vec2(v.pos.x + offset.x, v.pos.y + offset.y), v.uv, UnpackImU32Color(v.col), clip)
  }

  /** The conversion loses nothing of the library vertex: moving the position back by the offset and packing the
      colour again give the library vertex back, so distinct vertices stay distinct. */
  lemma ScreenVertexKeepsVertex(v: DrawVert, w: DrawVert, offset: Vec2, clip: Option<RotatedRect>)
    ensures var sv := ScreenVertex(v, offset, clip);
            DrawVert(Vec2(sv.position.x - offset.x, sv.position.y - offset.y), sv.texCoords, PackImU32Color(sv.color))
            == v
    ensures ScreenVertex(v, offset, clip) == ScreenVertex(w, offset, clip) ==> v == w
  {
    ColorRoundTrip(v.col, UnpackImU32Color(v.col));
    ColorRoundTrip(w.col, UnpackImU32Color(w.col));
  }

  /** Copies the vertices into a new buffer in host format (the old content of the target is replaced): one host
      vertex per library vertex, in order. */
  method CopyVertexData(list: ImGuiDrawList, offset: Vec2, clip: Option<RotatedRect>) returns (out: seq<SlateVertex>)
    ensures |out| == |list.vertexBuffer|
    ensures forall i :: 0 <= i < |out| ==> out[i] == ScreenVertex(list.vertexBuffer[i], offset, clip)
  {
    out := [];
    var i := 0;
    while i < |list.vertexBuffer|
      invariant 0 <= i <= |list.vertexBuffer|
      invariant |out| == i
      invariant forall j :: 0 <= j < i ==> out[j] == ScreenVertex(list.vertexBuffer[j], offset, clip)
    {
      out := out + [ScreenVertex(list.vertexBuffer[i], offset, clip)];
      i := i + 1;
    }
  }

  /** Moves the library list's three buffers into a captured list and leaves the library list cleared. Whatever
      the captured list held before is dropped. */
  function TransferDrawData(list: ImGuiDrawList, src: DrawList): (r: (ImGuiDrawList, DrawList))
    ensures r.0.commandBuffer == src.cmdBuffer && r.0.indexBuffer == src.idxBuffer
    ensures r.0.vertexBuffer == src.vtxBuffer
    ensures r.1.cmdBuffer == [] && r.1.idxBuffer == [] && r.1.vtxBuffer == []
  {
    (ImGuiDrawList(src.cmdBuffer, src.idxBuffer, src.vtxBuffer), DrawList([], [], []))
  }

  /** A transfer loses nothing: the captured list and the cleared source together hold what the source held, and
      the result does not depend on what the captured list held before. */
  lemma TransferDrawDataMovesEverything(a: ImGuiDrawList, b: ImGuiDrawList, src: DrawList)
    ensures TransferDrawData(a, src) == TransferDrawData(b, src)
    ensures var (list, rest) := TransferDrawData(a, src);
            |list.commandBuffer| + |rest.cmdBuffer| == |src.cmdBuffer|
            && |list.indexBuffer| + |rest.idxBuffer| == |src.idxBuffer|
            && |list.vertexBuffer| + |rest.vtxBuffer| == |src.vtxBuffer|
  {
  }
}

=== FILE: ImGuiLibrary.dfy ===
/**
 * The embedded immediate-mode GUI library as the bridge sees it: the shapes of its per-frame input structure
 * and of its draw data, and its behaviour (NewFrame, Render, GetDrawData, IsAnyItemActive, GetMouseCursor) as
 * uninterpreted functions bundled in a `Library` record. Nothing of the library's own algorithms is modelled.
 */
module ImGuiLibrary {
  import opened Wrappers
  import opened Integers

  /** Sizes of the fixed arrays of the library's IO structure. */
  const KEYS_COUNT: nat := 512
  const MOUSE_BUTTONS_COUNT: nat := 5
  /** Sixteen characters plus a zero terminator. */
  const INPUT_CHARACTERS_SIZE: nat := 17
  /** Number of semantic keys the bridge maps (the entries its key map assigns). */
  const KEY_MAP_SIZE: nat := 21

  datatype Vec2 = Vec2(x: real, y: real)

  /** The library's four-component vector, used for clip rectangles (x, y, z, w). */
  datatype Vec4 = Vec4(x: real, y: real, z: real, w: real)

  /** The semantic keys for which the library needs to know the host's key index. */
  datatype Key =
    | Tab | LeftArrow | RightArrow | UpArrow | DownArrow | PageUp | PageDown | Home | End
    | Delete | Backspace | Enter | Escape | KeyA | KeyC | KeyV | KeyX | KeyY | KeyZ | KeyT | SpaceBar

  /** All semantic keys, in key-map slot order. */
  const ALL_KEYS: seq<Key> := [
    Tab, LeftArrow, RightArrow, UpArrow, DownArrow, PageUp, PageDown, Home, End,
    Delete, Backspace, Enter, Escape, KeyA, KeyC, KeyV, KeyX, KeyY, KeyZ, KeyT, SpaceBar]

  /** The slot of a semantic key in the key map. The library's enumeration values are not modelled; the slots
      follow the order in which the bridge fills the key map. */
  function KeySlot(k: Key): (slot: nat)
    ensures slot < KEY_MAP_SIZE && ALL_KEYS[slot] == k
  {
    match k
    case Tab => 0
    case LeftArrow => 1
    case RightArrow => 2
    case UpArrow => 3
    case DownArrow => 4
    case PageUp => 5
    case PageDown => 6
    case Home => 7
    case End => 8
    case Delete => 9
    case Backspace => 10
    case Enter => 11
    case Escape => 12
    case KeyA => 13
    case KeyC => 14
    case KeyV => 15
    case KeyX => 16
    case KeyY => 17
    case KeyZ => 18
    case KeyT => 19
    case SpaceBar => 20
  }

  /** Distinct keys occupy distinct slots, and every slot is occupied by exactly one key. */
  lemma KeySlotBijective()
    ensures |ALL_KEYS| == KEY_MAP_SIZE
    ensures forall k1: Key, k2: Key :: KeySlot(k1) == KeySlot(k2) ==> k1 == k2
    ensures forall i :: 0 <= i < KEY_MAP_SIZE ==> KeySlot(ALL_KEYS[i]) == i
  {
  }

  /** The library's mouse-cursor kinds; any other code is carried as `UnknownCursor`. */
  datatype MouseCursor =
    | CursorNone | Arrow | TextInput | Move | ResizeNS | ResizeEW | ResizeNESW | ResizeNWSE
    | GrabOpen | GrabClosed | Hand | UnknownCursor(code: int)

  /** The library's per-frame input structure, restricted to the fields the bridge writes or reads. */
  datatype IORecord = IORecord(
    deltaTime: real,
    displaySize: Vec2,
    iniFilename: string,
    mouseDrawCursor: bool,
    mousePos: Vec2,
    mouseWheel: real,
    keyCtrl: bool,
    keyShift: bool,
    keyAlt: bool,
    keySuper: bool,
    keysDown: seq<bool>,
    mouseDown: seq<bool>,
    inputCharacters: seq<nat>,
    keyMap: seq<int>)
  {
    /** The arrays have the sizes the library declares for them. */
    predicate WellSized() {
      && |keysDown| == KEYS_COUNT
      && |mouseDown| == MOUSE_BUTTONS_COUNT
      && |inputCharacters| == INPUT_CHARACTERS_SIZE
      && |keyMap| == KEY_MAP_SIZE
    }
  }

  /** The IO structure has fixed-size arrays, so every value of it is well sized. */
  type IO = io: IORecord | io.WellSized()
    witness IORecord(0.0, Vec2(0.0, 0.0), "", false, Vec2(0.0, 0.0), 0.0, false, false, false, false,
                     seq(KEYS_COUNT, _ => false), seq(MOUSE_BUTTONS_COUNT, _ => false),
                     seq(INPUT_CHARACTERS_SIZE, _ => 0), seq(KEY_MAP_SIZE, _ => -1))

  /** The library's texture id: an opaque pointer, kept as its 64 bits. */
  type TextureId = uint64

  /** One draw command: a run of `elemCount` indices drawn with one clip rectangle and one texture. */
  datatype DrawCmd = DrawCmd(elemCount: uint32, clipRect: Vec4, textureId: TextureId)

  /** An index into a draw list's vertex buffer (16 bits wide in the library's default configuration). */
  type DrawIdx = i: nat | i < 0x1_0000

  /** One vertex: position, texture coordinate and packed 32-bit colour. */
  datatype DrawVert = DrawVert(pos: Vec2, uv: Vec2, col: bv32)

  /** One draw list of a rendered frame: commands, shared index buffer and shared vertex buffer. */
  datatype DrawList = DrawList(cmdBuffer: seq<DrawCmd>, idxBuffer: seq<DrawIdx>, vtxBuffer: seq<DrawVert>)

  /** The draw data of a rendered frame; its list count is the length of `cmdLists`. */
  datatype DrawData = DrawData(cmdLists: seq<DrawList>) {
    function CmdListsCount(): nat {
      |cmdLists|
    }
  }

  /** One library context: its IO structure and the rest of its state, which the bridge never inspects. */
  datatype Context = Context(io: IO, internal: int)

  /** The library's behaviour on a context, as uninterpreted functions. `getDrawData` may give no data (a null
      pointer). */
  datatype Library = Library(
    newFrame: Context -> Context,
    render: Context -> Context,
    getDrawData: Context -> Option<DrawData>,
    isAnyItemActive: Context -> bool,
    getMouseCursor: Context -> MouseCursor)
}

=== FILE: InputState.dfy ===
/**
 * The per-widget input snapshot accumulated between frames: key and mouse-button arrays with dirty update
 * ranges, mouse position and wheel accumulator, a bounded character buffer and modifier flags.
 */
module ImGuiInputState {
  import opened ImGuiLibrary

  /** At most this many characters are kept per frame; the last buffer slot stays a zero terminator. */
  const CHARACTERS_CAPACITY: nat := INPUT_CHARACTERS_SIZE - 1

  /** A pair of indices bounding a part of an array, `[begin, end)`; empty when `begin >= end`. */
  datatype IndexRange = IndexRange(begin: nat, end: nat) {

    predicate IsEmpty() {
      begin >= end
    }

    predicate Contains(i: nat) {
      begin <= i < end
    }

    /** Both bounds lie within an array of the given size. */
    predicate WithinArray(size: nat) {
      begin <= size && end <= size
    }

    /** Expands the range so that it also bounds position `i`. */
    function AddPosition(i: nat): (r: IndexRange)
      ensures r.Contains(i)
      ensures forall j: nat :: Contains(j) ==> r.Contains(j)
      ensures forall j: nat :: r.Contains(j) ==> Contains(j) || i <= j < begin || end <= j <= i
      ensures forall size :: WithinArray(size) && i < size ==> r.WithinArray(size)
    {
      IndexRange(if i < begin then i else begin, if end < i + 1 then i + 1 else end)
    }
  }

  /** The empty range of an array of the given size, placed so that adding any index `i` gives exactly `[i, i+1)`. */
  function EmptyRange(size: nat): (r: IndexRange)
    ensures r.IsEmpty() && r.WithinArray(size)
    ensures forall i: nat :: i < size ==> r.AddPosition(i) == IndexRange(i, i + 1)
  {
    IndexRange(size, 0)
  }

  /** The range covering a whole array of the given size. */
  function FullRange(size: nat): (r: IndexRange)
    ensures r.WithinArray(size)
    ensures forall i: nat :: r.Contains(i) <==> i < size
  {
    IndexRange(0, size)
  }

  datatype InputStateData = InputStateData(
    mousePosition: Vec2,
    mouseWheelDelta: real,
    mouseButtonsDown: seq<bool>,
    mouseButtonsUpdateRange: IndexRange,
    inputCharacters: seq<nat>,
    inputCharactersNum: nat,
    keysDown: seq<bool>,
    keysUpdateRange: IndexRange,
    hasMousePointer: bool,
    isControlDown: bool,
    isShiftDown: bool,
    isAltDown: bool)
  {
    /** Fixed array sizes, update ranges inside their arrays, and a zero-terminated character buffer holding at
        most `CHARACTERS_CAPACITY` characters. */
    predicate WellFormed() {
      && |mouseButtonsDown| == MOUSE_BUTTONS_COUNT
      && mouseButtonsUpdateRange.WithinArray(MOUSE_BUTTONS_COUNT)
      && |keysDown| == KEYS_COUNT
      && keysUpdateRange.WithinArray(KEYS_COUNT)
      && |inputCharacters| == INPUT_CHARACTERS_SIZE
      && inputCharactersNum <= CHARACTERS_CAPACITY
      && forall j :: inputCharactersNum <= j < INPUT_CHARACTERS_SIZE ==> inputCharacters[j] == 0
    }
  }

  type InputState = s: InputStateData | s.WellFormed()
    witness InputStateData(Vec2(0.0, 0.0), 0.0, seq(MOUSE_BUTTONS_COUNT, _ => false), FullRange(MOUSE_BUTTONS_COUNT),
                           seq(INPUT_CHARACTERS_SIZE, _ => 0), 0, seq(KEYS_COUNT, _ => false), FullRange(KEYS_COUNT),
                           false, false, false, false)

  /** An array of `n` cleared flags. */
  function Cleared(n: nat): (r: seq<bool>)
    ensures |r| == n && forall i :: 0 <= i < n ==> !r[i]
  {
    seq(n, _ => false)
  }

  /** An array of `n` zero characters. */
  function Zeros(n: nat): (r: seq<nat>)
    ensures |r| == n && forall i :: 0 <= i < n ==> r[i] == 0
  {
    seq(n, _ => 0)
  }

  /** The keyboard part: keys with their update range, and characters. */
  predicate SameKeyboardPart(a: InputState, b: InputState) {
    && a.keysDown == b.keysDown
    && a.keysUpdateRange == b.keysUpdateRange
    && a.inputCharacters == b.inputCharacters
    && a.inputCharactersNum == b.inputCharactersNum
  }

  /** The mouse part: buttons with their update range, position and wheel accumulator. */
  predicate SameMousePart(a: InputState, b: InputState) {
    && a.mouseButtonsDown == b.mouseButtonsDown
    && a.mouseButtonsUpdateRange == b.mouseButtonsUpdateRange
    && a.mousePosition == b.mousePosition
    && a.mouseWheelDelta == b.mouseWheelDelta
  }

  /** The modifier flags, which both keyboard and pointer events carry. */
  predicate SameModifiers(a: InputState, b: InputState) {
    a.isControlDown == b.isControlDown && a.isShiftDown == b.isShiftDown && a.isAltDown == b.isAltDown
  }

  /** The keyboard part holds no key and no character, and the whole keys array is marked dirty. */
  ghost predicate KeyboardCleared(s: InputState) {
    && (forall i :: 0 <= i < KEYS_COUNT ==> !s.keysDown[i])
    && (forall i: nat :: s.keysUpdateRange.Contains(i) <==> i < KEYS_COUNT)
    && s.inputCharactersNum == 0
    && (forall i :: 0 <= i < INPUT_CHARACTERS_SIZE ==> s.inputCharacters[i] == 0)
  }

  /** The mouse part holds no button and sits at the origin with no wheel delta, and the whole buttons array is
      marked dirty. */
  ghost predicate MouseCleared(s: InputState) {
    && (forall i :: 0 <= i < MOUSE_BUTTONS_COUNT ==> !s.mouseButtonsDown[i])
    && (forall i: nat :: s.mouseButtonsUpdateRange.Contains(i) <==> i < MOUSE_BUTTONS_COUNT)
    && s.mousePosition == Vec2(0.0, 0.0)
    && s.mouseWheelDelta == 0.0
  }

  predicate ModifiersCleared(s: InputState) {
    !s.isControlDown && !s.isShiftDown && !s.isAltDown
  }

  /** Adds a character; once `CHARACTERS_CAPACITY` characters are held, further ones are discarded. */
  function AddCharacter(s: InputState, c: nat): (r: InputState)
    ensures s.inputCharactersNum < CHARACTERS_CAPACITY ==>
              && r.inputCharactersNum == s.inputCharactersNum + 1
              && r.inputCharacters[..r.inputCharactersNum] == s.inputCharacters[..s.inputCharactersNum] + [c]
    ensures s.inputCharactersNum == CHARACTERS_CAPACITY ==> r == s
    ensures r.(inputCharacters := s.inputCharacters, inputCharactersNum := s.inputCharactersNum) == s
  {
    if s.inputCharactersNum < CHARACTERS_CAPACITY then
      s.(inputCharacters := s.inputCharacters[s.inputCharactersNum := c], inputCharactersNum := s.inputCharactersNum + 1)
    else
      s
  }

  /** Changes the state of one key and widens the keys update range to include it; an index outside the keys
      array changes nothing. */
  function SetKeyDown(s: InputState, keyIndex: nat, isDown: bool): (r: InputState)
    ensures keyIndex < KEYS_COUNT ==>
              && r.keysDown[keyIndex] == isDown
              && r.keysUpdateRange.Contains(keyIndex)
              && (forall j :: s.keysUpdateRange.Contains(j) ==> r.keysUpdateRange.Contains(j))
              && (forall j :: 0 <= j < KEYS_COUNT && j != keyIndex ==> r.keysDown[j] == s.keysDown[j])
    ensures keyIndex >= KEYS_COUNT ==> r == s
    ensures r.(keysDown := s.keysDown, keysUpdateRange := s.keysUpdateRange) == s
  {
    if keyIndex < KEYS_COUNT then
      s.(keysDown := s.keysDown[keyIndex := isDown], keysUpdateRange := s.keysUpdateRange.AddPosition(keyIndex))
    else
      s
  }

  /** Changes the state of one mouse button and widens the buttons update range to include it; an index outside
      the buttons array changes nothing. */
  function SetMouseDown(s: InputState, mouseIndex: nat, isDown: bool): (r: InputState)
    ensures mouseIndex < MOUSE_BUTTONS_COUNT ==>
              && r.mouseButtonsDown[mouseIndex] == isDown
              && r.mouseButtonsUpdateRange.Contains(mouseIndex)
              && (forall j :: s.mouseButtonsUpdateRange.Contains(j) ==> r.mouseButtonsUpdateRange.Contains(j))
              && (forall j :: 0 <= j < MOUSE_BUTTONS_COUNT && j != mouseIndex ==> r.mouseButtonsDown[j] == s.mouseButtonsDown[j])
    ensures mouseIndex >= MOUSE_BUTTONS_COUNT ==> r == s
    ensures r.(mouseButtonsDown := s.mouseButtonsDown, mouseButtonsUpdateRange := s.mouseButtonsUpdateRange) == s
  {
    if mouseIndex < MOUSE_BUTTONS_COUNT then
      s.(mouseButtonsDown := s.mouseButtonsDown[mouseIndex := isDown],
         mouseButtonsUpdateRange := s.mouseButtonsUpdateRange.AddPosition(mouseIndex))
    else
      s
  }

  /** Accumulates a wheel delta. */
  function AddMouseWheelDelta(s: InputState, delta: real): (r: InputState)
    ensures r.mouseWheelDelta - s.mouseWheelDelta == delta
    ensures r.(mouseWheelDelta := s.mouseWheelDelta) == s
  {
    s.(mouseWheelDelta := s.mouseWheelDelta + delta)
  }

  function SetMousePosition(s: InputState, position: Vec2): (r: InputState)
    ensures r.mousePosition == position
    ensures r.(mousePosition := s.mousePosition) == s
  {
    s.(mousePosition := position)
  }

  function SetMousePointer(s: InputState, hasPointer: bool): (r: InputState)
    ensures r.hasMousePointer == hasPointer
    ensures r.(hasMousePointer := s.hasMousePointer) == s
  {
    s.(hasMousePointer := hasPointer)
  }

  function SetControlDown(s: InputState, isDown: bool): (r: InputState)
    ensures r.isControlDown == isDown
    ensures r.(isControlDown := s.isControlDown) == s
  {
    s.(isControlDown := isDown)
  }

  function SetShiftDown(s: InputState, isDown: bool): (r: InputState)
    ensures r.isShiftDown == isDown
    ensures r.(isShiftDown := s.isShiftDown) == s
  {
    s.(isShiftDown := isDown)
  }

  function SetAltDown(s: InputState, isDown: bool): (r: InputState)
    ensures r.isAltDown == isDown
    ensures r.(isAltDown := s.isAltDown) == s
  {
    s.(isAltDown := isDown)
  }

  /** Resets the chosen parts and marks their arrays as dirty; a part not chosen is left as it was. The modifier
      flags belong to both parts and are cleared only when both are reset. The pointer flag is never reset. */
  function Reset(s: InputState, keyboard: bool, mouse: bool): (r: InputState)
    ensures keyboard ==> KeyboardCleared(r)
    ensures !keyboard ==> SameKeyboardPart(r, s)
    ensures mouse ==> MouseCleared(r)
    ensures !mouse ==> SameMousePart(r, s)
    ensures keyboard && mouse ==> ModifiersCleared(r)
    ensures !(keyboard && mouse) ==> SameModifiers(r, s)
    ensures r.hasMousePointer == s.hasMousePointer
  {
    var both := keyboard && mouse;
    InputStateData(
      if mouse then Vec2(0.0, 0.0) else s.mousePosition,
      if mouse then 0.0 else s.mouseWheelDelta,
      if mouse then Cleared(MOUSE_BUTTONS_COUNT) else s.mouseButtonsDown,
      if mouse then FullRange(MOUSE_BUTTONS_COUNT) else s.mouseButtonsUpdateRange,
      if keyboard then Zeros(INPUT_CHARACTERS_SIZE) else s.inputCharacters,
      if keyboard then 0 else s.inputCharactersNum,
      if keyboard then Cleared(KEYS_COUNT) else s.keysDown,
      if keyboard then FullRange(KEYS_COUNT) else s.keysUpdateRange,
      s.hasMousePointer,
      if both then false else s.isControlDown,
      if both then false else s.isShiftDown,
      if both then false else s.isAltDown)
  }

  function ResetState(s: InputState): (r: InputState)
    ensures KeyboardCleared(r) && MouseCleared(r) && ModifiersCleared(r)
    ensures r.hasMousePointer == s.hasMousePointer
  {
    Reset(s, true, true)
  }

  function ResetKeyboardState(s: InputState): (r: InputState)
    ensures KeyboardCleared(r) && SameMousePart(r, s) && SameModifiers(r, s)
    ensures r.hasMousePointer == s.hasMousePointer
  {
    Reset(s, true, false)
  }

  function ResetMouseState(s: InputState): (r: InputState)
    ensures MouseCleared(r) && SameKeyboardPart(r, s) && SameModifiers(r, s)
    ensures r.hasMousePointer == s.hasMousePointer
  {
    Reset(s, false, true)
  }

  /** Clears the per-frame part: the wheel accumulator, the character buffer and both update ranges. Key and
      button states, position, pointer and modifiers are kept. */
  function ClearUpdateState(s: InputState): (r: InputState)
    ensures r.keysUpdateRange.IsEmpty() && r.mouseButtonsUpdateRange.IsEmpty()
    ensures forall i: nat :: i < KEYS_COUNT ==> r.keysUpdateRange.AddPosition(i) == IndexRange(i, i + 1)
    ensures forall i: nat :: i < MOUSE_BUTTONS_COUNT ==> r.mouseButtonsUpdateRange.AddPosition(i) == IndexRange(i, i + 1)
    ensures r.mouseWheelDelta == 0.0 && r.inputCharactersNum == 0
    ensures forall j :: 0 <= j < INPUT_CHARACTERS_SIZE ==> r.inputCharacters[j] == 0
    ensures r.keysDown == s.keysDown && r.mouseButtonsDown == s.mouseButtonsDown
    ensures r.mousePosition == s.mousePosition && r.hasMousePointer == s.hasMousePointer
    ensures r.isControlDown == s.isControlDown && r.isShiftDown == s.isShiftDown && r.isAltDown == s.isAltDown
  {
    InputStateData(s.mousePosition, 0.0, s.mouseButtonsDown, EmptyRange(MOUSE_BUTTONS_COUNT),
                   Zeros(INPUT_CHARACTERS_SIZE), 0, s.keysDown, EmptyRange(KEYS_COUNT),
                   s.hasMousePointer, s.isControlDown, s.isShiftDown, s.isAltDown)
  }

  /** A freshly created state: everything cleared, no pointer, and the whole of both arrays marked dirty. */
  function NewInputState(): (r: InputState)
    ensures KeyboardCleared(r) && MouseCleared(r) && ModifiersCleared(r) && !r.hasMousePointer
  {
    var blank: InputState := InputStateData(Vec2(0.0, 0.0), 0.0, Cleared(MOUSE_BUTTONS_COUNT), EmptyRange(MOUSE_BUTTONS_COUNT),
                                            Zeros(INPUT_CHARACTERS_SIZE), 0, Cleared(KEYS_COUNT), EmptyRange(KEYS_COUNT),
                                            false, false, false, false);
    ResetState(blank)
  }

  /** After clearing the update state, a single key change leaves exactly that key's index dirty. */
  lemma SingleKeyChangeAfterClear(s: InputState, keyIndex: nat, isDown: bool)
    requires keyIndex < KEYS_COUNT
    ensures var r := SetKeyDown(ClearUpdateState(s), keyIndex, isDown);
            forall j :: r.keysUpdateRange.Contains(j) <==> j == keyIndex
  {
  }

  /** The characters currently held, in arrival order. */
  function Held(s: InputState): seq<nat> {
    s.inputCharacters[..s.inputCharactersNum]
  }

  /** Adds characters in order. */
  function AddCharacters(s: InputState, chars: seq<nat>): InputState
    decreases |chars|
  {
    if chars == [] then s else AddCharacters(AddCharacter(s, chars[0]), chars[1..])
  }

  /** However many characters arrive, the buffer keeps the first ones in order until it is full and drops the
      rest. */
  lemma {:induction false} AddCharactersKeepsFirst(s: InputState, chars: seq<nat>)
    ensures var n := if |Held(s)| + |chars| < CHARACTERS_CAPACITY then |Held(s)| + |chars| else CHARACTERS_CAPACITY;
            Held(AddCharacters(s, chars)) == (Held(s) + chars)[..n]
    decreases |chars|
  {
    if chars == [] {
      assert Held(s) + chars == Held(s);
    } else {
      var s' := AddCharacter(s, chars[0]);
      AddCharactersKeepsFirst(s', chars[1..]);
      if s.inputCharactersNum < CHARACTERS_CAPACITY {
        assert Held(s') == Held(s) + [chars[0]];
        assert Held(s') + chars[1..] == Held(s) + chars;
      } else {
        assert (Held(s) + chars[1..])[..CHARACTERS_CAPACITY] == Held(s);
        assert (Held(s) + chars)[..CHARACTERS_CAPACITY] == Held(s);
      }
    }
  }
}

=== FILE: Integers.dfy ===
/** Fixed-width machine integers of the source, as ranges of unbounded integers, with the two's-complement
    conversions between them written out. */
module Integers {

  const TWO_TO_THE_31: int := 0x8000_0000
  const TWO_TO_THE_32: int := 0x1_0000_0000
  const TWO_TO_THE_64: int := 0x1_0000_0000_0000_0000

  type int32 = i: int | -TWO_TO_THE_31 <= i < TWO_TO_THE_31
  type uint32 = n: int | 0 <= n < TWO_TO_THE_32
  type uint64 = n: int | 0 <= n < TWO_TO_THE_64

  /** The low 32 bits of any integer, read as unsigned: an implicit conversion to `uint32`. */
  function WrapUInt32(i: int): (r: uint32)
    ensures (r - i) % TWO_TO_THE_32 == 0
  {
    i % TWO_TO_THE_32
  }

  /** The low 32 bits of any integer, read as signed: an implicit conversion to `int32`. */
  function WrapInt32(i: int): (r: int32)
    ensures (r - i) % TWO_TO_THE_32 == 0
  {
    var low := i % TWO_TO_THE_32;
    if low < TWO_TO_THE_31 then low else low - TWO_TO_THE_32
  }

  /** Both conversions leave values that already fit unchanged. */
  lemma WrapKeepsFittingValues(i: int)
    ensures 0 <= i < TWO_TO_THE_32 ==> WrapUInt32(i) == i
    ensures -TWO_TO_THE_31 <= i < TWO_TO_THE_31 ==> WrapInt32(i) == i
  {
  }
}

=== FILE: Interop.dfy ===
/**
 * Conversions between the host engine and the immediate-mode GUI library: key and mouse-button indices, the key
 * map, mouse cursors, colours, rectangles and texture ids, and the copy of an input state into the library's IO
 * structure at the start of a frame.
 */
module ImGuiInterops {
  import opened Wrappers
  import opened Integers
  import opened ImGuiLibrary
  import opened SlateTypes
  import opened ImGuiInputState
  import opened TextureManager

  /** The index reported for a key or button that has none: -1 stored in 32 unsigned bits. */
  const NO_INDEX: uint32 := TWO_TO_THE_32 - 1

  //--------------------------------------------------------------------------------------------------------------
  // Copying utilities
  //--------------------------------------------------------------------------------------------------------------

  /** Copies every element of `src` over `dst`, an array of the same size. */
  function CopyAll<T>(src: seq<T>, dst: seq<T>): (r: seq<T>)
    requires |src| == |dst|
    ensures |r| == |dst| && forall i :: 0 <= i < |r| ==> r[i] == src[i]
  {
    src
  }

  /** Copies the elements of `src` inside `range` over the same positions of `dst`; the rest of `dst` is kept. */
  function CopyRange<T>(src: seq<T>, dst: seq<T>, range: IndexRange): (r: seq<T>)
    requires |src| == |dst| && range.begin <= range.end <= |src|
    ensures |r| == |dst|
    ensures forall i: nat :: i < |r| ==> r[i] == if range.Contains(i) then src[i] else dst[i]
  {
    dst[..range.begin] + src[range.begin..range.end] + dst[range.end..]
  }

  /** The per-frame copy of one dirty part: `CopyRange` over a non-empty range, and nothing to do over an empty
      one. */
  function CopyDirty<T>(src: seq<T>, dst: seq<T>, range: IndexRange): (r: seq<T>)
    requires |src| == |dst| && range.WithinArray(|src|)
    ensures |r| == |dst|
    ensures forall i: nat :: i < |r| ==> r[i] == if range.Contains(i) then src[i] else dst[i]
  {
    if !range.IsEmpty() then CopyRange(src, dst, range) else dst
  }

  /** Copies the first `count` elements of `src` over the start of `dst`; the count must be smaller than the
      array size. */
  function CopyCount<T>(src: seq<T>, dst: seq<T>, count: nat): (r: seq<T>)
    requires |src| == |dst| && count < |src|
    ensures |r| == |dst|
    ensures forall i :: 0 <= i < |r| ==> r[i] == if i < count then src[i] else dst[i]
  {
    src[..count] + dst[count..]
  }

  /** Copying the full range of an array is the same as copying everything; copying an
      empty range or no element changes nothing. */
  lemma CopyExtremes<T>(src: seq<T>, dst: seq<T>)
    requires |src| == |dst|
    ensures CopyRange(src, dst, FullRange(|src|)) == CopyAll(src, dst)
    ensures |src| > 0 ==> CopyCount(src, dst, 0) == dst
    ensures forall b: nat :: b <= |src| ==> CopyRange(src, dst, IndexRange(b, b)) == dst
  {
  }

  //--------------------------------------------------------------------------------------------------------------
  // Input mapping
  //--------------------------------------------------------------------------------------------------------------

  /** The host's input key manager: the codes it knows for each key, and the key it finds for a pair of codes. */
  datatype KeyManager = KeyManager(codesFromKey: HostKey -> KeyCodes, keyFromCodes: (uint32, uint32) -> HostKey)

  /** The index of a key in the keys array: its key code when it has one, else its character code, else
      `NO_INDEX`. */
  function GetKeyIndex(manager: KeyManager, key: HostKey): (r: uint32)
    ensures manager.codesFromKey(key).keyCode.Some? ==> r == manager.codesFromKey(key).keyCode.value
    ensures manager.codesFromKey(key).keyCode.None? && manager.codesFromKey(key).charCode.Some? ==>
              r == manager.codesFromKey(key).charCode.value
    ensures manager.codesFromKey(key) == KeyCodes(None, None) ==> r == NO_INDEX
  {
    var codes := manager.codesFromKey(key);
    if codes.keyCode.Some? then codes.keyCode.value
    else if codes.charCode.Some? then codes.charCode.value
    else NO_INDEX
  }

  /** The key that a keys-array index designates: the key manager's key for that index used as both codes. */
  function GetKeyFromIndex(manager: KeyManager, keyIndex: uint32): HostKey {
    manager.keyFromCodes(keyIndex, keyIndex)
  }

  /** The key manager finds a key back from its key code, or from its character code when it has no key code. */
  ghost predicate FindsKeysBack(manager: KeyManager) {
    forall key: HostKey, c: uint32 ::
      (manager.codesFromKey(key).keyCode == Some(c)
       || (manager.codesFromKey(key).keyCode.None? && manager.codesFromKey(key).charCode == Some(c)))
      ==> manager.keyFromCodes(c, c) == key
  }

  /** For a key manager that finds keys back from their codes, the key of a key's index is that key. */
  lemma KeyIndexRoundTrip(manager: KeyManager, key: HostKey)
    requires FindsKeysBack(manager)
    requires manager.codesFromKey(key) != KeyCodes(None, None)
    ensures GetKeyFromIndex(manager, GetKeyIndex(manager, key)) == key
  {
  }

  /** Keys the manager gives distinct key codes land in distinct slots of the keys array, and a key with codes
      lands at the code the manager gives it, which is never `NO_INDEX` unless the manager gives that code. */
  lemma KeyIndexFollowsCodes(manager: KeyManager, key1: HostKey, key2: HostKey)
    ensures var c1 := manager.codesFromKey(key1);
            var c2 := manager.codesFromKey(key2);
            && (c1.keyCode.Some? && c2.keyCode.Some? && c1.keyCode != c2.keyCode ==>
                  GetKeyIndex(manager, key1) != GetKeyIndex(manager, key2))
            && (c1 == c2 ==> GetKeyIndex(manager, key1) == GetKeyIndex(manager, key2))
            && (GetKeyIndex(manager, key1) == NO_INDEX <==>
                  c1.keyCode == Some(NO_INDEX) || (c1.keyCode.None? && c1.charCode in {None, Some(NO_INDEX)}))
  {
  }

  /** The index of a key event in the keys array: its character when that is not zero, else its key code. */
  function GetKeyEventIndex(event: KeyEvent): (r: uint32)
    ensures event.character != 0 ==> r == event.character
    ensures event.character == 0 ==> r == event.keyCode
  {
    if event.character != 0 then event.character else event.keyCode
  }

  /** The host key the library's semantic key stands for. */
  function HostKeyOf(k: Key): HostKey {
    match k
    case Tab => TabKey
    case LeftArrow => LeftKey
    case RightArrow => RightKey
    case UpArrow => UpKey
    case DownArrow => DownKey
    case PageUp => PageUpKey
    case PageDown => PageDownKey
    case Home => HomeKey
    case End => EndKey
    case Delete => DeleteKey
    case Backspace => BackSpaceKey
    case Enter => EnterKey
    case Escape => EscapeKey
    case KeyA => AKey
    case KeyC => CKey
    case KeyV => VKey
    case KeyX => XKey
    case KeyY => YKey
    case KeyZ => ZKey
    case KeyT => TKey
    case SpaceBar => SpaceBarKey
  }

  /** Distinct semantic keys stand for distinct host keys. */
  lemma HostKeyOfInjective(k1: Key, k2: Key)
    ensures HostKeyOf(k1) == HostKeyOf(k2) ==> k1 == k2
  {
  }

  /** The key map: for each semantic key, in key-map slot order, the host key index of the key it stands for,
      stored in the library's signed integer entries. */
  function UnrealKeyMap(manager: KeyManager): (r: seq<int>)
    ensures |r| == KEY_MAP_SIZE
    ensures forall k: Key :: r[KeySlot(k)] == WrapInt32(GetKeyIndex(manager, HostKeyOf(k)))
  {
    KeySlotBijective();
    seq(KEY_MAP_SIZE, i requires 0 <= i < KEY_MAP_SIZE => WrapInt32(GetKeyIndex(manager, HostKeyOf(ALL_KEYS[i]))))
  }

  /** Writes the key map into the IO structure; nothing else in it changes. */
  function SetUnrealKeyMap(io: IO, manager: KeyManager): (r: IO)
    ensures r.keyMap == UnrealKeyMap(manager)
    ensures r.(keyMap := io.keyMap) == io
  {
    io.(keyMap := UnrealKeyMap(manager))
  }

  /** The key map is the same table on every call, so setting it twice is the same as setting it once, and a key
      whose key code fits the library's entry finds that code in its slot. */
  lemma SetUnrealKeyMapIdempotent(io: IO, manager: KeyManager, k: Key)
    ensures SetUnrealKeyMap(SetUnrealKeyMap(io, manager), manager) == SetUnrealKeyMap(io, manager)
    ensures var codes := manager.codesFromKey(HostKeyOf(k));
            codes.keyCode.Some? && codes.keyCode.value < TWO_TO_THE_31 ==>
              SetUnrealKeyMap(io, manager).keyMap[KeySlot(k)] == codes.keyCode.value
  {
  }

  /** The index of a mouse button in the buttons array: left 0, right 1, middle 2, thumb 3, second thumb 4;
      any other key gives `NO_INDEX`. */
  function GetMouseIndex(button: HostKey): (r: uint32)
    ensures r < MOUSE_BUTTONS_COUNT || r == NO_INDEX
  {
    match button
    case LeftMouseButton => 0
    case MiddleMouseButton => 2
    case RightMouseButton => 1
    case ThumbMouseButton => 3
    case ThumbMouseButton2 => 4
    case _ => NO_INDEX
  }

  /** The mouse button at a position of the buttons array. */
  function MouseButtonAt(index: nat): (r: HostKey)
    requires index < MOUSE_BUTTONS_COUNT
  {
    [LeftMouseButton, RightMouseButton, MiddleMouseButton, ThumbMouseButton, ThumbMouseButton2][index]
  }

  /** The five mouse buttons and the five positions of the buttons array correspond one to one; every other key
      has no position. */
  lemma MouseIndexBijective(button: HostKey, index: nat)
    ensures index < MOUSE_BUTTONS_COUNT ==> GetMouseIndex(MouseButtonAt(index)) == index
    ensures GetMouseIndex(button) < MOUSE_BUTTONS_COUNT ==> MouseButtonAt(GetMouseIndex(button)) == button
    ensures GetMouseIndex(button) == NO_INDEX <==>
              button !in {LeftMouseButton, RightMouseButton, MiddleMouseButton, ThumbMouseButton, ThumbMouseButton2}
  {
  }

  /** The index of a pointer event's effecting button. */
  function GetPointerEventMouseIndex(event: PointerEvent): (r: uint32)
    ensures r == GetMouseIndex(event.effectingButton)
  {
    GetMouseIndex(event.effectingButton)
  }

  /** The host cursor for a library cursor: each of the ten named shapes has its own host cursor; the hidden
      cursor and any unknown code give the host's hidden cursor. */
  function ToSlateMouseCursor(cursor: MouseCursor): (r: SlateCursor)
    ensures cursor.CursorNone? || cursor.UnknownCursor? <==> r == SlateNone
  {
    match cursor
    case Arrow => Default
    case TextInput => TextEditBeam
    case Move => CardinalCross
    case ResizeNS => ResizeUpDown
    case ResizeEW => ResizeLeftRight
    case ResizeNESW => ResizeSouthWest
    case ResizeNWSE => ResizeSouthEast
    case GrabOpen => GrabHand
    case GrabClosed => GrabHandClosed
    case Hand => SlateHand
    case CursorNone => SlateNone
    case UnknownCursor(_) => SlateNone
  }

  /** A library cursor other than hidden or unknown. */
  predicate IsNamedCursor(cursor: MouseCursor) {
    !cursor.CursorNone? && !cursor.UnknownCursor?
  }

  /** Distinct named cursors give distinct host cursors. */
  lemma ToSlateMouseCursorInjective(c1: MouseCursor, c2: MouseCursor)
    requires IsNamedCursor(c1) && IsNamedCursor(c2)
    ensures ToSlateMouseCursor(c1) == ToSlateMouseCursor(c2) ==> c1 == c2
  {
  }

  //--------------------------------------------------------------------------------------------------------------
  // Conversions
  //--------------------------------------------------------------------------------------------------------------

  /** Bit positions of the four channels in the library's packed colour. */
  const COL32_R_SHIFT: bv32 := 0
  const COL32_G_SHIFT: bv32 := 8
  const COL32_B_SHIFT: bv32 := 16
  const COL32_A_SHIFT: bv32 := 24

  /** Each channel of the host colour is the byte of the packed colour at that channel's position. */
  function UnpackImU32Color(color: bv32): (r: Color)
    ensures r.r as bv32 == (color >> COL32_R_SHIFT) & 0xFF
    ensures r.g as bv32 == (color >> COL32_G_SHIFT) & 0xFF
    ensures r.b as bv32 == (color >> COL32_B_SHIFT) & 0xFF
    ensures r.a as bv32 == (color >> COL32_A_SHIFT) & 0xFF
  {
    Color(((color >> COL32_R_SHIFT) & 0xFF) as bv8, ((color >> COL32_G_SHIFT) & 0xFF) as bv8,
          ((color >> COL32_B_SHIFT) & 0xFF) as bv8, ((color >> COL32_A_SHIFT) & 0xFF) as bv8)
  }

  /** The library's packing of four channels, the reverse of unpacking. */
  function PackImU32Color(c: Color): bv32 {
    (c.r as bv32 << COL32_R_SHIFT) | (c.g as bv32 << COL32_G_SHIFT)
    | (c.b as bv32 << COL32_B_SHIFT) | (c.a as bv32 << COL32_A_SHIFT)
  }

  /** Unpacking loses nothing: packing the unpacked channels gives the colour back, and unpacking a packed colour
      gives its channels back. */
  lemma ColorRoundTrip(color: bv32, c: Color)
    ensures PackImU32Color(UnpackImU32Color(color)) == color
    ensures UnpackImU32Color(PackImU32Color(c)) == c
  {
  }

  /** The library's rectangle (x, y, z, w) as the host's (left, top, right, bottom). */
  function ToSlateRect(rect: Vec4): (r: SlateRect)
    ensures r.left == rect.x && r.top == rect.y && r.right == rect.z && r.bottom == rect.w
  {
    SlateRect(rect.x, rect.y, rect.z, rect.w)
  }

  /** A texture index passed to the library: sign-extended to a pointer-sized integer, stored as its 64 bits. */
  function ToImTextureID(index: TextureIndex): (r: TextureId)
    ensures index >= 0 ==> r == index
    ensures index < 0 ==> r == TWO_TO_THE_64 + index
  {
    index % TWO_TO_THE_64
  }

  /** A texture id received from the library: the low 32 bits of the pointer, read as a signed index. */
  function ToTextureIndex(id: TextureId): (r: TextureIndex)
    ensures (r - id) % TWO_TO_THE_32 == 0
  {
    WrapInt32(id)
  }

  /** Every texture index survives the trip through the library, and a texture id survives the trip back exactly
      when it is the sign extension of a 32-bit value. */
  lemma TextureIdRoundTrip(index: TextureIndex, id: TextureId)
    ensures ToTextureIndex(ToImTextureID(index)) == index
    ensures ToImTextureID(ToTextureIndex(id)) == id <==> id < TWO_TO_THE_31 || id >= TWO_TO_THE_64 - TWO_TO_THE_31
  {
  }

  //--------------------------------------------------------------------------------------------------------------
  // Input state copying
  //--------------------------------------------------------------------------------------------------------------

  /** Copies an input state into the IO structure at the start of a frame. The pointer flag, mouse position and
      Ctrl/Shift/Alt are overwritten and Super is cleared; the wheel delta is added to what the IO already holds;
      keys and buttons are copied only inside their non-empty update ranges; the character buffer is copied in
      full only when it holds a character. Nothing else in the IO changes. */
  function CopyInput(io: IO, s: InputState): (r: IO)
    ensures r.mouseDrawCursor == s.hasMousePointer
    ensures r.mousePos == s.mousePosition
    ensures r.mouseWheel == io.mouseWheel + s.mouseWheelDelta
    ensures r.keyCtrl == s.isControlDown && r.keyShift == s.isShiftDown && r.keyAlt == s.isAltDown
    ensures !r.keySuper
    ensures forall i: nat :: i < KEYS_COUNT ==>
              r.keysDown[i] == if s.keysUpdateRange.Contains(i) then s.keysDown[i] else io.keysDown[i]
    ensures forall i: nat :: i < MOUSE_BUTTONS_COUNT ==>
              r.mouseDown[i] == if s.mouseButtonsUpdateRange.Contains(i) then s.mouseButtonsDown[i] else io.mouseDown[i]
    ensures r.inputCharacters == if s.inputCharactersNum > 0 then s.inputCharacters else io.inputCharacters
    ensures r.deltaTime == io.deltaTime && r.displaySize == io.displaySize && r.iniFilename == io.iniFilename
    ensures r.keyMap == io.keyMap
  {
    var keys := CopyDirty(s.keysDown, io.keysDown, s.keysUpdateRange);
    var buttons := CopyDirty(s.mouseButtonsDown, io.mouseDown, s.mouseButtonsUpdateRange);
    var characters := if s.inputCharactersNum > 0 then CopyAll(s.inputCharacters, io.inputCharacters)
                      else io.inputCharacters;
    IORecord(io.deltaTime, io.displaySize, io.iniFilename, s.hasMousePointer, s.mousePosition,
             io.mouseWheel + s.mouseWheelDelta, s.isControlDown, s.isShiftDown, s.isAltDown, false,
             keys, buttons, characters, io.keyMap)
  }

  /** The IO's keys and buttons agree with the input state everywhere outside the state's update ranges. */
  ghost predicate Synced(io: IO, s: InputState) {
    && (forall i: nat :: i < KEYS_COUNT && !s.keysUpdateRange.Contains(i) ==> io.keysDown[i] == s.keysDown[i])
    && (forall i: nat :: i < MOUSE_BUTTONS_COUNT && !s.mouseButtonsUpdateRange.Contains(i) ==>
          io.mouseDown[i] == s.mouseButtonsDown[i])
  }

  /** Copying only the dirty slices is enough: from an IO in sync with the state, the copy gives exactly the
      state's keys and buttons. */
  lemma CopyInputOfSyncedState(io: IO, s: InputState)
    requires Synced(io, s)
    ensures CopyInput(io, s).keysDown == s.keysDown
    ensures CopyInput(io, s).mouseDown == s.mouseButtonsDown
  {
  }

  /** Clearing the update state right after copying it into an IO that was in sync leaves the IO in sync with
      the cleared state. */
  lemma ClearAfterCopyKeepsSynced(io: IO, s: InputState)
    requires Synced(io, s)
    ensures Synced(CopyInput(io, s), ClearUpdateState(s))
  {
  }

  /** Every mutation of the state keeps the IO in sync: a key or button change widens the range over the changed
      entry, and a reset marks its whole part dirty. */
  lemma MutationsKeepSynced(io: IO, s: InputState, index: nat, isDown: bool, keyboard: bool, mouse: bool)
    requires Synced(io, s)
    ensures Synced(io, SetKeyDown(s, index, isDown))
    ensures Synced(io, SetMouseDown(s, index, isDown))
    ensures Synced(io, Reset(s, keyboard, mouse))
  {
  }

  /** Wheel deltas accumulate in the IO across copies. */
  lemma CopyInputAccumulatesWheel(io: IO, s1: InputState, s2: InputState)
    ensures CopyInput(CopyInput(io, s1), s2).mouseWheel == io.mouseWheel + s1.mouseWheelDelta + s2.mouseWheelDelta
  {
  }
}

=== FILE: Module.dfy ===
/**
 * The module's public face: adding and removing draw listeners, starting and shutting down the module manager,
 * and the console variables that switch input mode and the demo window. The module owns at most one manager.
 */
module ImGuiModule {
  import opened Wrappers
  import opened Integers
  import opened ImGuiDelegates
  import opened ImGuiContextProxy
  import opened ImGuiContextManager
  import opened ImGuiModuleManager

  /** Category of listeners bound to one context's own draw event. */
  const DEFAULT_CATEGORY: int32 := 0
  /** Category of listeners bound to the draw event shared by all contexts. */
  const MULTI_CONTEXT_CATEGORY: int32 := 1

  /** The fixed context indices of the editor and of a standalone game. */
  datatype ContextIndices = ContextIndices(editor: int32, standaloneGame: int32)

  /** The module: its manager, if started, and the values of the input-enabled and show-demo console variables. */
  datatype ModuleState = ModuleState(manager: Option<ModuleManager>, inputEnabled: int, showDemo: int)

  //--------------------------------------------------------------------------------------------------------------
  // Draw listeners
  //--------------------------------------------------------------------------------------------------------------

  /** The handle the host gives to a new binding of the own draw event of the context `index`, which that
      context does not hold yet; the context is the one a first reference would create. */
  ghost predicate FreshForContext(mod: ModuleState, index: int32, newHandle: DelegateHandle,
                                  create: int32 -> ContextProxy)
    requires mod.manager.Some?
  {
    && newHandle.IsValid()
    && newHandle !in GetWorldContextProxy(mod.manager.value.contextManager, index, create).1.drawEvent.bindings
  }

  /** The context index a world listener goes to: the world's own context in editor builds, the standalone game
      context otherwise. */
  function WorldDelegateIndex(indices: ContextIndices, withEditor: bool, worldIndex: int32): (r: int32)
    ensures withEditor ==> r == worldIndex
    ensures !withEditor ==> r == indices.standaloneGame
  {
    if withEditor then worldIndex else indices.standaloneGame
  }

  /** Binds a listener to the own draw event of context `index`, creating the context on first reference, and
      gives a default-category handle that records the index. */
  function AddContextDelegate(mod: ModuleState, index: int32, newHandle: DelegateHandle,
                              create: int32 -> ContextProxy): (r: (ModuleState, ImGuiDelegateHandle))
    requires mod.manager.Some? && FreshForContext(mod, index, newHandle, create)
    ensures r.1 == ImGuiDelegateHandle(newHandle, DEFAULT_CATEGORY, index) && IsValid(r.1)
    ensures r.0.manager.Some? && r.0.inputEnabled == mod.inputEnabled && r.0.showDemo == mod.showDemo
    ensures var (created, p) := GetWorldContextProxy(mod.manager.value.contextManager, index, create);
            var cm := r.0.manager.value.contextManager;
            && cm.proxies == created.proxies[index := p.(drawEvent := Add(p.drawEvent, newHandle).0)]
            && cm.drawMultiContext == mod.manager.value.contextManager.drawMultiContext
            && r.0.manager.value == mod.manager.value.(contextManager := cm)
    ensures newHandle in r.0.manager.value.contextManager.proxies[index].drawEvent.bindings
  {
    var m := mod.manager.value;
    var (created, p) := GetWorldContextProxy(m.contextManager, index, create);
    var (drawEvent, h) := Add(p.drawEvent, newHandle);
    var cm := SetContextProxy(created, index, p.(drawEvent := drawEvent));
    (mod.(manager := Some(m.(contextManager := cm))), ImGuiDelegateHandle(h, DEFAULT_CATEGORY, index))
  }

  /** Binds a listener to the editor context's draw event. */
  function AddEditorImGuiDelegate(mod: ModuleState, indices: ContextIndices, newHandle: DelegateHandle,
                                  create: int32 -> ContextProxy): (r: (ModuleState, ImGuiDelegateHandle))
    requires mod.manager.Some? && FreshForContext(mod, indices.editor, newHandle, create)
    ensures r.1.category == DEFAULT_CATEGORY && r.1.index == indices.editor && r.1.handle == newHandle
    ensures r.0.manager.Some? && indices.editor in r.0.manager.value.contextManager.proxies
    ensures newHandle in r.0.manager.value.contextManager.proxies[indices.editor].drawEvent.bindings
  {
    AddContextDelegate(mod, indices.editor, newHandle, create)
  }

  /** Binds a listener to the draw event of the current world's context. */
  function AddWorldImGuiDelegate(mod: ModuleState, indices: ContextIndices, withEditor: bool, worldIndex: int32,
                                 newHandle: DelegateHandle, create: int32 -> ContextProxy)
    : (r: (ModuleState, ImGuiDelegateHandle))
    requires mod.manager.Some?
    requires FreshForContext(mod, WorldDelegateIndex(indices, withEditor, worldIndex), newHandle, create)
    ensures r.1.category == DEFAULT_CATEGORY && r.1.handle == newHandle
    ensures withEditor ==> r.1.index == worldIndex
    ensures !withEditor ==> r.1.index == indices.standaloneGame
    ensures r.0.manager.Some? && r.1.index in r.0.manager.value.contextManager.proxies
    ensures newHandle in r.0.manager.value.contextManager.proxies[r.1.index].drawEvent.bindings
  {
    AddContextDelegate(mod, WorldDelegateIndex(indices, withEditor, worldIndex), newHandle, create)
  }

  /** Binds a listener to the draw event shared by all contexts; the handle has the multi-context category and
      the default index 0. */
  function AddMultiContextImGuiDelegate(mod: ModuleState, newHandle: DelegateHandle)
    : (r: (ModuleState, ImGuiDelegateHandle))
    requires mod.manager.Some?
    requires newHandle.IsValid() && newHandle !in mod.manager.value.contextManager.drawMultiContext.bindings
    ensures r.1 == ImGuiDelegateHandle(newHandle, MULTI_CONTEXT_CATEGORY, 0)
    ensures var m := mod.manager.value;
            r.0 == mod.(manager := Some(m.(contextManager := m.contextManager.(drawMultiContext :=
              Add(m.contextManager.drawMultiContext, newHandle).0))))
  {
    var m := mod.manager.value;
    var (shared, h) := Add(m.contextManager.drawMultiContext, newHandle);
    (mod.(manager := Some(m.(contextManager := m.contextManager.(drawMultiContext := shared)))),
     ImGuiDelegateHandle(h, MULTI_CONTEXT_CATEGORY, 0))
  }

  /** Removes a listener: from the shared event for the multi-context category, otherwise from the own event of
      the context the handle records, if that context exists. Without a manager, or for a context that does not
      exist, nothing changes. */
  function RemoveImGuiDelegate(mod: ModuleState, h: ImGuiDelegateHandle): (r: ModuleState)
    ensures mod.manager.None? ==> r == mod
    ensures r.manager.Some? == mod.manager.Some? && r.inputEnabled == mod.inputEnabled && r.showDemo == mod.showDemo
    ensures mod.manager.Some? ==>
              var cm := mod.manager.value.contextManager;
              var rcm := r.manager.value.contextManager;
              && r.manager.value == mod.manager.value.(contextManager := rcm)
              && rcm.proxies.Keys == cm.proxies.Keys
              && (h.category == MULTI_CONTEXT_CATEGORY ==>
                    rcm == cm.(drawMultiContext := Remove(cm.drawMultiContext, h.handle)))
              && (h.category != MULTI_CONTEXT_CATEGORY && h.index !in cm.proxies ==> r == mod)
              && (h.category != MULTI_CONTEXT_CATEGORY && h.index in cm.proxies ==>
                    && rcm.drawMultiContext == cm.drawMultiContext
                    && h.handle !in rcm.proxies[h.index].drawEvent.bindings
                    && rcm.proxies[h.index] == cm.proxies[h.index].(drawEvent := rcm.proxies[h.index].drawEvent)
                    && forall i :: i in cm.proxies && i != h.index ==> rcm.proxies[i] == cm.proxies[i])
  {
    match mod.manager
    case None => mod
    case Some(m) =>
      var cm := m.contextManager;
      if h.category == MULTI_CONTEXT_CATEGORY then
        mod.(manager := Some(m.(contextManager := cm.(drawMultiContext := Remove(cm.drawMultiContext, h.handle)))))
      else
        match GetContextProxy(cm, h.index)
        case None => mod
        case Some(p) =>
          var removed := p.(drawEvent := Remove(p.drawEvent, h.handle));
          mod.(manager := Some(m.(contextManager := SetContextProxy(cm, h.index, removed))))
  }

  /** Removing a context listener right after adding it leaves every draw event as it was; only the context a
      first reference created remains. */
  lemma AddThenRemoveContextDelegate(mod: ModuleState, index: int32, newHandle: DelegateHandle,
                                     create: int32 -> ContextProxy)
    requires mod.manager.Some? && FreshForContext(mod, index, newHandle, create)
    ensures var (added, h) := AddContextDelegate(mod, index, newHandle, create);
            var created := GetWorldContextProxy(mod.manager.value.contextManager, index, create).0;
            RemoveImGuiDelegate(added, h) == mod.(manager := Some(mod.manager.value.(contextManager := created)))
    ensures index in mod.manager.value.contextManager.proxies ==>
              var (added, h) := AddContextDelegate(mod, index, newHandle, create);
              RemoveImGuiDelegate(added, h) == mod
  {
    var (created, p) := GetWorldContextProxy(mod.manager.value.contextManager, index, create);
    AddThenRemove(p.drawEvent, newHandle);
    var (added, h) := AddContextDelegate(mod, index, newHandle, create);
    var rcm := RemoveImGuiDelegate(added, h).manager.value.contextManager;
    assert rcm.proxies == created.proxies;
  }

  /** Removing a shared listener right after adding it gives back the module as it was. */
  lemma AddThenRemoveMultiContextDelegate(mod: ModuleState, newHandle: DelegateHandle)
    requires mod.manager.Some?
    requires newHandle.IsValid() && newHandle !in mod.manager.value.contextManager.drawMultiContext.bindings
    ensures var (added, h) := AddMultiContextImGuiDelegate(mod, newHandle);
            RemoveImGuiDelegate(added, h) == mod
  {
    AddThenRemove(mod.manager.value.contextManager.drawMultiContext, newHandle);
  }

  /** A handle of one category never removes a listener of the other: removing a context listener leaves the
      shared event alone, and removing a shared listener leaves every context alone. */
  lemma RemoveRespectsCategory(mod: ModuleState, h: ImGuiDelegateHandle)
    requires mod.manager.Some?
    ensures h.category != MULTI_CONTEXT_CATEGORY ==>
              RemoveImGuiDelegate(mod, h).manager.value.contextManager.drawMultiContext
                == mod.manager.value.contextManager.drawMultiContext
    ensures h.category == MULTI_CONTEXT_CATEGORY ==>
              RemoveImGuiDelegate(mod, h).manager.value.contextManager.proxies
                == mod.manager.value.contextManager.proxies
  {
  }

  //--------------------------------------------------------------------------------------------------------------
  // Startup and shutdown
  //--------------------------------------------------------------------------------------------------------------

  /** The module when loaded: no manager yet, with the given console variable values. */
  function NewModule(inputEnabled: int, showDemo: int): (r: ModuleState)
    ensures r.manager.None? && r.inputEnabled == inputEnabled && r.showDemo == showDemo
  {
    ModuleState(None, inputEnabled, showDemo)
  }

  /** Creates the module manager, which must not exist yet. The manager it creates ticks exactly when started. */
  function StartupModule(mod: ModuleState, host: Host, atlas: FontAtlas, viewportHandle: DelegateHandle,
                         tickHandle: DelegateHandle, mainViewport: Option<Viewport>,
                         next: Viewport -> Option<Viewport>, fuel: nat, firstWidget: nat,
                         create: int32 -> ContextProxy): (r: (ModuleState, Host))
    requires mod.manager.None?
    requires viewportHandle.IsValid() && viewportHandle !in host.viewportCreated.bindings
    requires tickHandle.IsValid() && tickHandle !in host.postTick.bindings
    ensures r.0.manager.Some? && TickOnlyWhenInitialized(r.0.manager.value)
    ensures r.0.manager.value.initialized <==> host.slateInitialized
    ensures r.0.manager.value.viewportCreatedHandle == viewportHandle
    ensures viewportHandle in r.1.viewportCreated.bindings
    ensures r.0.inputEnabled == mod.inputEnabled && r.0.showDemo == mod.showDemo
  {
    var (m, host1) := NewModuleManager(host, atlas, viewportHandle, tickHandle, mainViewport, next, fuel,
                                       firstWidget, create);
    (mod.(manager := Some(m)), host1)
  }

  /** Destroys the module manager, which must exist: the module is left without one, the host no longer calls
      it, and the widgets it still held are given back for detaching. */
  function ShutdownModule(mod: ModuleState, host: Host): (r: (ModuleState, Host, seq<nat>))
    requires mod.manager.Some?
    ensures r.0.manager.None? && r.0.inputEnabled == mod.inputEnabled && r.0.showDemo == mod.showDemo
    ensures r.2 == LiveWidgets(mod.manager.value.widgets)
    ensures var m := mod.manager.value;
            m.viewportCreatedHandle.IsValid() ==> m.viewportCreatedHandle !in r.1.viewportCreated.bindings
    ensures var m := mod.manager.value;
            m.initialized && m.tickHandle.IsValid() && host.slateInitialized ==>
              m.tickHandle !in r.1.postTick.bindings
  {
    var (_, host1, detached) := Destroy(mod.manager.value, host);
    (mod.(manager := None), host1, detached)
  }

  /** After a startup, a shutdown removes the manager's subscription to viewport creation and, when it started,
      its tick registration, and leaves the module as it was before the startup. */
  lemma StartupThenShutdown(mod: ModuleState, host: Host, atlas: FontAtlas, viewportHandle: DelegateHandle,
                            tickHandle: DelegateHandle, mainViewport: Option<Viewport>,
                            next: Viewport -> Option<Viewport>, fuel: nat, firstWidget: nat,
                            create: int32 -> ContextProxy)
    requires mod.manager.None?
    requires viewportHandle.IsValid() && viewportHandle !in host.viewportCreated.bindings
    requires tickHandle.IsValid() && tickHandle !in host.postTick.bindings
    ensures var (started, host1) := StartupModule(mod, host, atlas, viewportHandle, tickHandle, mainViewport,
                                                  next, fuel, firstWidget, create);
            var (stopped, host2, _) := ShutdownModule(started, host1);
            && stopped == mod
            && viewportHandle !in host2.viewportCreated.bindings
            && (host.slateInitialized ==> tickHandle !in host2.postTick.bindings)
  {
  }

  //--------------------------------------------------------------------------------------------------------------
  // Console variables
  //--------------------------------------------------------------------------------------------------------------

  predicate IsInputMode(mod: ModuleState) {
    mod.inputEnabled > 0
  }

  /** Sets the input-enabled variable to 1 or 0. */
  function SetInputMode(mod: ModuleState, enabled: bool): (r: ModuleState)
    ensures IsInputMode(r) <==> enabled
    ensures r.inputEnabled in {0, 1}
    ensures r.(inputEnabled := mod.inputEnabled) == mod
  {
    mod.(inputEnabled := if enabled then 1 else 0)
  }

  function ToggleInputMode(mod: ModuleState): (r: ModuleState)
    ensures IsInputMode(r) <==> !IsInputMode(mod)
    ensures r.(inputEnabled := mod.inputEnabled) == mod
  {
    SetInputMode(mod, !IsInputMode(mod))
  }

  predicate IsShowingDemo(mod: ModuleState) {
    mod.showDemo > 0
  }

  /** Sets the show-demo variable to 1 or 0. */
  function SetShowDemo(mod: ModuleState, show: bool): (r: ModuleState)
    ensures IsShowingDemo(r) <==> show
    ensures r.showDemo in {0, 1}
    ensures r.(showDemo := mod.showDemo) == mod
  {
    mod.(showDemo := if show then 1 else 0)
  }

  function ToggleShowDemo(mod: ModuleState): (r: ModuleState)
    ensures IsShowingDemo(r) <==> !IsShowingDemo(mod)
    ensures r.(showDemo := mod.showDemo) == mod
  {
    SetShowDemo(mod, !IsShowingDemo(mod))
  }

  /** Toggling twice normalises the variable to 1 or 0 but keeps the mode; after a set, a toggle is the opposite
      set. The two variables are independent. */
  lemma ToggleTwiceKeepsModes(mod: ModuleState, b: bool)
    ensures IsInputMode(ToggleInputMode(ToggleInputMode(mod))) <==> IsInputMode(mod)
    ensures ToggleInputMode(ToggleInputMode(mod)) == SetInputMode(mod, IsInputMode(mod))
    ensures ToggleInputMode(SetInputMode(mod, b)) == SetInputMode(mod, !b)
    ensures IsShowingDemo(ToggleShowDemo(ToggleShowDemo(mod))) <==> IsShowingDemo(mod)
    ensures ToggleShowDemo(ToggleShowDemo(mod)) == SetShowDemo(mod, IsShowingDemo(mod))
    ensures ToggleShowDemo(SetShowDemo(mod, b)) == SetShowDemo(mod, !b)
    ensures IsShowingDemo(SetInputMode(mod, b)) <==> IsShowingDemo(mod)
    ensures IsInputMode(SetShowDemo(mod, b)) <==> IsInputMode(mod)
  {
  }
}

=== FILE: ModuleManager.dfy ===
/**
 * The manager that runs the bridge: it loads the textures and registers for the host's post-tick event once the
 * UI framework is ready, ticks all contexts once per frame from the update thread, and keeps one widget per game
 * viewport, reusing slots of widgets that have been destroyed. The parts of the host it touches are a record;
 * thread identity, viewports and handle generation are parameters.
 */
module ImGuiModuleManager {
  import opened Wrappers
  import opened Integers
  import opened ImGuiLibrary
  import opened SlateTypes
  import opened TextureManager
  import opened ImGuiInterops
  import opened ImGuiDelegates
  import opened ImGuiContextProxy
  import opened ImGuiContextManager

  /** Names of the two textures the manager loads. */
  const NULL_TEXTURE_NAME: string := "ImGuiModule_Null"
  const FONT_ATLAS_TEXTURE_NAME: string := "ImGuiModule_FontAtlas"

  /** Size of the plain texture used for outputs without a texture. */
  const NULL_TEXTURE_SIZE: int32 := 2

  /** The host parts the manager uses: whether the UI framework is up, its post-tick event and the engine's
      viewport-created event. */
  datatype Host = Host(slateInitialized: bool, postTick: MulticastDelegate, viewportCreated: MulticastDelegate)

  /** The library's font atlas image: its size, bytes per pixel and pixels. */
  datatype FontAtlas = FontAtlas(width: int32, height: int32, bytesPerPixel: uint32, pixels: seq<bv8>)

  /** A weak reference to a widget: expired once the widget is destroyed. */
  datatype WidgetSlot = Expired | Live(widget: nat)

  /** A game viewport: its identity and the index of its world's context. */
  datatype Viewport = Viewport(id: nat, contextIndex: int32)

  datatype ModuleManager = ModuleManager(
    initialized: bool,
    tickHandle: DelegateHandle,
    viewportCreatedHandle: DelegateHandle,
    textures: TextureRegistry,
    fontAtlasTexId: Option<TextureId>,
    widgets: seq<WidgetSlot>,
    contextManager: ContextManager)

  //--------------------------------------------------------------------------------------------------------------
  // Initialisation
  //--------------------------------------------------------------------------------------------------------------

  /** Creates the plain white texture used for outputs without a texture, then the font atlas texture, and sets
      the atlas's texture id to the atlas's index. A texture name already registered is refused, as by
      `CreateTexture`. */
  function LoadTextures(m: ModuleManager, atlas: FontAtlas): (r: Result<ModuleManager, TextureError>)
    requires |m.textures.entries| + 2 < MAX_ENTRIES
    ensures r.Success? ==>
              && |r.value.textures.entries| == |m.textures.entries| + 2
              && r.value.textures.entries[..|m.textures.entries|] == m.textures.entries
              && r.value.textures.entries[|m.textures.entries|].name == NULL_TEXTURE_NAME
              && r.value.textures.entries[|m.textures.entries| + 1]
                 == NewTextureEntry(FONT_ATLAS_TEXTURE_NAME,
                                 Texture(atlas.width, atlas.height, atlas.bytesPerPixel, atlas.pixels))
              && r.value.fontAtlasTexId == Some(ToImTextureID(|m.textures.entries| + 1))
              && r.value.(textures := m.textures, fontAtlasTexId := m.fontAtlasTexId) == m
    ensures r.Failure? <==>
              FindTextureIndex(m.textures, NULL_TEXTURE_NAME) != INDEX_NONE
              || FindTextureIndex(m.textures, FONT_ATLAS_TEXTURE_NAME) != INDEX_NONE
  {
    var withNull := CreatePlainTexture(m.textures, NULL_TEXTURE_NAME, NULL_TEXTURE_SIZE, NULL_TEXTURE_SIZE, WHITE);
    if withNull.Failure? then Failure(withNull.error)
    else
      var registry := withNull.value.0;
      assert registry.entries[..|m.textures.entries|] == m.textures.entries;
      assert FindTextureIndex(registry, FONT_ATLAS_TEXTURE_NAME) == FindTextureIndex(m.textures, FONT_ATLAS_TEXTURE_NAME) by {
        assert registry.entries == m.textures.entries + [registry.entries[|m.textures.entries|]];
      }
      var withAtlas := CreateTexture(registry, FONT_ATLAS_TEXTURE_NAME, atlas.width, atlas.height,
                                     atlas.bytesPerPixel, atlas.pixels);
      if withAtlas.Failure? then Failure(withAtlas.error)
      else Success(m.(textures := withAtlas.value.0, fontAtlasTexId := Some(ToImTextureID(withAtlas.value.1))))
  }

  /** Registers the manager's tick with the host's post-tick event unless it is registered already. */
  function RegisterTick(m: ModuleManager, host: Host, newHandle: DelegateHandle): (r: (ModuleManager, Host))
    requires host.slateInitialized
    requires newHandle.IsValid() && newHandle !in host.postTick.bindings
    ensures m.tickHandle.IsValid() ==> r == (m, host)
    ensures !m.tickHandle.IsValid() ==>
              && r.0 == m.(tickHandle := newHandle)
              && r.1 == host.(postTick := Add(host.postTick, newHandle).0)
    ensures r.0.tickHandle.IsValid()
  {
    if !m.tickHandle.IsValid() then
      var (postTick, handle) := Add(host.postTick, newHandle);
      (m.(tickHandle := handle), host.(postTick := postTick))
    else
      (m, host)
  }

  /** Unregisters the manager's tick, from the host event only while the framework is up; the handle is left
      invalid in every case. */
  function UnregisterTick(m: ModuleManager, host: Host): (r: (ModuleManager, Host))
    ensures !r.0.tickHandle.IsValid()
    ensures r.0 == m.(tickHandle := r.0.tickHandle)
    ensures m.tickHandle.IsValid() && host.slateInitialized ==>
              r.1 == host.(postTick := Remove(host.postTick, m.tickHandle))
    ensures !(m.tickHandle.IsValid() && host.slateInitialized) ==> r.1 == host
  {
    if m.tickHandle.IsValid() then
      var postTick := if host.slateInitialized then Remove(host.postTick, m.tickHandle) else host.postTick;
      (m.(tickHandle := INVALID_HANDLE), host.(postTick := postTick))
    else
      (m, host)
  }

  /** Registering right after unregistering restores the registration, and registering twice registers once. */
  lemma TickRegistrationRoundTrip(m: ModuleManager, host: Host, newHandle: DelegateHandle, other: DelegateHandle)
    requires host.slateInitialized
    requires newHandle.IsValid() && newHandle !in host.postTick.bindings
    ensures var (m1, host1) := RegisterTick(m, host, newHandle);
            other.IsValid() && other !in host1.postTick.bindings ==> RegisterTick(m1, host1, other) == (m1, host1)
    ensures !m.tickHandle.IsValid() ==>
              var (m1, host1) := RegisterTick(m, host, newHandle);
              UnregisterTick(m1, host1) == (m, host)
  {
    if !m.tickHandle.IsValid() {
      AddThenRemove(host.postTick, newHandle);
    }
  }

  /** Starts the manager once the framework is up: loads the textures and registers the tick. Before the framework
      is up, and once started, it does nothing. */
  function Initialize(m: ModuleManager, host: Host, atlas: FontAtlas, tickHandle: DelegateHandle)
    : (r: Result<(ModuleManager, Host), TextureError>)
    requires |m.textures.entries| + 2 < MAX_ENTRIES
    requires tickHandle.IsValid() && tickHandle !in host.postTick.bindings
    ensures m.initialized || !host.slateInitialized ==> r == Success((m, host))
    ensures !m.initialized && host.slateInitialized && LoadTextures(m, atlas).Success? ==>
              && r.Success?
              && r.value.0.initialized && r.value.0.tickHandle.IsValid()
              && r.value.0.textures == LoadTextures(m, atlas).value.textures
    ensures !m.initialized && host.slateInitialized && LoadTextures(m, atlas).Failure? ==> r.Failure?
  {
    if !m.initialized && host.slateInitialized then
      var loaded := LoadTextures(m.(initialized := true), atlas);
      if loaded.Failure? then Failure(loaded.error)
      else Success(RegisterTick(loaded.value, host, tickHandle))
    else
      Success((m, host))
  }

  /** Stops a started manager: clears the flag and unregisters the tick. */
  function Uninitialize(m: ModuleManager, host: Host): (r: (ModuleManager, Host))
    ensures !r.0.initialized
    ensures !m.initialized ==> r == (m, host)
    ensures m.initialized ==> r == UnregisterTick(m.(initialized := false), host)
  {
    if m.initialized then UnregisterTick(m.(initialized := false), host) else (m, host)
  }

  /** The tick is registered only while the manager is started. */
  predicate TickOnlyWhenInitialized(m: ModuleManager) {
    m.tickHandle.IsValid() ==> m.initialized
  }

  /** Starting and stopping keep the tick registration tied to the started state. */
  lemma StartStopKeepTickTied(m: ModuleManager, host: Host, atlas: FontAtlas, tickHandle: DelegateHandle)
    requires TickOnlyWhenInitialized(m)
    requires |m.textures.entries| + 2 < MAX_ENTRIES
    requires tickHandle.IsValid() && tickHandle !in host.postTick.bindings
    ensures Initialize(m, host, atlas, tickHandle).Success? ==>
              TickOnlyWhenInitialized(Initialize(m, host, atlas, tickHandle).value.0)
    ensures TickOnlyWhenInitialized(Uninitialize(m, host).0)
    ensures !Uninitialize(m, host).0.tickHandle.IsValid()
  {
  }

  /** Initialising twice is initialising once. */
  lemma InitializeIdempotent(m: ModuleManager, host: Host, atlas: FontAtlas, tickHandle: DelegateHandle)
    requires |m.textures.entries| + 2 < MAX_ENTRIES
    requires tickHandle.IsValid() && tickHandle !in host.postTick.bindings
    requires Initialize(m, host, atlas, tickHandle).Success?
    ensures var (m1, host1) := Initialize(m, host, atlas, tickHandle).value;
            |m1.textures.entries| + 2 < MAX_ENTRIES && tickHandle !in host1.postTick.bindings ==>
              Initialize(m1, host1, atlas, tickHandle) == Success((m1, host1))
  {
  }

  /** A manager with nothing loaded, registered or created. */
  const NEW_MANAGER: ModuleManager :=
    ModuleManager(false, INVALID_HANDLE, INVALID_HANDLE, EMPTY, None, [], EMPTY_MANAGER)

  /** Started from nothing, the manager finds the plain texture at index 0, the font atlas at index 1, and the
      library's font texture id designates index 1. */
  lemma FirstInitializeLoadsTextures(host: Host, atlas: FontAtlas, tickHandle: DelegateHandle)
    requires host.slateInitialized
    requires tickHandle.IsValid() && tickHandle !in host.postTick.bindings
    ensures Initialize(NEW_MANAGER, host, atlas, tickHandle).Success?
    ensures var m := Initialize(NEW_MANAGER, host, atlas, tickHandle).value.0;
            && m.initialized
            && FindTextureIndex(m.textures, NULL_TEXTURE_NAME) == 0
            && FindTextureIndex(m.textures, FONT_ATLAS_TEXTURE_NAME) == 1
            && m.fontAtlasTexId.Some? && ToTextureIndex(m.fontAtlasTexId.value) == 1
  {
  }

  //--------------------------------------------------------------------------------------------------------------
  // Tick
  //--------------------------------------------------------------------------------------------------------------

  /** What a manager tick does, in order. */
  datatype ManagerEvent = ContextsTicked | PostImGuiUpdateBroadcast

  /** The update thread is the game thread, unless it is the framework's loading thread (which also counts as the
      game thread). */
  predicate IsInUpdateThread(isInGameThread: bool, isInSlateThread: bool) {
    isInGameThread && !isInSlateThread
  }

  /** From the update thread: advances every context, then tells listeners that the update is done. From any other
      thread: nothing. */
  function Tick(m: ModuleManager, isInGameThread: bool, isInSlateThread: bool, env: FrameEnv, deltaSeconds: real)
    : (r: (ModuleManager, seq<ManagerEvent>))
    ensures !IsInUpdateThread(isInGameThread, isInSlateThread) ==> r == (m, [])
    ensures IsInUpdateThread(isInGameThread, isInSlateThread) ==>
              && r.1 == [ContextsTicked, PostImGuiUpdateBroadcast]
              && r.0 == m.(contextManager := ImGuiContextManager.Tick(m.contextManager, env, deltaSeconds))
  {
    if IsInUpdateThread(isInGameThread, isInSlateThread) then
      (m.(contextManager := ImGuiContextManager.Tick(m.contextManager, env, deltaSeconds)),
       [ContextsTicked, PostImGuiUpdateBroadcast])
    else
      (m, [])
  }

  /** A second manager tick in the same engine frame leaves the contexts as the first one left them. */
  lemma ManagerTickOncePerFrame(m: ModuleManager, env: FrameEnv, deltaSeconds: real, laterDeltaSeconds: real)
    ensures var once := Tick(m, true, false, env, deltaSeconds).0;
            Tick(once, true, false, env, laterDeltaSeconds).0 == once
  {
  }

  //--------------------------------------------------------------------------------------------------------------
  // Widgets
  //--------------------------------------------------------------------------------------------------------------

  /** The position of the first expired slot, if any. */
  function FirstExpiredSlot(widgets: seq<WidgetSlot>): (r: Option<nat>)
    ensures r.None? <==> forall i :: 0 <= i < |widgets| ==> widgets[i].Live?
    ensures r.Some? ==> r.value < |widgets| && widgets[r.value].Expired?
                        && forall i :: 0 <= i < r.value ==> widgets[i].Live?
    decreases |widgets|
  {
    if |widgets| == 0 then None
    else if widgets[0].Expired? then Some(0)
    else
      var rest := FirstExpiredSlot(widgets[1..]);
      if rest.Some? then Some(rest.value + 1) else None
  }

  /** Creates a widget for a viewport: makes sure the viewport's world has a context, binds the new widget's input
      state to that context, and stores the widget in the first expired slot, or in a new slot when none has
      expired. */
  function AddWidgetToViewport(m: ModuleManager, host: Host, viewport: Viewport, widget: nat,
                               create: int32 -> ContextProxy): (r: ModuleManager)
    requires host.slateInitialized
    ensures viewport.contextIndex in r.contextManager.proxies
    ensures r.contextManager.proxies[viewport.contextIndex].inputState == Some(widget)
    ensures Live(widget) in r.widgets
    ensures FirstExpiredSlot(m.widgets).Some? ==>
              r.widgets == m.widgets[FirstExpiredSlot(m.widgets).value := Live(widget)]
    ensures FirstExpiredSlot(m.widgets).None? ==> r.widgets == m.widgets + [Live(widget)]
    ensures |m.widgets| <= |r.widgets| <= |m.widgets| + 1
    ensures |r.widgets| == |m.widgets| + 1 <==> forall i :: 0 <= i < |m.widgets| ==> m.widgets[i].Live?
    ensures r.(widgets := m.widgets, contextManager := m.contextManager) == m
  {
    var (cm, proxy) := GetWorldContextProxy(m.contextManager, viewport.contextIndex, create);
    var bound := SetContextProxy(cm, viewport.contextIndex, SetInputState(proxy, widget));
    var slot := FirstExpiredSlot(m.widgets);
    var widgets := if slot.Some? then m.widgets[slot.value := Live(widget)] else m.widgets + [Live(widget)];
    assert widgets[if slot.Some? then slot.value else |m.widgets|] == Live(widget);
    m.(contextManager := bound, widgets := widgets)
  }

  /** Live widgets keep their slots: adding a widget only ever overwrites an expired slot. */
  lemma AddWidgetKeepsLiveWidgets(m: ModuleManager, host: Host, viewport: Viewport, widget: nat,
                                  create: int32 -> ContextProxy, i: nat)
    requires host.slateInitialized && i < |m.widgets| && m.widgets[i].Live?
    ensures AddWidgetToViewport(m, host, viewport, widget, create).widgets[i] == m.widgets[i]
  {
  }

  /** The viewports the engine's walk visits, starting at the main game viewport and following the next-viewport
      link until there is none or the link leads back to the main viewport; at most `fuel` viewports. */
  function ViewportWalk(first: Viewport, current: Viewport, next: Viewport -> Option<Viewport>, fuel: nat)
    : (r: seq<Viewport>)
    ensures |r| <= fuel
    ensures fuel > 0 ==> |r| > 0 && r[0] == current
    ensures forall k :: 0 < k < |r| ==> next(r[k - 1]) == Some(r[k]) && r[k] != first
    ensures |r| > 0 && |r| < fuel ==> next(r[|r| - 1]).None? || next(r[|r| - 1]) == Some(first)
    decreases fuel
  {
    if fuel == 0 then []
    else
      var following := next(current);
      if following.None? || following.value == first then [current]
      else
        var rest := ViewportWalk(first, following.value, next, fuel - 1);
        assert forall k :: 1 < k < |rest| + 1 ==> ([current] + rest)[k] == rest[k - 1];
        [current] + rest
  }

  /** The chain of next-viewport links from `v` returns to the main viewport after exactly `n` steps without
      passing through it before. */
  ghost predicate ReturnsToFirstAfter(first: Viewport, v: Viewport, next: Viewport -> Option<Viewport>, n: nat)
    decreases n
  {
    if n == 0 then false
    else
      var following := next(v);
      following.Some? && (if n == 1 then following.value == first
                          else following.value != first && ReturnsToFirstAfter(first, following.value, next, n - 1))
  }

  /** A walk along viewports that form a cycle through the main viewport stops after going round once: it visits
      exactly the `n` viewports of the cycle. */
  lemma {:induction false} WalkStopsOnCycle(first: Viewport, v: Viewport, next: Viewport -> Option<Viewport>,
                                            n: nat, fuel: nat)
    requires ReturnsToFirstAfter(first, v, next, n) && n <= fuel
    ensures |ViewportWalk(first, v, next, fuel)| == n
    decreases n
  {
    if n > 1 {
      WalkStopsOnCycle(first, next(v).value, next, n - 1, fuel - 1);
    }
  }

  /** Adds a widget to each viewport of the walk, giving the `k`-th one widget id `firstWidget + k`. */
  function AddWidgetsToViewports(m: ModuleManager, host: Host, viewports: seq<Viewport>, firstWidget: nat,
                                 create: int32 -> ContextProxy): (r: ModuleManager)
    requires host.slateInitialized
    ensures forall w :: firstWidget <= w < firstWidget + |viewports| ==> Live(w) in r.widgets
    ensures |r.widgets| <= |m.widgets| + |viewports|
    ensures r.(widgets := m.widgets, contextManager := m.contextManager) == m
    ensures forall i :: 0 <= i < |m.widgets| && m.widgets[i].Live? ==> i < |r.widgets| && r.widgets[i] == m.widgets[i]
    decreases |viewports|
  {
    if |viewports| == 0 then m
    else
      var added := AddWidgetToViewport(m, host, viewports[0], firstWidget, create);
      var r := AddWidgetsToViewports(added, host, viewports[1..], firstWidget + 1, create);
      forall i | 0 <= i < |m.widgets| && m.widgets[i].Live?
        ensures i < |added.widgets| && added.widgets[i] == m.widgets[i]
      {
        AddWidgetKeepsLiveWidgets(m, host, viewports[0], firstWidget, create, i);
      }
      AddedWidgetsCompose(m, added, r, firstWidget, |viewports|);
      r
  }

  /** One widget added after `m`, followed by `n - 1` more, gives `n` live widgets from `firstWidget` on, at most
      `n` new slots, and no other change; live widgets of `m` stay where they are. */
  lemma AddedWidgetsCompose(m: ModuleManager, added: ModuleManager, r: ModuleManager, firstWidget: nat, n: nat)
    requires n > 0
    requires Live(firstWidget) in added.widgets && |added.widgets| <= |m.widgets| + 1
    requires added.(widgets := m.widgets, contextManager := m.contextManager) == m
    requires forall i :: 0 <= i < |m.widgets| && m.widgets[i].Live? ==>
               i < |added.widgets| && added.widgets[i] == m.widgets[i]
    requires forall w :: firstWidget + 1 <= w < firstWidget + n ==> Live(w) in r.widgets
    requires |r.widgets| <= |added.widgets| + (n - 1)
    requires r.(widgets := added.widgets, contextManager := added.contextManager) == added
    requires forall i :: 0 <= i < |added.widgets| && added.widgets[i].Live? ==>
               i < |r.widgets| && r.widgets[i] == added.widgets[i]
    ensures forall w :: firstWidget <= w < firstWidget + n ==> Live(w) in r.widgets
    ensures |r.widgets| <= |m.widgets| + n
    ensures r.(widgets := m.widgets, contextManager := m.contextManager) == m
    ensures forall i :: 0 <= i < |m.widgets| && m.widgets[i].Live? ==> i < |r.widgets| && r.widgets[i] == m.widgets[i]
  {
    var i :| 0 <= i < |added.widgets| && added.widgets[i] == Live(firstWidget);
    assert r.widgets[i] == added.widgets[i];
  }

  /** Adds widgets to all game viewports the engine can reach from its main one; nothing without an engine. */
  function AddWidgetToAllViewports(m: ModuleManager, host: Host, mainViewport: Option<Viewport>,
                                   next: Viewport -> Option<Viewport>, fuel: nat, firstWidget: nat,
                                   create: int32 -> ContextProxy): (r: ModuleManager)
    requires host.slateInitialized
    ensures r.(widgets := m.widgets, contextManager := m.contextManager) == m
    ensures mainViewport.None? ==> r == m
    ensures mainViewport.Some? ==>
              r == AddWidgetsToViewports(m, host, ViewportWalk(mainViewport.value, mainViewport.value, next, fuel),
                                         firstWidget, create)
  {
    if mainViewport.None? then m
    else AddWidgetsToViewports(m, host, ViewportWalk(mainViewport.value, mainViewport.value, next, fuel),
                               firstWidget, create)
  }

  /** A viewport created after start-up: the manager makes sure it is started, then adds a widget to the main
      viewport. */
  function OnViewportCreated(m: ModuleManager, host: Host, atlas: FontAtlas, tickHandle: DelegateHandle,
                             mainViewport: Viewport, widget: nat, create: int32 -> ContextProxy)
    : (r: Result<(ModuleManager, Host), TextureError>)
    requires host.slateInitialized
    requires |m.textures.entries| + 2 < MAX_ENTRIES
    requires tickHandle.IsValid() && tickHandle !in host.postTick.bindings
    ensures r.Success? ==> r.value.0.initialized && Live(widget) in r.value.0.widgets
    ensures r.Failure? <==> Initialize(m, host, atlas, tickHandle).Failure?
  {
    var started := Initialize(m, host, atlas, tickHandle);
    if started.Failure? then Failure(started.error)
    else
      var (m1, host1) := started.value;
      Success((AddWidgetToViewport(m1, host1, mainViewport, widget, create), host1))
  }

  /** On a host with Slate up, a created viewport finds the manager started and gets a live widget bound to its
      context: an already started manager cannot fail and leaves the host alone, and a stopped one that can load
      its textures is started, and registers the given tick when it kept its tick tied to being started. Live
      widgets keep their slots either way. */
  lemma ViewportCreatedStartsAndAttaches(m: ModuleManager, host: Host, atlas: FontAtlas, tickHandle: DelegateHandle,
                                         mainViewport: Viewport, widget: nat, create: int32 -> ContextProxy, i: nat)
    requires host.slateInitialized
    requires |m.textures.entries| + 2 < MAX_ENTRIES
    requires tickHandle.IsValid() && tickHandle !in host.postTick.bindings
    ensures var r := OnViewportCreated(m, host, atlas, tickHandle, mainViewport, widget, create);
            && (m.initialized || LoadTextures(m, atlas).Success? ==>
                  && r.Success?
                  && r.value.0.initialized
                  && Live(widget) in r.value.0.widgets
                  && mainViewport.contextIndex in r.value.0.contextManager.proxies
                  && r.value.0.contextManager.proxies[mainViewport.contextIndex].inputState == Some(widget))
            && (m.initialized ==> r.Success? && r.value.1 == host)
            && (!m.initialized && TickOnlyWhenInitialized(m) && LoadTextures(m, atlas).Success? ==>
                  r.Success? && r.value.0.tickHandle == tickHandle && tickHandle in r.value.1.postTick.bindings)
            && (r.Success? && i < |m.widgets| && m.widgets[i].Live? ==> r.value.0.widgets[i] == m.widgets[i])
  {
    var started := Initialize(m, host, atlas, tickHandle);
    if m.initialized {
      assert started == Success((m, host));
    }
    if started.Success? {
      var (m1, host1) := started.value;
      assert m1.widgets == m.widgets;
      if i < |m.widgets| && m.widgets[i].Live? {
        AddWidgetKeepsLiveWidgets(m1, host1, mainViewport, widget, create, i);
      }
    }
  }

  //--------------------------------------------------------------------------------------------------------------
  // Construction and destruction
  //--------------------------------------------------------------------------------------------------------------

  /** A new manager: it subscribes to viewport creation, tries to start, and when started adds widgets to the
      viewports that already exist. Starting from an empty registry, loading the textures cannot fail. */
  function NewModuleManager(host: Host, atlas: FontAtlas, viewportHandle: DelegateHandle,
                            tickHandle: DelegateHandle, mainViewport: Option<Viewport>,
                            next: Viewport -> Option<Viewport>, fuel: nat, firstWidget: nat,
                            create: int32 -> ContextProxy): (r: (ModuleManager, Host))
    requires viewportHandle.IsValid() && viewportHandle !in host.viewportCreated.bindings
    requires tickHandle.IsValid() && tickHandle !in host.postTick.bindings
    ensures r.0.viewportCreatedHandle == viewportHandle && viewportHandle in r.1.viewportCreated.bindings
    ensures r.0.initialized <==> host.slateInitialized
    ensures r.0.tickHandle.IsValid() <==> host.slateInitialized
    ensures !host.slateInitialized ==> r.0.widgets == []
    ensures host.slateInitialized && mainViewport.Some? && fuel > 0 ==> Live(firstWidget) in r.0.widgets
  {
    var (viewportCreated, handle) := Add(host.viewportCreated, viewportHandle);
    var subscribed := NEW_MANAGER.(viewportCreatedHandle := handle);
    var host1 := host.(viewportCreated := viewportCreated);
    assert LoadTextures(subscribed, atlas).Success?;
    var (m, host2) := Initialize(subscribed, host1, atlas, tickHandle).value;
    if m.initialized then
      var r := AddWidgetToAllViewports(m, host2, mainViewport, next, fuel, firstWidget, create);
      (r, host2)
    else
      (m, host2)
  }

  /** The widgets still alive, in slot order. */
  function LiveWidgets(widgets: seq<WidgetSlot>): (r: seq<nat>)
    ensures forall w :: w in r <==> Live(w) in widgets
    ensures |r| <= |widgets|
    decreases |widgets|
  {
    if |widgets| == 0 then []
    else
      var rest := LiveWidgets(widgets[1..]);
      assert widgets == [widgets[0]] + widgets[1..];
      if widgets[0].Live? then [widgets[0].widget] + rest else rest
  }

  /** Destroys the manager: unsubscribes from viewport creation, detaches every widget still alive (the second
      result, in slot order), and stops the manager. */
  function Destroy(m: ModuleManager, host: Host): (r: (ModuleManager, Host, seq<nat>))
    ensures !r.0.initialized && !r.0.viewportCreatedHandle.IsValid()
    ensures TickOnlyWhenInitialized(m) ==> !r.0.tickHandle.IsValid()
    ensures r.2 == LiveWidgets(m.widgets)
    ensures m.viewportCreatedHandle.IsValid() ==> m.viewportCreatedHandle !in r.1.viewportCreated.bindings
    ensures m.initialized && m.tickHandle.IsValid() && host.slateInitialized ==>
              m.tickHandle !in r.1.postTick.bindings
  {
    var unsubscribed := if m.viewportCreatedHandle.IsValid() then
                          (m.(viewportCreatedHandle := INVALID_HANDLE),
                           host.(viewportCreated := Remove(host.viewportCreated, m.viewportCreatedHandle)))
                        else (m, host);
    var detached := LiveWidgets(unsubscribed.0.widgets);
    var (stopped, host1) := Uninitialize(unsubscribed.0, unsubscribed.1);
    (stopped, host1, detached)
  }
}

=== FILE: SlateTypes.dfy ===
/**
 * Host engine and UI-framework values the bridge consumes or produces: keys and input events, rectangles,
 * colours, vertices, mouse cursors and event replies. Only the parts the bridge reads are kept.
 */
module SlateTypes {
  import opened Wrappers
  import opened Integers
  import opened ImGuiLibrary

  /** Host key identifiers the bridge refers to by name; every other key is `OtherKey`. */
  datatype HostKey =
    | TabKey | LeftKey | RightKey | UpKey | DownKey | PageUpKey | PageDownKey | HomeKey | EndKey
    | DeleteKey | BackSpaceKey | EnterKey | EscapeKey | AKey | CKey | VKey | XKey | YKey | ZKey | TKey
    | SpaceBarKey | TildeKey
    | LeftControlKey | RightControlKey | LeftShiftKey | RightShiftKey | LeftAltKey | RightAltKey
    | LeftMouseButton | RightMouseButton | MiddleMouseButton | ThumbMouseButton | ThumbMouseButton2
    | OtherKey(name: string)

  /** The codes the host's input key manager knows for a key: a key code, a character code, both or neither. */
  datatype KeyCodes = KeyCodes(keyCode: Option<uint32>, charCode: Option<uint32>)

  /** Modifier state carried by every input event. */
  datatype Modifiers = Modifiers(control: bool, shift: bool, alt: bool)

  /** A key press or release: the key, its character (0 when none) and its key code. */
  datatype KeyEvent = KeyEvent(key: HostKey, character: uint32, keyCode: uint32, modifiers: Modifiers)

  /** A typed character. */
  datatype CharacterEvent = CharacterEvent(character: uint32, modifiers: Modifiers)

  /** A mouse event: the button it is about, the cursor position in screen space, the wheel delta, the buttons
      held at the time and the modifiers. */
  datatype PointerEvent = PointerEvent(
    effectingButton: HostKey,
    screenSpacePosition: Vec2,
    wheelDelta: real,
    pressedButtons: set<HostKey>,
    modifiers: Modifiers)

  /** An axis-aligned rectangle given by its four edges. */
  datatype SlateRect = SlateRect(left: real, top: real, right: real, bottom: real)

  /** A clipping rectangle in the form older renderers attach to each vertex. */
  datatype RotatedRect = RotatedRect(topLeft: Vec2, extentX: Vec2, extentY: Vec2)

  /** An 8-bit-per-channel colour. */
  datatype Color = Color(r: bv8, g: bv8, b: bv8, a: bv8)

  const WHITE: Color := Color(0xFF, 0xFF, 0xFF, 0xFF)

  /** A vertex in the host renderer's format; `clip` is present only with the per-vertex clipping interface. */
  datatype SlateVertex = SlateVertex(position: Vec2, texCoords: Vec2, color: Color, clip: Option<RotatedRect>)

  /** The host's mouse-cursor kinds. */
  datatype SlateCursor =
    | SlateNone | Default | TextEditBeam | ResizeLeftRight | ResizeUpDown | ResizeSouthEast | ResizeSouthWest
    | CardinalCross | Crosshairs | SlateHand | GrabHand | GrabHandClosed | SlashedCircle | EyeDropper | Custom

  /** Whether an input handler consumed an event. */
  datatype Reply = Handled | Unhandled
}

=== FILE: TextureManager.dfy ===
/**
 * The texture registry: an append-only sequence of named texture entries, addressed by name for lookup and by
 * index for direct access. Creating a texture under a name that is already registered is refused. Moving a
 * registry hands every entry to the destination and leaves the source empty. The engine's texture objects,
 * brushes and garbage-collection rooting are reduced to the data a texture was created from.
 */
module TextureManager {
  import opened Wrappers
  import opened Integers
  import opened SlateTypes

  /** Index of a texture entry, the handle the rest of the bridge passes around. */
  type TextureIndex = int32

  /** The index a lookup reports when no entry matches. */
  const INDEX_NONE: TextureIndex := -1

  /** The registry's array cannot hold more entries than a signed 32-bit count. */
  const MAX_ENTRIES: nat := TWO_TO_THE_31 - 1

  /** The data a texture was created from: its size, its bytes per pixel and its raw pixel bytes. */
  datatype Texture = Texture(width: int32, height: int32, bytesPerPixel: uint32, data: seq<bv8>)

  /** A brush drawing a texture: its resource object is the texture it draws. */
  datatype Brush = Brush(resourceObject: Texture)

  /** A renderer resource handle: either the default-constructed handle, which designates no resource, or a
      handle the renderer issued for a brush. */
  datatype ResourceHandle = UnsetHandle | RendererHandle(brush: Brush) {
    predicate IsValid() {
      RendererHandle?
    }
  }

  datatype TextureEntry = TextureEntry(name: string, texture: Texture, brush: Brush, resourceHandle: ResourceHandle)

  /** An entry as its constructor builds it: the name and texture given, and a brush whose resource object is the
      texture. No code of the registry assigns the entry's resource handle, so it keeps its default. */
  function NewTextureEntry(name: string, texture: Texture): (e: TextureEntry)
    ensures e.name == name && e.texture == texture
    ensures e.brush.resourceObject == texture
    ensures !e.resourceHandle.IsValid()
  {
    TextureEntry(name, texture, Brush(texture), UnsetHandle)
  }

  datatype TextureRegistry = TextureRegistry(entries: seq<TextureEntry>) {
    /** No two entries share a name, the entry count fits the index type, and every entry is as its constructor
        built it. */
    ghost predicate Valid() {
      && |entries| <= MAX_ENTRIES
      && (forall i, j :: 0 <= i < j < |entries| ==> entries[i].name != entries[j].name)
      && forall i :: 0 <= i < |entries| ==> entries[i] == NewTextureEntry(entries[i].name, entries[i].texture)
    }
  }

  datatype TextureError = NameAlreadyRegistered(name: string)

  /** A registry with no entries. */
  const EMPTY: TextureRegistry := TextureRegistry([])

  /** The position of the first entry named `name`, or -1 when no entry has that name. */
  function IndexOfName(entries: seq<TextureEntry>, name: string): (r: int)
    ensures -1 <= r < |entries|
    ensures r == -1 <==> forall i :: 0 <= i < |entries| ==> entries[i].name != name
    ensures r >= 0 ==> entries[r].name == name && forall i :: 0 <= i < r ==> entries[i].name != name
    decreases |entries|
  {
    if |entries| == 0 then -1
    else
      var r := IndexOfName(entries[..|entries| - 1], name);
      if r >= 0 then r
      else if entries[|entries| - 1].name == name then |entries| - 1
      else -1
  }

  /** The index of the texture called `name`, or `INDEX_NONE` when there is none. */
  function FindTextureIndex(m: TextureRegistry, name: string): (r: TextureIndex)
    requires |m.entries| <= MAX_ENTRIES
    ensures r == INDEX_NONE <==> forall i :: 0 <= i < |m.entries| ==> m.entries[i].name != name
    ensures r != INDEX_NONE ==> 0 <= r < |m.entries| && m.entries[r].name == name
  {
    IndexOfName(m.entries, name)
  }

  /** The name of the entry at `index`; the index must designate an entry. */
  function GetTextureName(m: TextureRegistry, index: TextureIndex): (r: string)
    requires 0 <= index < |m.entries|
    ensures r == m.entries[index].name
    ensures m.Valid() ==> FindTextureIndex(m, r) == index
  {
    m.entries[index].name
  }

  /** The resource handle stored in the entry at `index`; the index must designate an entry. Since entries are
      never given a handle, in a registry built by `CreateTexture` this is always the default, invalid handle:
      drawing goes through the entry's brush instead. */
  function GetTextureHandle(m: TextureRegistry, index: TextureIndex): (r: ResourceHandle)
    requires 0 <= index < |m.entries|
    ensures r == m.entries[index].resourceHandle
    ensures m.Valid() ==> r == UnsetHandle
  {
    m.entries[index].resourceHandle
  }

  /** In a valid registry, looking up the name of the entry at `index` finds `index` again, and the name of the
      entry a successful lookup finds is the name looked up. */
  lemma NameAndIndexCorrespond(m: TextureRegistry, index: TextureIndex, name: string)
    requires m.Valid()
    ensures 0 <= index < |m.entries| ==> FindTextureIndex(m, GetTextureName(m, index)) == index
    ensures FindTextureIndex(m, name) != INDEX_NONE ==> GetTextureName(m, FindTextureIndex(m, name)) == name
  {
  }

  /** Registers a texture made from raw data under `name` and gives its index, which is the previous entry count.
      A name that is already registered is refused and the registry is left as it was. */
  function CreateTexture(m: TextureRegistry, name: string, width: int32, height: int32, srcBpp: uint32,
                         srcData: seq<bv8>): (r: Result<(TextureRegistry, TextureIndex), TextureError>)
    requires |m.entries| < MAX_ENTRIES
    ensures r.Failure? <==> FindTextureIndex(m, name) != INDEX_NONE
    ensures r.Failure? ==> r.error == NameAlreadyRegistered(name)
    ensures r.Success? ==>
              && r.value.1 == |m.entries|
              && r.value.0.entries == m.entries + [NewTextureEntry(name, Texture(width, height, srcBpp, srcData))]
  {
    if FindTextureIndex(m, name) != INDEX_NONE then
      Failure(NameAlreadyRegistered(name))
    else
      Success((TextureRegistry(m.entries + [NewTextureEntry(name, Texture(width, height, srcBpp, srcData))]),
               |m.entries|))
  }

  /** A successful creation keeps names unique, makes the new name find the new index, and leaves every other
      name's lookup as it was. */
  lemma CreateTextureKeepsRegistryValid(m: TextureRegistry, name: string, width: int32, height: int32,
                                        srcBpp: uint32, srcData: seq<bv8>, other: string)
    requires m.Valid() && |m.entries| < MAX_ENTRIES
    requires CreateTexture(m, name, width, height, srcBpp, srcData).Success?
    ensures var (m', index) := CreateTexture(m, name, width, height, srcBpp, srcData).value;
            && m'.Valid()
            && FindTextureIndex(m', name) == index
            && GetTextureName(m', index) == name
            && (other != name ==> FindTextureIndex(m', other) == FindTextureIndex(m, other))
  {
  }

  /** After a successful creation, the new index gives the new name and the unset default handle, the new entry's
      brush draws the new texture, and every earlier index gives the name and handle it gave before. */
  lemma CreateTextureThenLookups(m: TextureRegistry, name: string, width: int32, height: int32, srcBpp: uint32,
                                 srcData: seq<bv8>, j: TextureIndex)
    requires |m.entries| < MAX_ENTRIES
    requires CreateTexture(m, name, width, height, srcBpp, srcData).Success?
    ensures var (m', index) := CreateTexture(m, name, width, height, srcBpp, srcData).value;
            && GetTextureName(m', index) == name
            && GetTextureHandle(m', index) == UnsetHandle
            && m'.entries[index].brush.resourceObject == Texture(width, height, srcBpp, srcData)
            && (0 <= j < |m.entries| ==>
                  GetTextureName(m', j) == GetTextureName(m, j) && GetTextureHandle(m', j) == GetTextureHandle(m, j))
  {
  }

  /** Moving a registry: the destination receives every entry, in order, and the source is left empty. */
  function Move(source: TextureRegistry): (r: (TextureRegistry, TextureRegistry))
    ensures |r.1.entries| == 0
    ensures |r.0.entries| == |source.entries|
    ensures forall i :: 0 <= i < |source.entries| ==> r.0.entries[i] == source.entries[i]
  {
    (source, EMPTY)
  }

  /** After a move, every lookup in the destination gives what it gave in the source, and every lookup in the
      emptied source fails. */
  lemma MovePreservesLookups(source: TextureRegistry, name: string)
    requires |source.entries| <= MAX_ENTRIES
    ensures FindTextureIndex(Move(source).0, name) == FindTextureIndex(source, name)
    ensures FindTextureIndex(Move(source).1, name) == INDEX_NONE
  {
  }

  //--------------------------------------------------------------------------------------------------------------
  // Plain textures
  //--------------------------------------------------------------------------------------------------------------

  /** Bytes per pixel of a plain texture: the size of one packed 32-bit colour. */
  const PLAIN_BPP: uint32 := 4

  /** The colour packed into 32 bits with alpha in the top byte, then red, green and blue. */
  function DWColor(c: Color): bv32 {
    (c.a as bv32 << 24) | (c.r as bv32 << 16) | (c.g as bv32 << 8) | (c.b as bv32)
  }

  /** The four bytes of a 32-bit value in memory on a little-endian machine, lowest byte first. */
  function LittleEndianBytes(x: bv32): (r: seq<bv8>)
    ensures |r| == 4
  {
    [(x & 0xFF) as bv8, ((x >> 8) & 0xFF) as bv8, ((x >> 16) & 0xFF) as bv8, ((x >> 24) & 0xFF) as bv8]
  }

  /** The memory image of one plain-texture pixel: blue, green, red and alpha, in that order. */
  function PixelBytes(c: Color): (r: seq<bv8>)
    ensures r == [c.b, c.g, c.r, c.a]
  {
    LittleEndianBytes(DWColor(c))
  }

  /** The pixel and byte counts of a plain texture as the source computes them: the product of two 32-bit
      signed sizes stored as unsigned 32 bits, and that times four, again in unsigned 32 bits. */
  function PlainTextureSizesAsWritten(width: int32, height: int32): (r: (uint32, uint32))
    ensures r.0 == WrapUInt32(width * height)
    ensures r.1 == WrapUInt32(r.0 * PLAIN_BPP)
  {
    var sizeInPixels := WrapUInt32(width * height);
    (sizeInPixels, WrapUInt32(sizeInPixels * PLAIN_BPP))
  }

  /** With the sizes computed in 32 bits, a 32768 by 32768 plain texture gets a buffer of zero bytes while the
      fill writes four bytes for each of its 2^30 pixels. */
  lemma PlainTextureBufferOverflows()
    ensures var (pixels, bytes) := PlainTextureSizesAsWritten(32768, 32768);
            pixels == 0x4000_0000 && bytes == 0 && pixels * PLAIN_BPP > bytes
  {
  }

  /** The buffer of a plain texture: `width * height` pixels, each the memory image of the colour, so that the
      byte count is exactly `width * height * 4`. */
  function PlainTextureData(width: nat, height: nat, color: Color): (r: seq<bv8>)
    ensures |r| == width * height * PLAIN_BPP
    ensures forall i :: 0 <= i < |r| ==> r[i] == PixelBytes(color)[i % 4]
  {
    var bytes := PixelBytes(color);
    seq(width * height * PLAIN_BPP, i requires 0 <= i => bytes[i % 4])
  }

  /** Every pixel of a plain texture's buffer holds the packed colour, read back as a little-endian word. */
  lemma PlainTexturePixelsHoldColor(width: nat, height: nat, color: Color, p: nat)
    requires p < width * height
    ensures var data := PlainTextureData(width, height, color);
            4 * p + 4 <= |data| && data[4 * p..4 * p + 4] == LittleEndianBytes(DWColor(color))
  {
  }

  /** Creates a texture of the given size filled with one colour, four bytes per pixel, with buffer sizes
      computed without overflow. A name that is already registered is refused as by `CreateTexture`. */
  function CreatePlainTexture(m: TextureRegistry, name: string, width: int32, height: int32, color: Color)
    : (r: Result<(TextureRegistry, TextureIndex), TextureError>)
    requires |m.entries| < MAX_ENTRIES
    requires 0 <= width && 0 <= height
    ensures r.Failure? <==> FindTextureIndex(m, name) != INDEX_NONE
    ensures r.Success? ==>
              && r.value.1 == |m.entries|
              && |r.value.0.entries| == |m.entries| + 1
              && r.value.0.entries[..|m.entries|] == m.entries
              && r.value.0.entries[|m.entries|].name == name
              && var t := r.value.0.entries[|m.entries|].texture;
                 && t.width == width && t.height == height && t.bytesPerPixel == PLAIN_BPP
                 && |t.data| == width * height * PLAIN_BPP
                 && forall i :: 0 <= i < |t.data| ==> t.data[i] == PixelBytes(color)[i % 4]
  {
    CreateTexture(m, name, width, height, PLAIN_BPP, PlainTextureData(width, height, color))
  }
}

=== FILE: Widget.dfy ===
/**
 * The host widget that shows a context and collects input for it. Its input mode follows keyboard focus and
 * mouse hover; leaving a mode resets the part of the input state that mode owned. Key and pointer handlers fill
 * the input state and answer whether they consumed the event. Host queries (console open, hover, focus,
 * foreground window, console variables) are parameters.
 */
module ImGuiWidget {
  import Wrappers
  import opened Integers
  import opened ImGuiLibrary
  import opened SlateTypes
  import opened ImGuiInputState
  import opened ImGuiInterops
  import opened ImGuiDrawData
  import opened ImGuiContextProxy

  /** How much input the widget takes: none, the mouse pointer only (hover without focus), or mouse and keyboard
      (keyboard focus). */
  datatype InputMode = None | MousePointerOnly | MouseAndKeyboard

  datatype Widget = Widget(
    contextIndex: int32,
    inputMode: InputMode,
    inputEnabled: bool,
    receivedMouseEvent: bool,
    inputState: InputState)

  /** A widget as constructed: no input mode, input disabled, no mouse event noted, a fresh input state. */
  function NewWidget(contextIndex: int32): (r: Widget)
    ensures r.contextIndex == contextIndex
    ensures r.inputMode == None && !r.inputEnabled && !r.receivedMouseEvent
    ensures KeyboardCleared(r.inputState) && MouseCleared(r.inputState) && !r.inputState.hasMousePointer
  {
    Widget(contextIndex, None, false, false, NewInputState())
  }

  /** The widget accepts keyboard focus exactly when input is enabled. */
  predicate SupportsKeyboardFocus(w: Widget) {
    w.inputEnabled
  }

  function NotifyMouseEvent(w: Widget): (r: Widget)
    ensures HasMouseEventNotification(r)
    ensures r.(receivedMouseEvent := w.receivedMouseEvent) == w
  {
    w.(receivedMouseEvent := true)
  }

  function ClearMouseEventNotification(w: Widget): (r: Widget)
    ensures !HasMouseEventNotification(r)
    ensures r.(receivedMouseEvent := w.receivedMouseEvent) == w
  {
    w.(receivedMouseEvent := false)
  }

  predicate HasMouseEventNotification(w: Widget) {
    w.receivedMouseEvent
  }

  /** The library is told the pointer is over the widget only while the widget takes some input. */
  predicate PointerImpliesInput(w: Widget) {
    w.inputState.hasMousePointer ==> w.inputMode != None
  }

  //--------------------------------------------------------------------------------------------------------------
  // Input mode
  //--------------------------------------------------------------------------------------------------------------

  /** Derives the input mode from keyboard focus and mouse hover. On a change of mode, switching to no input
      resets the whole input state, leaving mouse-and-keyboard for pointer-only resets the keyboard part, and the
      mouse-event note is cleared; an unchanged mode resets nothing and keeps the note. The library draws the
      pointer exactly when the mouse is over the widget and the cursor console variable is positive. */
  function UpdateInputMode(w: Widget, hasKeyboardFocus: bool, hasMousePointer: bool, drawMouseCursor: int)
    : (r: Widget)
    ensures r.inputMode == MouseAndKeyboard <==> hasKeyboardFocus
    ensures r.inputMode == MousePointerOnly <==> !hasKeyboardFocus && hasMousePointer
    ensures r.inputMode == None <==> !hasKeyboardFocus && !hasMousePointer
    ensures r.inputState.hasMousePointer == (hasMousePointer && drawMouseCursor > 0)
    ensures PointerImpliesInput(r)
    ensures r.contextIndex == w.contextIndex && r.inputEnabled == w.inputEnabled
    ensures r.inputMode == w.inputMode ==>
              r.receivedMouseEvent == w.receivedMouseEvent
              && r.inputState == SetMousePointer(w.inputState, r.inputState.hasMousePointer)
    ensures r.inputMode != w.inputMode ==> !r.receivedMouseEvent
    ensures r.inputMode != w.inputMode && r.inputMode == None ==>
              KeyboardCleared(r.inputState) && MouseCleared(r.inputState) && ModifiersCleared(r.inputState)
    ensures r.inputMode != w.inputMode && r.inputMode != None && w.inputMode == MouseAndKeyboard ==>
              && KeyboardCleared(r.inputState)
              && SameMousePart(r.inputState, w.inputState) && SameModifiers(r.inputState, w.inputState)
    ensures r.inputMode != w.inputMode && r.inputMode != None && w.inputMode != MouseAndKeyboard ==>
              r.inputState == SetMousePointer(w.inputState, r.inputState.hasMousePointer)
  {
    var newMode := if hasKeyboardFocus then MouseAndKeyboard else if hasMousePointer then MousePointerOnly else None;
    var changed :=
      if w.inputMode != newMode then
        var state := if newMode == None then ResetState(w.inputState)
                     else if w.inputMode == MouseAndKeyboard then ResetKeyboardState(w.inputState)
                     else w.inputState;
        ClearMouseEventNotification(w.(inputState := state, inputMode := newMode))
      else
        w;
    changed.(inputState := SetMousePointer(changed.inputState, hasMousePointer && drawMouseCursor > 0))
  }

  /** The mode depends only on the latest focus and hover hints, so a repeated update with the same hints changes
      nothing more. */
  lemma UpdateInputModeIdempotent(w: Widget, focus: bool, pointer: bool, drawMouseCursor: int)
    ensures var once := UpdateInputMode(w, focus, pointer, drawMouseCursor);
            UpdateInputMode(once, focus, pointer, drawMouseCursor) == once
  {
  }

  /** In pointer-only mode, a frame with no mouse event means the pointer may have been lost without a leave
      event: the mode is derived again from hover alone. The note is cleared in that mode in any case. Other
      modes are left alone. */
  function UpdateMouseStatus(w: Widget, isDirectlyHovered: bool, drawMouseCursor: int): (r: Widget)
    ensures w.inputMode != MousePointerOnly ==> r == w
    ensures w.inputMode == MousePointerOnly ==> !r.receivedMouseEvent
    ensures w.inputMode == MousePointerOnly && w.receivedMouseEvent ==> r == w.(receivedMouseEvent := false)
    ensures w.inputMode == MousePointerOnly && !w.receivedMouseEvent ==>
              r.inputMode == (if isDirectlyHovered then MousePointerOnly else None)
              && r.inputState.hasMousePointer == (isDirectlyHovered && drawMouseCursor > 0)
  {
    if w.inputMode == MousePointerOnly then
      var checked := if !HasMouseEventNotification(w) then UpdateInputMode(w, false, isDirectlyHovered, drawMouseCursor)
                     else w;
      ClearMouseEventNotification(checked)
    else
      w
  }

  /** After each library update the per-frame input is cleared, unless the widget takes no input. */
  function OnPostImGuiUpdate(w: Widget): (r: Widget)
    ensures w.inputMode == None ==> r == w
    ensures w.inputMode != None ==>
              && r.inputState.keysUpdateRange.IsEmpty() && r.inputState.mouseButtonsUpdateRange.IsEmpty()
              && r.inputState.mouseWheelDelta == 0.0 && r.inputState.inputCharactersNum == 0
              && r.inputState.keysDown == w.inputState.keysDown
              && r.inputState.mouseButtonsDown == w.inputState.mouseButtonsDown
              && r.(inputState := w.inputState) == w
  {
    if w.inputMode != None then w.(inputState := ClearUpdateState(w.inputState)) else w
  }

  /** A widget without input keeps its state across updates; with input, the update state is cleared exactly
      once per update, so a second clearing finds nothing left. */
  lemma PostUpdateClearsOnlyWithInput(w: Widget)
    ensures OnPostImGuiUpdate(w) == w <==>
              w.inputMode == None || ClearUpdateState(w.inputState) == w.inputState
    ensures OnPostImGuiUpdate(OnPostImGuiUpdate(w)) == OnPostImGuiUpdate(w)
  {
  }

  //--------------------------------------------------------------------------------------------------------------
  // Keyboard
  //--------------------------------------------------------------------------------------------------------------

  /** Whether a key event is left to the host: the console key always, and Escape unless the context has an item
      being edited that Escape should cancel. `proxyActiveItem` is `None` when the widget's context does not
      exist. */
  predicate IgnoreKeyEvent(event: KeyEvent, proxyActiveItem: Wrappers.Option<bool>) {
    || event.key == TildeKey
    || (event.key == EscapeKey && !(proxyActiveItem.Some? && proxyActiveItem.value))
  }

  /** The modifier flags of any input event copied into the input state. */
  function CopyModifierKeys(s: InputState, modifiers: Modifiers): (r: InputState)
    ensures r.isControlDown == modifiers.control && r.isShiftDown == modifiers.shift && r.isAltDown == modifiers.alt
    ensures SameKeyboardPart(r, s) && SameMousePart(r, s) && r.hasMousePointer == s.hasMousePointer
  {
    SetAltDown(SetShiftDown(SetControlDown(s, modifiers.control), modifiers.shift), modifiers.alt)
  }

  /** A typed character is stored unless the console is open, in which case it is left to the console. */
  function OnKeyChar(w: Widget, event: CharacterEvent, consoleOpened: bool): (r: (Widget, Reply))
    ensures consoleOpened ==> r == (w, Unhandled)
    ensures !consoleOpened ==>
              r.1 == Handled && r.0 == w.(inputState := AddCharacter(w.inputState, event.character))
  {
    if consoleOpened then (w, Unhandled)
    else (w.(inputState := AddCharacter(w.inputState, event.character)), Handled)
  }

  /** A key press is recorded, with the event's modifiers, unless the console is open or the key is ignored; only a
      recorded press is reported as handled. */
  function OnKeyDown(w: Widget, event: KeyEvent, consoleOpened: bool, proxyActiveItem: Wrappers.Option<bool>)
    : (r: (Widget, Reply))
    ensures r.1 == Handled <==> !consoleOpened && !IgnoreKeyEvent(event, proxyActiveItem)
    ensures r.1 == Unhandled ==> r.0 == w
    ensures r.1 == Handled ==>
              r.0 == w.(inputState := CopyModifierKeys(SetKeyDown(w.inputState, GetKeyEventIndex(event), true),
                                                       event.modifiers))
  {
    if consoleOpened || IgnoreKeyEvent(event, proxyActiveItem) then
      (w, Unhandled)
    else
      var recorded := w.(inputState := CopyModifierKeys(SetKeyDown(w.inputState, GetKeyEventIndex(event), true),
                                                        event.modifiers));
      // The console key lets the press through to the console; it is already refused by `IgnoreKeyEvent`.
      if event.key == TildeKey then (recorded, Unhandled) else (recorded, Handled)
  }

  /** The console key and, without an active item, Escape never reach the input state, whatever the console. */
  lemma IgnoredKeysNeverRecorded(w: Widget, event: KeyEvent, consoleOpened: bool,
                                 proxyActiveItem: Wrappers.Option<bool>)
    requires event.key == TildeKey || (event.key == EscapeKey && proxyActiveItem != Wrappers.Some(true))
    ensures OnKeyDown(w, event, consoleOpened, proxyActiveItem) == (w, Unhandled)
  {
  }

  /** A key release is always recorded, so that keys pressed before input was suppressed are not left held; it
      is left to the host as well when the console is open. */
  function OnKeyUp(w: Widget, event: KeyEvent, consoleOpened: bool): (r: (Widget, Reply))
    ensures r.1 == Unhandled <==> consoleOpened
    ensures r.0 == w.(inputState := CopyModifierKeys(SetKeyDown(w.inputState, GetKeyEventIndex(event), false),
                                                     event.modifiers))
  {
    var recorded := w.(inputState := CopyModifierKeys(SetKeyDown(w.inputState, GetKeyEventIndex(event), false),
                                                      event.modifiers));
    (recorded, if consoleOpened then Unhandled else Handled)
  }

  /** A press recorded by `OnKeyDown` is undone by the matching `OnKeyUp`: the key is up again. */
  lemma KeyUpReleasesKeyDown(w: Widget, event: KeyEvent, consoleOpened: bool, proxyActiveItem: Wrappers.Option<bool>)
    requires GetKeyEventIndex(event) < KEYS_COUNT
    ensures var down := OnKeyDown(w, event, false, proxyActiveItem).0;
            !OnKeyUp(down, event, consoleOpened).0.inputState.keysDown[GetKeyEventIndex(event)]
  {
  }

  //--------------------------------------------------------------------------------------------------------------
  // Mouse
  //--------------------------------------------------------------------------------------------------------------

  /** Pointer events carry modifiers into the input state only in pointer-only mode; with keyboard focus the key
      events already provide them. */
  function CopyPointerModifierKeys(w: Widget, event: PointerEvent): (r: Widget)
    ensures w.inputMode == MousePointerOnly ==> r.inputState == CopyModifierKeys(w.inputState, event.modifiers)
    ensures w.inputMode != MousePointerOnly ==> r == w
    ensures r.(inputState := w.inputState) == w
  {
    if w.inputMode == MousePointerOnly then w.(inputState := CopyModifierKeys(w.inputState, event.modifiers)) else w
  }

  function OnMouseButtonDown(w: Widget, event: PointerEvent): (r: (Widget, Reply))
    ensures r.1 == Handled
    ensures r.0 == CopyPointerModifierKeys(
              w.(inputState := SetMouseDown(w.inputState, GetPointerEventMouseIndex(event), true)), event)
  {
    (CopyPointerModifierKeys(w.(inputState := SetMouseDown(w.inputState, GetPointerEventMouseIndex(event), true)),
                             event), Handled)
  }

  /** A double click is a press. */
  function OnMouseButtonDoubleClick(w: Widget, event: PointerEvent): (r: (Widget, Reply))
    ensures r == OnMouseButtonDown(w, event)
  {
    (CopyPointerModifierKeys(w.(inputState := SetMouseDown(w.inputState, GetPointerEventMouseIndex(event), true)),
                             event), Handled)
  }

  function OnMouseButtonUp(w: Widget, event: PointerEvent): (r: (Widget, Reply))
    ensures r.1 == Handled
    ensures r.0 == CopyPointerModifierKeys(
              w.(inputState := SetMouseDown(w.inputState, GetPointerEventMouseIndex(event), false)), event)
  {
    (CopyPointerModifierKeys(w.(inputState := SetMouseDown(w.inputState, GetPointerEventMouseIndex(event), false)),
                             event), Handled)
  }

  /** A button press followed by its release leaves that button up, and both mark the button dirty. */
  lemma ButtonUpReleasesButtonDown(w: Widget, event: PointerEvent)
    requires GetPointerEventMouseIndex(event) < MOUSE_BUTTONS_COUNT
    ensures var i := GetPointerEventMouseIndex(event);
            var s := OnMouseButtonUp(OnMouseButtonDown(w, event).0, event).0.inputState;
            !s.mouseButtonsDown[i] && s.mouseButtonsUpdateRange.Contains(i)
  {
  }

  function OnMouseWheel(w: Widget, event: PointerEvent): (r: (Widget, Reply))
    ensures r.1 == Handled
    ensures r.0.inputState.mouseWheelDelta == w.inputState.mouseWheelDelta + event.wheelDelta
    ensures r.0 == CopyPointerModifierKeys(w.(inputState := AddMouseWheelDelta(w.inputState, event.wheelDelta)), event)
  {
    (CopyPointerModifierKeys(w.(inputState := AddMouseWheelDelta(w.inputState, event.wheelDelta)), event), Handled)
  }

  /** A mouse move records the position relative to the widget's top-left corner and notes that a mouse event
      arrived. */
  function OnMouseMove(w: Widget, event: PointerEvent, absolutePosition: Vec2): (r: (Widget, Reply))
    ensures r.1 == Handled && HasMouseEventNotification(r.0)
    ensures r.0.inputState.mousePosition == Vec2(event.screenSpacePosition.x - absolutePosition.x,
                                                 event.screenSpacePosition.y - absolutePosition.y)
    ensures r.0.inputMode == w.inputMode
  {
    var moved := w.(inputState := SetMousePosition(w.inputState,
                      Vec2(event.screenSpacePosition.x - absolutePosition.x,
                           event.screenSpacePosition.y - absolutePosition.y)));
    (NotifyMouseEvent(CopyPointerModifierKeys(moved, event)), Handled)
  }

  /** The cursor shown over the widget: none when the library draws its own, otherwise the one the context
      captured in its last tick (none when the context does not exist). */
  function OnCursorQuery(drawMouseCursor: int, proxyCursor: Wrappers.Option<SlateCursor>): (r: SlateCursor)
    ensures drawMouseCursor > 0 || proxyCursor.None? ==> r == SlateNone
    ensures drawMouseCursor <= 0 && proxyCursor.Some? ==> r == proxyCursor.value
  {
    if drawMouseCursor <= 0 && proxyCursor.Some? then proxyCursor.value else SlateNone
  }

  //--------------------------------------------------------------------------------------------------------------
  // Focus and hover
  //--------------------------------------------------------------------------------------------------------------

  /** With keyboard focus the widget takes mouse and keyboard. */
  function OnFocusReceived(w: Widget, isDirectlyHovered: bool, drawMouseCursor: int): (r: Widget)
    ensures r.inputMode == MouseAndKeyboard
    ensures r == UpdateInputMode(w, true, isDirectlyHovered, drawMouseCursor)
  {
    UpdateInputMode(w, true, isDirectlyHovered, drawMouseCursor)
  }

  /** Without keyboard focus the widget keeps the pointer only while hovered. */
  function OnFocusLost(w: Widget, isDirectlyHovered: bool, drawMouseCursor: int): (r: Widget)
    ensures r.inputMode == (if isDirectlyHovered then MousePointerOnly else None)
    ensures r == UpdateInputMode(w, false, isDirectlyHovered, drawMouseCursor)
  {
    UpdateInputMode(w, false, isDirectlyHovered, drawMouseCursor)
  }

  /** The mouse buttons a mouse-enter refreshes, in the order it refreshes them. */
  const REFRESHED_BUTTONS: seq<HostKey> :=
    [LeftMouseButton, MiddleMouseButton, RightMouseButton, ThumbMouseButton, ThumbMouseButton2]

  /** The states of the given buttons refreshed, one after another, from the buttons held at an event. */
  function RefreshButtons(s: InputState, buttons: seq<HostKey>, pressed: set<HostKey>): (r: InputState)
    ensures SameKeyboardPart(r, s) && SameModifiers(r, s) && r.mousePosition == s.mousePosition
    decreases |buttons|
  {
    if |buttons| == 0 then s
    else RefreshButtons(SetMouseDown(s, GetMouseIndex(buttons[0]), buttons[0] in pressed), buttons[1..], pressed)
  }

  /** A refreshed button takes the state the event reports and is marked dirty; a button not refreshed keeps its
      state; nothing is unmarked. */
  lemma {:induction false} RefreshButtonsFollowsEvent(s: InputState, buttons: seq<HostKey>, pressed: set<HostKey>,
                                                      i: nat)
    requires i < MOUSE_BUTTONS_COUNT
    ensures var r := RefreshButtons(s, buttons, pressed);
            && (s.mouseButtonsUpdateRange.Contains(i) ==> r.mouseButtonsUpdateRange.Contains(i))
            && (MouseButtonAt(i) in buttons ==>
                  r.mouseButtonsDown[i] == (MouseButtonAt(i) in pressed) && r.mouseButtonsUpdateRange.Contains(i))
            && (MouseButtonAt(i) !in buttons ==> r.mouseButtonsDown[i] == s.mouseButtonsDown[i])
    decreases |buttons|
  {
    if |buttons| > 0 {
      var b := buttons[0];
      var s1 := SetMouseDown(s, GetMouseIndex(b), b in pressed);
      RefreshButtonsFollowsEvent(s1, buttons[1..], pressed, i);
      MouseIndexBijective(b, i);
      assert buttons == [b] + buttons[1..];
      if b == MouseButtonAt(i) {
        assert GetMouseIndex(b) == i;
      } else if GetMouseIndex(b) < MOUSE_BUTTONS_COUNT {
        MouseIndexBijective(b, GetMouseIndex(b));
        assert GetMouseIndex(b) != i;
      }
    }
  }

  /** A mouse-enter refresh sets all five buttons from the event and marks them all dirty. */
  lemma RefreshSetsAllButtons(s: InputState, pressed: set<HostKey>, i: nat)
    requires i < MOUSE_BUTTONS_COUNT
    ensures var r := RefreshButtons(s, REFRESHED_BUTTONS, pressed);
            r.mouseButtonsDown[i] == (MouseButtonAt(i) in pressed) && r.mouseButtonsUpdateRange.Contains(i)
  {
    RefreshButtonsFollowsEvent(s, REFRESHED_BUTTONS, pressed, i);
    assert MouseButtonAt(i) in REFRESHED_BUTTONS;
  }

  /** When the mouse enters while input is taken, the button states are refreshed from the event in case presses
      or releases were missed; then the mode is derived with the pointer present. */
  function OnMouseEnter(w: Widget, event: PointerEvent, hasKeyboardFocus: bool, drawMouseCursor: int): (r: Widget)
    ensures r.inputMode != None
    ensures w.inputMode == None ==> r == UpdateInputMode(w, hasKeyboardFocus, true, drawMouseCursor)
    ensures w.inputMode != None ==>
              r == UpdateInputMode(w.(inputState := RefreshButtons(w.inputState, REFRESHED_BUTTONS, event.pressedButtons)),
                                   hasKeyboardFocus, true, drawMouseCursor)
  {
    var refreshed := if w.inputMode != None then w.(inputState := RefreshButtons(w.inputState, REFRESHED_BUTTONS, event.pressedButtons))
                     else w;
    UpdateInputMode(refreshed, hasKeyboardFocus, true, drawMouseCursor)
  }

  /** When the mouse leaves, only keyboard focus in the foreground window keeps input; losing the foreground
      window often shows up only as a mouse leave. */
  function OnMouseLeave(w: Widget, hasKeyboardFocus: bool, isForegroundWindow: bool, drawMouseCursor: int)
    : (r: Widget)
    ensures r.inputMode == (if hasKeyboardFocus && isForegroundWindow then MouseAndKeyboard else None)
    ensures !r.inputState.hasMousePointer
  {
    UpdateInputMode(w, hasKeyboardFocus && isForegroundWindow, false, drawMouseCursor)
  }

  //--------------------------------------------------------------------------------------------------------------
  // Input enabling and tick
  //--------------------------------------------------------------------------------------------------------------

  /** The host state the widget samples each tick. `focusGranted` is the host's answer to a keyboard-focus request:
      Slate delivers the focus, and with it `OnFocusReceived`, before the request returns. */
  datatype HostView = HostView(
    inputEnabledVariable: int,
    drawMouseCursor: int,
    hasKeyboardFocus: bool,
    isDirectlyHovered: bool,
    isConsoleOpened: bool,
    viewportHasFocus: bool,
    isForegroundWindow: bool,
    focusGranted: bool)

  /** Follows the input-enabled console variable. Disabling input drops the input mode to none. While enabled and
      unfocused, the widget asks for keyboard focus when the viewport holds it and the console is closed (the
      second result); a granted request takes effect at once, as `OnFocusReceived`. Only then, with mouse and
      keyboard but outside the foreground window, keyboard input is dropped again. */
  function UpdateInputEnabled(w: Widget, host: HostView): (r: (Widget, bool))
    ensures r.0.inputEnabled == (host.inputEnabledVariable > 0)
    ensures SupportsKeyboardFocus(r.0) == (host.inputEnabledVariable > 0)
    ensures w.inputEnabled && host.inputEnabledVariable <= 0 ==> r.0.inputMode == None
    ensures r.1 <==> host.inputEnabledVariable > 0 && !host.hasKeyboardFocus && !host.isConsoleOpened
                     && host.viewportHasFocus
    ensures r.0.inputEnabled && !host.isForegroundWindow ==> r.0.inputMode != MouseAndKeyboard
    ensures r.1 && host.focusGranted && host.isForegroundWindow ==> r.0.inputMode == MouseAndKeyboard
    ensures r.1 && host.focusGranted && !host.isForegroundWindow ==>
              r.0.inputMode == (if host.isDirectlyHovered then MousePointerOnly else None)
    ensures (w.inputEnabled == r.0.inputEnabled && !(r.1 && host.focusGranted)
             && (host.isForegroundWindow || w.inputMode != MouseAndKeyboard)) ==> r.0 == w
  {
    var enabled := host.inputEnabledVariable > 0;
    var toggled := if w.inputEnabled != enabled then
                     var flipped := w.(inputEnabled := enabled);
                     if !enabled then UpdateInputMode(flipped, false, false, host.drawMouseCursor) else flipped
                   else w;
    var takeFocus := toggled.inputEnabled && !host.hasKeyboardFocus && !host.isConsoleOpened && host.viewportHasFocus;
    var focused := if takeFocus && host.focusGranted
                   then OnFocusReceived(toggled, host.isDirectlyHovered, host.drawMouseCursor)
                   else toggled;
    var checked := if focused.inputEnabled && !host.isForegroundWindow && focused.inputMode == MouseAndKeyboard
                   then UpdateInputMode(focused, false, host.isDirectlyHovered, host.drawMouseCursor)
                   else focused;
    (checked, takeFocus)
  }

  /** The widget's tick: the mouse status check, then the input-enabled update. */
  function Tick(w: Widget, host: HostView): (r: (Widget, bool))
    ensures r.0.inputEnabled == (host.inputEnabledVariable > 0)
    ensures r.0.contextIndex == w.contextIndex
    ensures r.1 <==> host.inputEnabledVariable > 0 && !host.hasKeyboardFocus && !host.isConsoleOpened
                     && host.viewportHasFocus
    ensures w.inputMode == MousePointerOnly ==> !r.0.receivedMouseEvent
    ensures (w.inputMode == MousePointerOnly && !w.receivedMouseEvent && !host.isDirectlyHovered
             && !(r.1 && host.focusGranted)) ==> r.0.inputMode == None && !r.0.inputState.hasMousePointer
    ensures (w.inputMode == MousePointerOnly && host.isDirectlyHovered && w.inputEnabled
             && host.inputEnabledVariable > 0 && !(r.1 && host.focusGranted)) ==> r.0.inputMode == MousePointerOnly
    ensures w.inputEnabled && host.inputEnabledVariable <= 0 ==> r.0.inputMode == None
    ensures r.0.inputEnabled && !host.isForegroundWindow ==> r.0.inputMode != MouseAndKeyboard
    ensures r.1 && host.focusGranted && host.isForegroundWindow ==> r.0.inputMode == MouseAndKeyboard
    ensures r.1 && host.focusGranted && !host.isForegroundWindow ==>
              r.0.inputMode == (if host.isDirectlyHovered then MousePointerOnly else None)
    ensures (w.inputMode != MousePointerOnly && w.inputEnabled == (host.inputEnabledVariable > 0)
             && !(r.1 && host.focusGranted) && (host.isForegroundWindow || w.inputMode != MouseAndKeyboard)) ==> r.0 == w
  {
    UpdateInputEnabled(UpdateMouseStatus(w, host.isDirectlyHovered, host.drawMouseCursor), host)
  }

  /** A second input-enabled update with the same host state changes nothing more and asks for focus alike. */
  lemma UpdateInputEnabledIdempotent(w: Widget, host: HostView)
    ensures var once := UpdateInputEnabled(w, host);
            UpdateInputEnabled(once.0, host) == once
  {
  }

  /** Every mode derivation sets the pointer flag only with an input mode: a new widget, a mouse enter and a mouse
      leave establish the pointer invariant whatever the widget held before. */
  lemma ModeChangesEstablishPointerImpliesInput(w: Widget, focus: bool, hover: bool, drawMouseCursor: int,
                                                event: PointerEvent)
    ensures PointerImpliesInput(NewWidget(w.contextIndex))
    ensures PointerImpliesInput(UpdateInputMode(w, focus, hover, drawMouseCursor))
    ensures PointerImpliesInput(OnMouseEnter(w, event, focus, drawMouseCursor))
    ensures PointerImpliesInput(OnMouseLeave(w, focus, hover, drawMouseCursor))
  {
  }

  /** The steps of a tick keep the pointer invariant, so the library never sees a pointer over a widget that takes
      no input. */
  lemma TickKeepsPointerImpliesInput(w: Widget, host: HostView)
    requires PointerImpliesInput(w)
    ensures PointerImpliesInput(UpdateMouseStatus(w, host.isDirectlyHovered, host.drawMouseCursor))
    ensures PointerImpliesInput(UpdateInputEnabled(w, host).0)
    ensures PointerImpliesInput(Tick(w, host).0)
  {
    var checked := UpdateMouseStatus(w, host.isDirectlyHovered, host.drawMouseCursor);
    assert PointerImpliesInput(checked);
    assert PointerImpliesInput(UpdateInputEnabled(checked, host).0);
  }

  /** The event handlers leave the input mode and the pointer flag alone, so they keep the pointer invariant. */
  lemma HandlersKeepPointerImpliesInput(w: Widget, key: KeyEvent, character: CharacterEvent, event: PointerEvent,
                                        consoleOpened: bool, proxyActiveItem: Wrappers.Option<bool>,
                                        absolutePosition: Vec2)
    requires PointerImpliesInput(w)
    ensures PointerImpliesInput(OnPostImGuiUpdate(w))
    ensures PointerImpliesInput(OnKeyChar(w, character, consoleOpened).0)
    ensures PointerImpliesInput(OnKeyDown(w, key, consoleOpened, proxyActiveItem).0)
    ensures PointerImpliesInput(OnKeyUp(w, key, consoleOpened).0)
    ensures PointerImpliesInput(OnMouseButtonDown(w, event).0)
    ensures PointerImpliesInput(OnMouseButtonUp(w, event).0)
    ensures PointerImpliesInput(OnMouseWheel(w, event).0)
    ensures PointerImpliesInput(OnMouseMove(w, event, absolutePosition).0)
  {
  }

  //--------------------------------------------------------------------------------------------------------------
  // Paint
  //--------------------------------------------------------------------------------------------------------------

  /** The indices of command `k`: the run that follows the runs of all commands before it. */
  function CommandIndices(list: ImGuiDrawList, k: nat): (r: seq<nat>)
    requires IndicesCoverCommands(list) && k < NumCommands(list)
    ensures ElementsBefore(list.commandBuffer, k) + list.commandBuffer[k].elemCount <= |list.indexBuffer|
    ensures |r| == list.commandBuffer[k].elemCount
    ensures forall j :: 0 <= j < |r| ==> r[j] == list.indexBuffer[ElementsBefore(list.commandBuffer, k) + j]
  {
    CommandIndicesInBuffer(list, k);
    var start := ElementsBefore(list.commandBuffer, k);
    seq(list.commandBuffer[k].elemCount, j requires 0 <= j < list.commandBuffer[k].elemCount => list.indexBuffer[start + j])
  }

  /** What the paint loop gives the renderer for one draw list: its vertices in screen space and, per command,
      the command and its index run. */
  datatype ListOutput = ListOutput(vertices: seq<SlateVertex>, commands: seq<DrawCommand>, indexRuns: seq<seq<nat>>)

  /** The per-command loop of the paint: the index offset starts at 0 and advances by each command's element
      count, in command order, so command `k` gets the run after those of commands `0..k-1`. The host's arrays
      hold fewer than 2^31 entries. */
  method PaintCommands(list: ImGuiDrawList) returns (commands: seq<DrawCommand>, runs: seq<seq<nat>>)
    requires IndicesCoverCommands(list) && |list.indexBuffer| < TWO_TO_THE_31
    ensures |commands| == NumCommands(list) && |runs| == NumCommands(list)
    ensures forall k :: 0 <= k < |runs| ==> commands[k] == GetCommand(list, k) && runs[k] == CommandIndices(list, k)
  {
    commands := [];
    runs := [];
    var offset := 0;
    var k := 0;
    while k < NumCommands(list)
      invariant 0 <= k <= NumCommands(list)
      invariant offset == ElementsBefore(list.commandBuffer, k)
      invariant |commands| == k && |runs| == k
      invariant forall j :: 0 <= j < k ==> commands[j] == GetCommand(list, j) && runs[j] == CommandIndices(list, j)
    {
      var command := GetCommand(list, k);
      CommandIndicesInBuffer(list, k);
      var run := CopyIndexData(list, offset as int32, command.numElements as int32);
      assert run == CommandIndices(list, k);
      commands := commands + [command];
      runs := runs + [run];
      offset := offset + command.numElements;
      k := k + 1;
    }
  }

  /** `out` is what the paint hands over for `list`: every vertex in screen space, moved by the widget's offset,
      and per command the converted command and its index run. */
  predicate PaintsList(out: ListOutput, list: ImGuiDrawList, offset: Vec2, clip: Wrappers.Option<RotatedRect>)
    requires IndicesCoverCommands(list)
  {
    && |out.vertices| == |list.vertexBuffer|
    && (forall j :: 0 <= j < |out.vertices| ==> out.vertices[j] == ScreenVertex(list.vertexBuffer[j], offset, clip))
    && |out.commands| == NumCommands(list) && |out.indexRuns| == NumCommands(list)
    && (forall k :: 0 <= k < |out.indexRuns| ==>
          out.commands[k] == GetCommand(list, k) && out.indexRuns[k] == CommandIndices(list, k))
  }

  /** The draw lists a paint hands to the renderer, one output per list, in order. */
  method PaintDrawLists(lists: seq<ImGuiDrawList>, offset: Vec2, clip: Wrappers.Option<RotatedRect>)
    returns (out: seq<ListOutput>)
    requires forall i :: 0 <= i < |lists| ==> IndicesCoverCommands(lists[i]) && |lists[i].indexBuffer| < TWO_TO_THE_31
    ensures |out| == |lists|
    ensures forall i :: 0 <= i < |out| ==> PaintsList(out[i], lists[i], offset, clip)
  {
    out := [];
    var i := 0;
    while i < |lists|
      invariant 0 <= i <= |lists|
      invariant |out| == i
      invariant forall j :: 0 <= j < i ==> PaintsList(out[j], lists[j], offset, clip)
    {
      var vertices := CopyVertexData(lists[i], offset, clip);
      var commands, runs := PaintCommands(lists[i]);
      out := out + [ListOutput(vertices, commands, runs)];
      i := i + 1;
    }
  }

  /** A paint first ticks the widget's context, so that its output is as fresh as possible, then hands every list
      captured by that tick to the renderer. Without a context nothing is painted. */
  method OnPaint(proxy: Wrappers.Option<ContextProxy>, env: FrameEnv, deltaTime: real, offset: Vec2,
                 clip: Wrappers.Option<RotatedRect>)
    returns (ticked: Wrappers.Option<ContextProxy>, out: seq<ListOutput>)
    requires proxy.Some? ==>
               var lists := ImGuiContextProxy.Tick(proxy.value, env, deltaTime).proxy.drawLists;
               forall i :: 0 <= i < |lists| ==> IndicesCoverCommands(lists[i]) && |lists[i].indexBuffer| < TWO_TO_THE_31
    ensures proxy.None? ==> ticked.None? && out == []
    ensures proxy.Some? ==> ticked == Wrappers.Some(ImGuiContextProxy.Tick(proxy.value, env, deltaTime).proxy)
    ensures proxy.Some? ==>
              && |out| == |ticked.value.drawLists|
              && forall i :: 0 <= i < |out| ==> PaintsList(out[i], ticked.value.drawLists[i], offset, clip)
  {
    if proxy.None? {
      return Wrappers.None, [];
    }
    var p := ImGuiContextProxy.Tick(proxy.value, env, deltaTime).proxy;
    ticked := Wrappers.Some(p);
    out := PaintDrawLists(p.drawLists, offset, clip);
  }
}

=== FILE: Wrappers.dfy ===
/** Option and Result, used for the source's null pointers and for its fatal checks on a caller's input. */
module Wrappers {

  /** A value that may be absent: the model of a nullable pointer or an optional reference. */
  datatype Option<+T> = None | Some(value: T)

  /** The outcome of an operation that the source may refuse. */
  datatype Result<+T, +E> = Success(value: T) | Failure(error: E) {
    predicate IsFailure() {
      Failure?
    }
  }
}
